=== FILE: README.md ===
# SNFY admin dashboard — a Dafny model of its client-side decisions

The SNFY dashboard is a browser admin console for the feed sources, articles, customer accounts and
internal users of a news-aggregation product. It is a thin client over a REST backend. What logic it
does hold sits inside its React components and API wrappers as small sequential decision functions.
This project lifts those decisions out as pure Dafny functions over immutable records. It then proves
what they promise: orderings, fallbacks, round trips, bounds and "nothing else changes" properties.

React state setters become functions from the old state to the new one. Browser storage is a
`map<string, string>`, and the current user is an `Option`. A router navigation is a returned target
path. The outcome of a network call is a parameter: a `Result` carrying the response or the thrown
error. JavaScript truthiness, `||` and `??` are modelled once, in `Js`, and every fallback chain is
written in terms of them.

Modules, one per source file or component:

- `Wrappers`, `Js`, `Decimal`, `Strings`, `Seqs` hold the shared pieces:
  - `Option`/`Result`;
  - JavaScript values and truthiness;
  - number-to-text conversion and its inverse;
  - the string methods `trim`, `split`, `join`, `startsWith`, `includes` and `replace`;
  - `filter`, `map` and `flatMap` on sequences.
- `Query` holds query strings as ordered key/value lists, built by appending the parameters whose guard
  holds and read back the way the backend reads them. `SortOrder` lives here.
- `ApiClient` (`src/lib/api/client.ts`) covers request headers, error normalisation, the success
  envelope, the 401 session teardown, the auth-token storage and the CSRF-token cache.
- `Auth` (`auth.ts`) and `Roles` (`roles.ts`) cover the session and role predicates.
- `FeedsApi`, `CustomersApi`, `UsersApi`, `ArticlesApi` cover the record transforms, the list query
  builders and the response mapping.
- `BulkImport` (`BulkFeedImport.tsx`) covers the line-based feed parser, the feed naming, the submit
  guards and the bulk payload.
- `ResetPassword` (`reset-password/page.tsx`) covers the password policy, live and submit validation,
  the result modal and the double-slash URL clean-up.
- `Paging` (`pagination.tsx`) covers the Previous/Next targets and the page count.
- `CustomerTable`, `FeedTable`, `ArticlesTable` and `UserTable` cover the table state updates.
- `IndustrySelect` (`IndustryMultiSelect.tsx`) and `FeedForm` (`FeedForm.tsx`) cover the forms.
- `DashboardLayout` (`dashboard/layout.tsx`) and `Sidebar` (`Sidebar.tsx`, `constants.ts`) cover the
  sidebar and the authentication gate.
- `Config` (`config.ts`) and `ClassNames` (`cn` in `utils.ts`) are small string helpers.

Foreign behaviour is passed in as function parameters, and the lemmas hold for every choice of them:

- the host name of `new URL(...)`;
- `toUpperCase`, and per-character `toLowerCase`;
- `JSON.parse`/`JSON.stringify`;
- the date normalisation and the clock of the articles transform.

## Model

| member | source | states |
|---|---|---|
| ApiClient.BaseUrl | src/lib/api/client.ts:6 | the configured API URL when it is set and non-empty, otherwise http://localhost:4000 |
| ApiClient.GetHeaders | src/lib/api/client.ts:82-99 | Content-Type is always the requested type; Authorization is present iff auth is asked for and the stored token is non-empty, and is then "Bearer " + token; X-CSRF-Token is present iff the cached token is non-empty; no other header is set |
| ApiClient.UploadHeaders | src/lib/api/client.ts:214-225 | the hand-built upload headers carry no Content-Type |
| ApiClient.UploadHeadersAgree | src/lib/api/client.ts:214-225 | the upload headers are exactly the JSON request headers minus Content-Type, so auth and CSRF follow the same rules |
| ApiClient.NormalizeError | src/lib/api/client.ts:104-117 | the message is the body's truthy message, else the status text, else "An error occurred"; the status code is the body's truthy statusCode, else the HTTP status; when the body is not JSON only status text and status are used |
| ApiClient.Unwrap | src/lib/api/client.ts:145-150 | an object with a data key and success === true is unwrapped to data; anything else is returned unchanged |
| ApiClient.HandleResponse | src/lib/api/client.ts:101-151 | every non-OK response throws the normalised error; only a 401 also removes auth_token and user and navigates to /login, otherwise storage is untouched; an OK response without JSON content yields {}; an OK JSON body is unwrapped |
| ApiClient.EnvelopeRoundTrip | src/lib/api/client.ts:145-146 | wrapping any data in a success envelope (whatever other fields it has) and unwrapping gives the data back |
| ApiClient.ApiErrorIffNotOk | src/lib/api/client.ts:101-133 | a response ends in an ApiClientError exactly when it is not OK |
| ApiClient.SetAuthToken | src/lib/api/client.ts:237-241 | auth_token holds the token afterwards and every other key is unchanged |
| ApiClient.ClearAuthToken | src/lib/api/client.ts:243-248 | auth_token and user are gone afterwards and every other key is unchanged |
| ApiClient.LoadCsrfToken | src/lib/api/client.ts:48-62 | a request is made iff no non-empty token is cached; a cached token is kept; a fetched token is stored with "" mapped to null; a failed or non-OK fetch leaves the state as it was |
| ApiClient.RefreshCsrfToken | src/lib/api/client.ts:250-255 | the cache is cleared first, so a request is always made and the result is the freshly fetched token or none |
| ApiClient.LoadIsCached | src/lib/api/client.ts:48-51 | once a non-empty token was loaded, loading again makes no request and changes nothing |
| ApiClient.ErrorText | src/components/feeds/FeedTable.tsx:52-56 | an API error shows its message, or the caller's fallback when the message is empty; any other error shows the caller's "unexpected" text |
| Auth.GetCurrentUser | src/lib/api/auth.ts:49-58 | none when no user entry is stored or the stored entry is empty; otherwise whatever parsing the stored string gives, none when it fails |
| Auth.IsAuthenticated | src/lib/api/auth.ts:60-63 | a session exists exactly when an auth token is stored and is not the empty string |
| Auth.Login | src/lib/api/auth.ts:26-43 | the post carries no Authorization header and a CSRF header iff a token is cached after the refresh; a freshly fetched token is the one cached, and after a failed refresh the cache holds whatever the post's own load fetched; a non-OK answer fails with the normalised error and a 401 tears the session down; an OK JSON answer whose unwrapped body is null or undefined fails with a non-client error and leaves storage untouched; login succeeds exactly on the other OK answers, and then auth_token is the access token, user is the serialised user, and no other key changes |
| Auth.Logout | src/lib/api/auth.ts:45-47 | only auth_token and user are removed |
| Auth.LoginStartsSession | src/lib/api/auth.ts:36-40 | after a successful login the session is authenticated iff the access token is non-empty, and the current user is the user the server sent |
| Auth.LogoutEndsSession | src/lib/api/auth.ts:45-63 | after logout nobody is authenticated and there is no current user |
| Roles.IsAdministrator | src/lib/utils/roles.ts:11-14 | true iff a current user exists with role "administrator", that is, it equals hasRole("administrator") |
| Roles.HasRole | src/lib/utils/roles.ts:19-22 | true exactly when a non-empty user entry is stored, parses, and carries that role |
| Roles.HasAnyRole | src/lib/utils/roles.ts:27-31 | true iff a current user exists and one of the listed roles is theirs; false with no user or no roles |
| Roles.HasAnyRoleConcat | src/lib/utils/roles.ts:27-31 | asking for the roles of a + b is asking for a or for b |
| FeedsApi.TransformIndustry | src/lib/api/feeds.ts:64-77 | a nested industry is taken as it is; otherwise the id is industryId when truthy, else the entity id, and the name is the name when truthy, else "" |
| FeedsApi.TransformFeed | src/lib/api/feeds.ts:60-96 | id, name, url and logo are copied; industries keep length and order (a missing list becomes []); status is enabled iff the backend flag is truthy; autoUpdate defaults to true and fullText to false only when absent; lastUpdated is the first truthy of lastUpdatedAt, updatedAt, createdAt; empty contact fields become undefined |
| FeedsApi.LastUpdatedFallback | src/lib/api/feeds.ts:89 | lastUpdated is truthy iff one of the three timestamps is, and it is the first truthy one, falling back to createdAt as it stands |
| FeedsApi.ExplicitFalsePreserved | src/lib/api/feeds.ts:86-87 | an explicit false autoUpdate or fullText survives the transform |
| FeedsApi.ListParams | src/lib/api/feeds.ts:100-108 | the keys appear in the order page, limit, search, enabled, sortBy, each one only when its value is truthy; page and limit are sent as their decimal text, search and enabled as given, and sortBy as the chosen order's word exactly when an order is chosen, never otherwise |
| FeedsApi.ListParamsRoundTrip | src/lib/api/feeds.ts:100-108 | reading the parameters back gives the query with exactly its falsy fields (0, "", absent) dropped |
| FeedsApi.MapListResponse | src/lib/api/feeds.ts:115-118 | every backend feed is transformed, keeping count and order, and pagination is passed through unchanged |
| CustomersApi.TransformCustomer | src/lib/api/customers.ts:33-46 | all ten fields are copied unchanged |
| CustomersApi.TransformRoundTrip | src/lib/api/customers.ts:33-46 | the transform is a bijection: mapping back to the backend record gives the record it came from, in both directions |
| CustomersApi.ListParams | src/lib/api/customers.ts:50-59 | keys in the order page, limit, search, emailVerified, isActive; page, limit and search only when truthy; the two flags whenever defined, false included, as "true" or "false" |
| CustomersApi.ListParamsRoundTrip | src/lib/api/customers.ts:50-59 | reading the parameters back loses only a falsy page, limit or search; both flags come back exactly |
| CustomersApi.MapListResponse | src/lib/api/customers.ts:65-68 | data keeps length and order, each entry the transform of its backend record; pagination is unchanged |
| UsersApi.TransformUser | src/lib/api/users.ts:22-32 | id, name, email, role, lastLoginAt and createdAt are copied; a defined isActive is kept |
| UsersApi.InactiveOnlyWhenSaid | src/lib/api/users.ts:28 | a user is inactive iff the backend sent isActive = false explicitly |
| UsersApi.ListParams | src/lib/api/users.ts:36-39 | keys in the order page, limit, search, each only when truthy |
| UsersApi.ListParamsRoundTrip | src/lib/api/users.ts:36-39 | reading the parameters back gives the query with exactly its falsy fields dropped |
| UsersApi.MapListResponse | src/lib/api/users.ts:45-48 | total, page and limit are kept; data is transformed keeping length and order |
| ArticlesApi.TransformArticle | src/lib/api/articles.ts:44-66 | the ten plain fields are copied; publishedAt is absent iff the backend value is falsy, else its normalised form; createdAt and updatedAt are normalised when truthy, else each takes its own clock reading |
| ArticlesApi.ClockOnlyForMissingStamps | src/lib/api/articles.ts:59-64 | when both timestamps are present the result depends on neither clock reading |
| ArticlesApi.ListParams | src/lib/api/articles.ts:17-23 | keys in the order page, limit, search, sortBy, each only when truthy; page and limit as decimal text, search as given, and sortBy as the chosen order's word exactly when an order is chosen |
| ArticlesApi.ListParamsRoundTrip | src/lib/api/articles.ts:17-23 | reading the parameters back gives the query with exactly its falsy fields dropped |
| ArticlesApi.MapListResponse | src/lib/api/articles.ts:32-35 | total, page and limit are kept; data is transformed keeping length and order, each article with its own clock readings |
| Query.EmitKeepsOrder | src/lib/api/feeds.ts:100-108 | the appended keys are the candidate keys with the skipped ones left out, in the same order |
| Query.EmitLookup | src/lib/api/feeds.ts:100-108 | with distinct keys, reading back any candidate's key gives exactly the value offered (absent when it was skipped) |
| Query.EmitFaithful | src/lib/api/feeds.ts:100-108 | a builder over a fixed list of distinct keys both keeps that order and reads every key back as offered |
| Query.EmitLookupAbsent | src/lib/api/feeds.ts:100-108 | a key no candidate carries is never sent |
| Query.NumParamRoundTrip | src/lib/api/feeds.ts:101-102 | a number sent with toString() reads back as that number; 0 and absent are not sent |
| Query.FlagParamRoundTrip | src/lib/api/customers.ts:54-59 | a flag sent with toString() reads back as that flag, false included |
| Query.SortParamRoundTrip | src/lib/api/feeds.ts:105-108 | a sort order sent as its word reads back as that order |
| Query.DecodeSort | src/lib/api/feeds.ts:105-108 | only the two order words are read as an order |
| Decimal.NatToString | src/lib/api/feeds.ts:101 | the decimal numeral is non-empty, all digits and without a leading zero |
| Decimal.IntToString | src/lib/api/feeds.ts:101 | the text starts with '-' exactly for negative numbers |
| Decimal.NatRoundTrip | src/lib/api/feeds.ts:101 | parsing the numeral of n gives n |
| Decimal.IntRoundTrip | src/lib/api/feeds.ts:101 | parsing the text of any integer gives that integer |
| Decimal.IntToStringInjective | src/lib/api/feeds.ts:101 | different integers have different texts |
| Js.EmptyToAbsent | src/lib/api/feeds.ts:91-94 | an empty or absent string becomes absent; any other string is kept as it is |
| Js.Member | src/lib/api/client.ts:105-110 | reading a field of null or undefined throws; an object yields its field |
| Js.OrTruthy | src/lib/api/client.ts:108 | the or-operator's result is truthy iff one of its operands is |
| Js.OrAssociative | src/lib/api/client.ts:108 | a chain of or-operators does not depend on grouping: it is the first truthy operand, else the last one |
| Js.ToText | src/lib/api/client.ts:128-132 | a string message is used as it is |
| BulkImport.HostLabel | src/components/forms/BulkFeedImport.tsx:74-76 | the label is the text before the first dot of the host name once its first "www." is removed, or all of it when no dot follows |
| BulkImport.ExtractFeedName | src/components/forms/BulkFeedImport.tsx:71-80 | a URL that does not parse is named "RSS Feed"; one that parses is named after its capitalised host label |
| BulkImport.FeedNameOfHost | src/components/forms/BulkFeedImport.tsx:71-80 | for every host name, the feed name is the capitalised text before the first dot once the first "www." is gone, whatever the shape of the host |
| BulkImport.WwwHostName | src/components/forms/BulkFeedImport.tsx:74-76 | a host "www.word.rest" is named after word, its first character upper-cased |
| BulkImport.PlainHostName | src/components/forms/BulkFeedImport.tsx:74-76 | a host "word.rest" without "www." is named after word, its first character upper-cased |
| BulkImport.WwwRemovedAnywhere | src/components/forms/BulkFeedImport.tsx:74-75 | the first "www." is removed wherever it stands, so a label ending in "www" fuses with the next one ("shopwww.example.com" gives "shopexample") |
| BulkImport.FeedOfFields | src/components/forms/BulkFeedImport.tsx:48-55 | a feed is read iff there are at least two fields and the second starts with "http"; name is field one, url field two, and the logo is field three exactly when it exists and starts with "http" |
| BulkImport.ParseLine | src/components/forms/BulkFeedImport.tsx:43-65 | a line starting with http:// or https:// is one feed whose url is the whole line and whose name is extracted from it, whatever separators it holds; otherwise a line with a vertical bar is split only on the bar; otherwise a line with a comma is split on commas; any other line gives nothing; every feed's url starts with "http" |
| BulkImport.Lines | src/components/forms/BulkFeedImport.tsx:35-38 | the kept lines are trimmed and non-empty |
| BulkImport.LineFeeds | src/components/forms/BulkFeedImport.tsx:42-66 | a line contributes at most one feed, with a url starting "http" |
| BulkImport.ParseLines | src/components/forms/BulkFeedImport.tsx:42-66 | there are never more feeds than lines |
| BulkImport.ParsedUrlsAreHttp | src/components/forms/BulkFeedImport.tsx:42-66 | every parsed feed has a url starting with "http" |
| BulkImport.ParseFeeds | src/components/forms/BulkFeedImport.tsx:34-69 | at most one feed per kept line |
| BulkImport.ParsedAtMostDetected | src/components/forms/BulkFeedImport.tsx:172 | the parsed count never exceeds the "feed(s) detected" count under the text box |
| BulkImport.DetectedCount | src/components/forms/BulkFeedImport.tsx:172 | the "feed(s) detected" count is at most the number of lines, and equals the number of trimmed non-empty lines the parser reads |
| BulkImport.ParseLinesConcat | src/components/forms/BulkFeedImport.tsx:42-66 | the feeds of two runs of lines are the feeds of the first followed by those of the second, so input order is kept |
| BulkImport.ParseFeedsConcat | src/components/forms/BulkFeedImport.tsx:34-69 | joining two texts with a line break concatenates their feeds |
| BulkImport.SingleLine | src/components/forms/BulkFeedImport.tsx:35-38 | a single blank line gives no feed; any other single line is parsed trimmed |
| BulkImport.BlankLineIgnored | src/components/forms/BulkFeedImport.tsx:35-38 | inserting a blank or white-space line between two blocks changes nothing |
| BulkImport.FormatIsDelimitedLine | src/components/forms/BulkFeedImport.tsx:43-47 | the bar-separated line of a well-formed feed is not a bare URL, contains a bar and has no surrounding white space |
| BulkImport.FormatParseLine | src/components/forms/BulkFeedImport.tsx:47-55 | a well-formed feed written as a bar-separated line is parsed back as the same feed |
| BulkImport.FormatLine | src/components/forms/BulkFeedImport.tsx:34-69 | such a line, as the whole text, parses to exactly that feed |
| BulkImport.FormatAllRoundTrip | src/components/forms/BulkFeedImport.tsx:34-69 | any list of well-formed feeds written one per line parses back to the same list, in order |
| BulkImport.Submit | src/components/forms/BulkFeedImport.tsx:88-121 | blank text is rejected first, then an empty industry selection, then text with no parsed feed, each with its own message; otherwise one item per parsed feed, in order, with its name, url and logo, the same industry id list, autoUpdate true, fullText false and enabled true |
| BulkImport.AfterImport | src/components/forms/BulkFeedImport.tsx:123-149 | on success the summary carries the created and failed counts and one failed item per rejected feed, named by its name or else its url, and the page redirects to the feed list iff something was created; on failure the error text is shown; submitting always ends |
| BulkImport.AfterImportListsEveryRejection | src/components/forms/BulkFeedImport.tsx:125-133 | the failed items correspond one to one and in order with the rejected feeds, keep url and reason, and are named by the non-empty name or else the url, so an item is unnamed only when the backend sent neither |
| BulkImport.ImportAccountsForEveryFeed | src/components/forms/BulkFeedImport.tsx:108-140 | when the backend accounts for every item sent, created plus failed is the number of parsed feeds, the failed items match the failure count, and the page redirects iff not every feed failed |
| ResetPassword.ValidatePassword | src/app/reset-password/page.tsx:54-69 | no message at all exactly when the password has at least 8 characters, a lowercase letter, an uppercase letter and a digit; at most four messages |
| ResetPassword.FailedRules | src/app/reset-password/page.tsx:54-69 | every rule reported is one the password fails, and no more rules are reported than checked |
| ResetPassword.ValidateInRuleOrder | src/app/reset-password/page.tsx:54-69 | the messages are exactly the messages of the failed rules, in the order length, lowercase, uppercase, digit |
| ResetPassword.FailedRulesInOrder | src/app/reset-password/page.tsx:56-67 | each of the four rules contributes itself exactly when the password fails it, in the order the checks run |
| ResetPassword.LiveErrors | src/app/reset-password/page.tsx:137-161 | no error while either field is empty; otherwise the strength messages come first and a trailing "Passwords do not match" is added exactly when the two fields differ |
| ResetPassword.OnPasswordChange | src/app/reset-password/page.tsx:137-148 | the password becomes the typed value, the errors are the live errors against the current confirmation, and nothing else changes |
| ResetPassword.OnConfirmChange | src/app/reset-password/page.tsx:150-161 | the confirmation becomes the typed value, the errors are the live errors of the current password against it, and nothing else changes |
| ResetPassword.Submit | src/app/reset-password/page.tsx:71-95 | a mismatch shows only the mismatch message; a weak password shows its strength messages; a missing token fails the page with its modal; the request goes out exactly when the passwords match, are strong and a token is present, with the page loading and the errors cleared |
| ResetPassword.EnabledButtonPassesChecks | src/app/reset-password/page.tsx:272 | when the button is enabled and the errors are the live ones, the passwords match and are strong, so submitting sends the request exactly when a token is present |
| ResetPassword.SubmitDisabled | src/app/reset-password/page.tsx:272 | with the live errors shown, the button is enabled exactly when both fields are filled, the passwords match and the password passes every rule |
| ResetPassword.Finish | src/app/reset-password/page.tsx:110-126 | the modal always opens; success iff the endpoint answered ok, with its truthy message or the success fallback; otherwise failure with the body's message, else its error message, else the failure fallback; an unreachable endpoint gives the generic error message |
| ResetPassword.FinishThenClose | src/app/reset-password/page.tsx:110-135 | whatever the reply the modal opens with a non-empty message, and closing it goes to /login exactly when the endpoint answered ok |
| ResetPassword.CloseModal | src/app/reset-password/page.tsx:129-135 | the modal closes with nothing else changed, and the page goes to /login exactly after a success |
| ResetPassword.Mount | src/app/reset-password/page.tsx:44-51 | a non-empty token parameter is kept on a blank form; an absent or empty one fails the page at once with the check-your-email message and the modal open |
| ResetPassword.SlashRunEnd | src/app/reset-password/page.tsx:37 | the returned position ends the run of slashes starting at the given one: everything before it is a slash and the character at it is not |
| ResetPassword.CleanUrl | src/app/reset-password/page.tsx:37 | the cleaned URL is never longer, keeps its first two characters, and leaves URLs shorter than two characters alone |
| ResetPassword.CleanIsFixed | src/app/reset-password/page.tsx:37 | a URL with no double slash outside a ":" prefix is left unchanged |
| ResetPassword.CleanUrlIsClean | src/app/reset-password/page.tsx:37 | after cleaning, no character other than ":" is followed by two slashes |
| ResetPassword.CleanUrlIdempotent | src/app/reset-password/page.tsx:37-38 | cleaning twice is cleaning once, and a URL is unchanged by cleaning exactly when it is already clean |
| ResetPassword.FixUrl | src/app/reset-password/page.tsx:36-41 | the history is rewritten exactly when the URL is not clean, and then to the cleaned URL, which is clean |
| IndustrySelect.WithoutId | src/components/forms/IndustryMultiSelect.tsx:52 | the result holds no entry with the id, only entries of the selection, and every entry of another id; the entries keep their order, as WithoutIdConcat and ToggleRemovesInOrder state |
| IndustrySelect.Toggle | src/components/forms/IndustryMultiSelect.tsx:49-56 | after toggling, the id is selected exactly when it was not before; an unselected industry is appended after the unchanged selection; a selected one is removed with every entry of its id while all other entries stay; the order they keep is given by ToggleRemovesInOrder |
| IndustrySelect.WithoutIdConcat | src/components/forms/IndustryMultiSelect.tsx:52 | the removal distributes over concatenation, so the entries it keeps stay in their relative order |
| IndustrySelect.ToggleRemovesInOrder | src/components/forms/IndustryMultiSelect.tsx:49-56 | with distinct ids, toggling a selected industry gives the selection with exactly that entry cut out, every other entry in its original order |
| IndustrySelect.RemovalShrinks | src/components/forms/IndustryMultiSelect.tsx:52 | removing an id that is selected makes the selection strictly shorter |
| IndustrySelect.ToggleTwiceRestores | src/components/forms/IndustryMultiSelect.tsx:49-56 | adding an unselected industry and toggling it again gives back the original selection |
| IndustrySelect.ToggleKeepsDistinct | src/components/forms/IndustryMultiSelect.tsx:49-56 | a selection without duplicate ids keeps that property under toggling |
| IndustrySelect.FilterKeepsDistinct | src/components/forms/IndustryMultiSelect.tsx:52 | filtering a selection without duplicate ids leaves none |
| IndustrySelect.Filtered | src/components/forms/IndustryMultiSelect.tsx:43-47 | the shown industries are exactly the loaded ones whose lower-cased name contains the lower-cased query |
| IndustrySelect.EmptyQueryKeepsAll | src/components/forms/IndustryMultiSelect.tsx:43-47 | an empty search shows every loaded industry in order |
| IndustrySelect.FilteredConcat | src/components/forms/IndustryMultiSelect.tsx:43-47 | the filter keeps list order: filtering two lists joined is filtering each and joining |
| Paging.TargetsInRange | src/components/ui/pagination.tsx:14-30 | on a page in range both buttons lead to a page in range; Previous is disabled exactly on page 1 and Next exactly on the last page, which are the pages where pressing would not move; an enabled button moves by exactly one page |
| Paging.NextThenPrev | src/components/ui/pagination.tsx:16-26 | away from the last page, Next followed by Previous returns to the starting page |
| Paging.PrevTarget | src/components/ui/pagination.tsx:16 | from any page, Previous leads to the larger of 1 and the page before |
| Paging.NextTarget | src/components/ui/pagination.tsx:26 | from any page, Next leads to the smaller of the page count and the page after |
| Paging.PrevDisabled | src/components/ui/pagination.tsx:17 | Previous is disabled exactly when pressing it would leave the page where it is |
| Paging.NextDisabled | src/components/ui/pagination.tsx:27 | Next is disabled exactly when pressing it would leave the page where it is |
| Paging.NextPastEnd | src/components/ui/pagination.tsx:26 | from a page at or past the page count, Next goes to the page count |
| Paging.PrevBelowStart | src/components/ui/pagination.tsx:16 | from page 1 or below, Previous goes to page 1 |
| Paging.CeilDiv | src/components/feeds/FeedTable.tsx:65 | the rounded-up quotient is the least whole number of divisor-sized blocks that hold the dividend |
| Paging.PageCount | src/components/feeds/FeedTable.tsx:65 | the page count is at least 1, holds every item, and leaves no empty last page when there are items; with no items it is 1 |
| Paging.PageCountIsLeast | src/components/articles/ArticlesTable.tsx:64 | no smaller positive number of pages holds every item |
| CustomerTable.Initial | src/components/customers/CustomerTable.tsx:18-31 | the table mounts on page 1 with an empty search, no filter and zero pages |
| CustomerTable.ListQuery | src/components/customers/CustomerTable.tsx:38-44 | the request asks for the current page with limit 20, the search text only when it is non-empty, and both filters as they stand |
| CustomerTable.RequestCarriesState | src/components/customers/CustomerTable.tsx:38-44 | what the backend reads back from the query string is the limit 20, the page (when not 0), the search text when non-empty, and each filter that is set, false included |
| CustomerTable.StartFetch | src/components/customers/CustomerTable.tsx:35-36 | fetching sets loading and clears the error, keeping the rows, page and total |
| CustomerTable.Loaded | src/components/customers/CustomerTable.tsx:45-55 | loading always ends; a success installs the returned rows, total and page count; a failure keeps them and shows the client error's truthy message, else "Failed to load customers", or "An unexpected error occurred" for any other error; page, search and filters are untouched |
| CustomerTable.SearchChange | src/components/customers/CustomerTable.tsx:70-73 | typing sets the search text and returns to page 1, leaving the filters and rows alone |
| CustomerTable.FilterChange | src/components/customers/CustomerTable.tsx:75-82 | only the named filter takes the new value, the other filter and the search are kept, and the page returns to 1 |
| CustomerTable.SelectValue | src/components/customers/CustomerTable.tsx:107 | a select box always shows one of its three option values: all, true or false |
| CustomerTable.ParseSelect | src/components/customers/CustomerTable.tsx:109 | "all" and only "all" clears the filter, "true" and only "true" sets it to true, anything else sets it to false |
| CustomerTable.SelectRoundTrip | src/components/customers/CustomerTable.tsx:107-121 | choosing the option a select shows leaves its filter unchanged, and each of the three options reads back as itself |
| CustomerTable.Previous | src/components/customers/CustomerTable.tsx:252 | only the page changes; it becomes the larger of 1 and the page before |
| CustomerTable.Next | src/components/customers/CustomerTable.tsx:259 | only the page changes; it becomes the smaller of the page count and the page after, so from past the count it goes back to the count |
| CustomerTable.FooterButtonsMoveOnePage | src/components/customers/CustomerTable.tsx:250-263 | while idle on a page in range, an enabled Previous or Next moves exactly one page and stays in range, and a disabled one is exactly one whose press would change nothing |
| CustomerTable.ShowingWithinTotal | src/components/customers/CustomerTable.tsx:268-270 | on a page holding rows, "Showing a to b of total" has 1 at most a, a at most b, b at most the total, and at most 20 rows in between |
| CustomerTable.ShowingTiles | src/components/customers/CustomerTable.tsx:268-269 | a full page's range ends right before the next page's range starts |
| CustomerTable.ValidPageHoldsRows | src/components/customers/CustomerTable.tsx:268-270 | every page up to the rounded-up page count starts within the total, so its range is non-empty |
| CustomerTable.WindowSize | src/components/customers/CustomerTable.tsx:282 | there are at most five numbered buttons: five, or as many as there are pages |
| CustomerTable.PageWindow | src/components/customers/CustomerTable.tsx:282-292 | the numbered buttons are consecutive page numbers and there are as many as the window size |
| CustomerTable.WindowWellFormed | src/components/customers/CustomerTable.tsx:282-304 | on a page in range every button is a page in range and one of them is the current page |
| CustomerTable.SmallWindowShowsAll | src/components/customers/CustomerTable.tsx:284-285 | with five pages or fewer every page from 1 up has a button |
| CustomerTable.WindowCentred | src/components/customers/CustomerTable.tsx:290-291 | away from both ends of a long list the current page is the middle of the five buttons |
| CustomerTable.WindowPinned | src/components/customers/CustomerTable.tsx:286-289 | within three pages of the start the first button is page 1; within three of the end the last button is the last page |
| FeedTable.Initial | src/components/feeds/FeedTable.tsx:22-33 | the table starts from the server-rendered rows and total, newest first, on page 1, with no search, no delete target and no busy row |
| FeedTable.ListQuery | src/components/feeds/FeedTable.tsx:43-48 | the request asks for the current page with 10 rows, the search text only when non-empty, no enabled filter, and the current order |
| FeedTable.RequestCarriesState | src/components/feeds/FeedTable.tsx:43-48 | what the backend reads back from the query string is the page size 10, the page (when not 0), the search text when non-empty, no enabled filter and the chosen order |
| FeedTable.PageCount | src/components/feeds/FeedTable.tsx:65 | at least one page, enough pages for the total at 10 rows each, and no empty last page |
| FeedTable.Previous | src/components/feeds/FeedTable.tsx:354 | only the page changes; it becomes the larger of 1 and the page before |
| FeedTable.Next | src/components/feeds/FeedTable.tsx:354 | only the page changes; it becomes the smaller of the page count and the page after, so from past the count it goes back to the count |
| FeedTable.PageStaysInRange | src/components/feeds/FeedTable.tsx:352-355 | from a page in range, Previous and Next leave the page in range |
| FeedTable.StartFetch | src/components/feeds/FeedTable.tsx:40-41 | fetching sets loading and clears the error, keeping the rows and page |
| FeedTable.Loaded | src/components/feeds/FeedTable.tsx:49-59 | loading always ends with page, search and order untouched; a success installs the returned rows and total; a failure keeps them and shows the client error's truthy message, else "Failed to load feeds", or "An unexpected error occurred" for any other error |
| FeedTable.SearchChange | src/components/feeds/FeedTable.tsx:165-168 | typing sets the search text and returns to page 1, keeping the order and rows |
| FeedTable.SortChange | src/components/feeds/FeedTable.tsx:175-188 | either order button sets that order and returns to page 1, keeping the search and rows |
| FeedTable.ReplaceById | src/components/feeds/FeedTable.tsx:73-75 | every row with the id becomes the updated feed, every other row is unchanged, and the length is kept |
| FeedTable.RemoveById | src/components/feeds/FeedTable.tsx:96 | the rows left are rows of the table without the id, and every row of another id is left |
| FeedTable.RemoveDistinctRow | src/components/feeds/FeedTable.tsx:96 | in a table with distinct ids, deleting a row's id removes exactly that row and keeps the others in order |
| FeedTable.OtherIdsKept | src/components/feeds/FeedTable.tsx:96 | a stretch of rows none of which has the id survives the delete filter whole |
| FeedTable.RemoveAfterReplace | src/components/feeds/FeedTable.tsx:73-96 | replacing a feed by one with the same id and then deleting that id gives the same rows as deleting at once |
| FeedTable.ReplaceIdempotent | src/components/feeds/FeedTable.tsx:73-75 | applying the same toggle result twice is applying it once |
| FeedTable.RequestedEnabled | src/components/feeds/FeedTable.tsx:68 | the toggle asks to enable exactly when the feed is shown as disabled |
| FeedTable.ToggleFlipsBackendFlag | src/components/feeds/FeedTable.tsx:68 | for a feed read from the backend, the toggle asks for the negation of its enabled flag |
| FeedTable.StartToggle | src/components/feeds/FeedTable.tsx:69 | the feed's id is marked as toggling, nothing else changes |
| FeedTable.FinishToggle | src/components/feeds/FeedTable.tsx:71-88 | the id is released; a success replaces the rows with that id by the returned feed; a failure keeps the rows and shows the client error's truthy message, else "Failed to toggle feed", or the unexpected-error text |
| FeedTable.ToggleReleasesRow | src/components/feeds/FeedTable.tsx:67-89 | whatever the outcome, a toggle leaves that feed's button enabled, every other id's busy mark as it was, and the row count unchanged |
| FeedTable.AskDelete | src/components/feeds/FeedTable.tsx:336 | the chosen feed becomes the delete target, rows untouched |
| FeedTable.CloseDelete | src/components/feeds/FeedTable.tsx:369 | the delete target is cleared, rows and total untouched |
| FeedTable.ConfirmDelete | src/components/feeds/FeedTable.tsx:91-107 | without a target nothing happens; otherwise the target is always cleared and either its rows are removed and the total drops by one, or rows and total are kept and the client error's truthy message, else "Failed to delete feed", or the unexpected-error text is shown |
| FeedTable.DeleteDropsOneRow | src/components/feeds/FeedTable.tsx:91-98 | confirming the delete of a row in a table with distinct ids leaves exactly the other rows in order, one fewer in the total, and no target |
| FeedTable.RefreshMessage | src/components/feeds/FeedTable.tsx:132-134 | the backend's non-empty error text wins; otherwise the message reports the created and skipped article counts in decimal |
| FeedTable.RefreshFailureIsShown | src/components/feeds/FeedTable.tsx:132-134 | a refresh the backend reports as failed always yields a non-empty message, so the error banner appears |
| FeedTable.StartRefresh | src/components/feeds/FeedTable.tsx:114-115 | the feed's id is marked as refreshing and the error is cleared |
| FeedTable.FinishRefresh | src/components/feeds/FeedTable.tsx:117-148 | the id is released and the current page, search and order are kept; a reported success sends the list request of the table as it stood at the click and installs its answer, with no error, whatever page is current; a reported failure shows its message; a thrown error, in the refresh or the re-list, shows its text or the fallback |
| FeedTable.RelistUsesClickedState | src/components/feeds/FeedTable.tsx:123-128 | the re-list after a successful refresh asks the backend for the page, search text and order of the moment the button was pressed, with page size 10 |
| FeedTable.RefreshReleasesRow | src/components/feeds/FeedTable.tsx:113-149 | whatever the outcome, a refresh leaves that feed's button enabled and every other id's busy marks, toggling included, as they were |
| ArticlesTable.Initial | src/components/articles/ArticlesTable.tsx:21-33 | the table starts from the feed's server-rendered articles and total, newest first, on page 1, with no search and not loading |
| ArticlesTable.ListQuery | src/components/articles/ArticlesTable.tsx:42-47 | the request asks for the current page with 20 rows, the search text only when non-empty, and the current order |
| ArticlesTable.RequestCarriesState | src/components/articles/ArticlesTable.tsx:42-47 | what the backend reads back from the query string is the page size 20, the page (when not 0), the search text when non-empty and the chosen order |
| ArticlesTable.PageCount | src/components/articles/ArticlesTable.tsx:64 | at least one page, enough pages for the total at 20 rows each, and no empty last page |
| ArticlesTable.StartFetch | src/components/articles/ArticlesTable.tsx:39-40 | fetching sets loading and clears the error, keeping the rows and page |
| ArticlesTable.Loaded | src/components/articles/ArticlesTable.tsx:48-58 | loading always ends with page, search and order untouched; a success installs the returned articles and total; a failure keeps them and shows the client error's truthy message, else "Failed to load articles", or "An unexpected error occurred" for any other error |
| ArticlesTable.SearchChange | src/components/articles/ArticlesTable.tsx:80-83 | typing sets the search text and returns to page 1, keeping the order and rows |
| ArticlesTable.SortChange | src/components/articles/ArticlesTable.tsx:90-103 | either order button sets that order and returns to page 1, keeping the search and rows |
| ArticlesTable.RenderBody | src/components/articles/ArticlesTable.tsx:132-155 | the loading row shows exactly while loading; otherwise an empty table shows "No articles match your search." exactly when there is search text, else the refresh hint; a non-empty table shows its articles |
| ArticlesTable.PaginationWithRows | src/components/articles/ArticlesTable.tsx:201 | the pagination control appears exactly when the body lists articles |
| ArticlesTable.Previous | src/components/articles/ArticlesTable.tsx:206 | only the page changes; it becomes the larger of 1 and the page before |
| ArticlesTable.Next | src/components/articles/ArticlesTable.tsx:206 | only the page changes; it becomes the smaller of the page count and the page after, so from past the count it goes back to the count |
| ArticlesTable.PageStaysInRange | src/components/articles/ArticlesTable.tsx:201-207 | from a page in range, Previous and Next leave the page in range |
| UserTable.CanDeleteUser | src/components/users/UserTable.tsx:87-93 | a row can be deleted exactly when the viewer is an administrator and the row is not the signed-in user's own; never for a non-administrator, never one's own row |
| UserTable.CanDeleteNeedsAdministrator | src/components/users/UserTable.tsx:28-29 | read from storage, a deletable row means the stored user has the administrator role and is a different user |
| UserTable.Columns | src/components/users/UserTable.tsx:124-145 | the header starts with Name, Email, Role, Status, Last Login and has a sixth column, Actions, exactly for administrators |
| UserTable.ColSpanCoversHeader | src/components/users/UserTable.tsx:150-159 | the loading and empty placeholder rows span exactly the header's columns, 6 for administrators and 5 otherwise |
| UserTable.RowActions | src/components/users/UserTable.tsx:190-204 | a row has an action cell exactly when the viewer is an administrator, and it holds a Delete button exactly when the row can be deleted |
| UserTable.Click | src/components/users/UserTable.tsx:52-54 | the modal opens on the clicked user; rows, error and busy flag stay |
| UserTable.Cancel | src/components/users/UserTable.tsx:83-85 | the modal closes and forgets its user; rows, error and busy flag stay |
| UserTable.Confirm | src/components/users/UserTable.tsx:56-81 | the handler as intended, with a delete endpoint the users wrapper does not define (see Findings): with no target nothing happens and no refresh is signalled; otherwise the busy flag ends false; a delete followed by a reload closes the modal, installs the reloaded rows and signals the parent exactly when it passed a refresh callback; a failed delete keeps the modal, rows and target and shows the client error's truthy message, else "Failed to delete user", or the unexpected-error text; a failed reload after the delete closes the modal and shows that message without signalling |
| UserTable.ConfirmFailureKeepsTarget | src/components/users/UserTable.tsx:56-81 | after any failed delete the modal is still open on the clicked user, the rows are unchanged, a non-empty banner shows and nothing is signalled; cancelling then equals cancelling straight away apart from the banner and the busy flag |
| UserTable.ConfirmSuccessIsCancel | src/components/users/UserTable.tsx:56-81 | a delete and reload ends in the cancelled state with the reloaded rows, signalling the parent iff it passed a callback |
| UserTable.ConfirmAsWritten | src/components/users/UserTable.tsx:56-81 | the handler as written, where `usersApi.delete` is undefined: it agrees with the intended handler fed a non-client error |
| UserTable.ConfirmAsWrittenNeverDeletes | src/components/users/UserTable.tsx:56-81 | as written, confirming leaves the modal open on the clicked user with the unexpected-error text and the old rows, signals nothing, and differs from every successful delete |
| UserTable.ClickCancelCloses | src/components/users/UserTable.tsx:52-85 | opening the modal on a user and cancelling leaves the same state as cancelling straight away |
| FeedForm.Initial | src/components/forms/FeedForm.tsx:17-32 | with no initial values the form is empty with no industries, auto-update on, full text off and enabled; otherwise each present field is taken as given and each missing one defaults the same way; enabled is off exactly when the initial status is disabled; no upload, not submitting |
| FeedForm.ValuesOf | src/components/forms/FeedForm.tsx:14 | the partial feed of an existing feed carries its name, url, logo and status |
| FeedForm.SubmitPayload | src/components/forms/FeedForm.tsx:38-46 | the payload's logo is the uploaded file when there is one, else the typed logo URL; name, url, industries and the three flags are sent as the form holds them |
| FeedForm.EditStartsFromBackend | src/components/forms/FeedForm.tsx:25-31 | editing a feed read from the backend starts enabled exactly when the backend's enabled flag is truthy, with auto-update and full text as the backend gave them or their defaults, and its name and url |
| FeedForm.UntouchedEditSubmitsFeed | src/components/forms/FeedForm.tsx:18-46 | submitting an untouched edit form sends the feed's own name, url, industries and flags, enabled exactly when its status is enabled, and its logo or "" |
| FeedForm.UploadWins | src/components/forms/FeedForm.tsx:41 | an uploaded logo is sent whatever logo URL was typed |
| DashboardLayout.SavedSidebar | src/app/dashboard/layout.tsx:34-37 | with a saved value the sidebar starts open exactly when it is "true"; with none it starts open exactly on windows at least 1024 wide |
| DashboardLayout.Hydrate | src/app/dashboard/layout.tsx:28-47 | after the layout effect the layout is mounted and the sidebar is in its saved or width-based state; the authentication flags are untouched |
| DashboardLayout.Persist | src/app/dashboard/layout.tsx:50-53 | before mount storage is untouched; after mount the sidebar key holds "true" exactly when the sidebar is open, and every other key is kept as it was |
| DashboardLayout.PersistRoundTrip | src/app/dashboard/layout.tsx:34-52 | the saved sidebar state is the one hydrated on the next visit, whatever the window width |
| DashboardLayout.ToggleSidebar | src/app/dashboard/layout.tsx:114-116 | the sidebar flips and nothing else changes |
| DashboardLayout.ToggleIsRemembered | src/app/dashboard/layout.tsx:114-116 | a toggled sidebar is restored toggled on the next visit, and toggling twice changes nothing |
| DashboardLayout.CheckAuth | src/app/dashboard/layout.tsx:56-80 | before mount nothing happens; afterwards checking stops, the layout is authenticated exactly when a session is stored, and the router goes to /login exactly when it is not; the sidebar is untouched |
| DashboardLayout.Render | src/app/dashboard/layout.tsx:119-132 | the checking screen shows exactly while checking; the dashboard shell shows exactly when the check is done and authenticated, with the current sidebar state; otherwise nothing |
| DashboardLayout.AuthGate | src/app/dashboard/layout.tsx:74-132 | the first render is the checking screen; after hydration and the check the dashboard shows exactly when a session is stored, and otherwise nothing renders and the router goes to /login |
| DashboardLayout.RecheckAgrees | src/app/dashboard/layout.tsx:85-90 | the delayed second check on unchanged storage gives the same state and navigation as the first |
| Sidebar.Entries | src/components/layout/Sidebar.tsx:25-43 | one entry per navigation link, in order, each highlighted exactly when its active rule holds for the current path |
| Sidebar.ActiveRule | src/components/layout/Sidebar.tsx:26-28 | an exact link is active exactly on its own path; a prefix link is active on its path followed by anything, and only on such paths |
| Sidebar.IsActive | src/components/layout/Sidebar.tsx:26-28 | a link is always active on its own path; an active link's path begins with its href; an exact link is active only on its own path |
| Sidebar.FeedsActiveOnSubpages | src/components/layout/Sidebar.tsx:28 | with the configured links, Feeds is highlighted on every path under "/dashboard/feeds" |
| Sidebar.UsersActiveOnlyOnItsPage | src/components/layout/Sidebar.tsx:26-27 | with the configured links, Users is highlighted on "/dashboard/users" and on no other path |
| Sidebar.UsersPageHighlightsOnlyUsers | src/lib/constants.ts:15-18 | on the users page Feeds is not highlighted and Users is |
| Config.StripTrailingSlash | src/lib/api/config.ts:22 | a value ending in "/" loses exactly that one slash; any other value is returned unchanged |
| Config.GetApiBaseUrl | src/lib/api/config.ts:11-23 | an unset or empty variable is an error with the set-it-in-your-environment message; otherwise the value without its one trailing slash |
| Config.OnlyOneSlashRemoved | src/lib/api/config.ts:22 | a value ending in several slashes keeps all of them but the last |
| Config.BaseUrlNormalises | src/lib/api/config.ts:22 | a base without a trailing slash is used as it is, and the same base with one trailing slash gives the same result |
| Config.GetApiUrl | src/lib/api/config.ts:28-30 | the base followed by "/api/v1", failing exactly when the base does, with its message |
| Config.GetApiDocsUrl | src/lib/api/config.ts:35-37 | the base followed by "/api/docs", failing exactly when the base does, with its message |
| Config.ApiUrlSingleSlash | src/lib/api/config.ts:22-30 | with or without a trailing slash on the variable the API URL is the base, one slash and "api/v1" |
| ClassNames.Kept | src/lib/utils.ts:4 | the kept class names are never empty strings and are no more than the arguments |
| ClassNames.Cn | src/lib/utils.ts:1-5 | the class string is empty exactly when no argument is truthy, and otherwise begins with the first truthy argument |
| ClassNames.CnSplitsBack | src/lib/utils.ts:1-5 | when no class name holds a space and one is truthy, splitting the class string at spaces gives back the truthy arguments in order |
| ClassNames.KeptIsFilter | src/lib/utils.ts:4 | the kept names are exactly the truthy arguments, in order |
| ClassNames.OnlyFalsyIsEmpty | src/lib/utils.ts:4 | no arguments, or only undefined, null, false or "" ones, give "" |
| ClassNames.SingleTruthy | src/lib/utils.ts:4 | a single truthy argument comes back unchanged, whatever falsy arguments surround it |
| ClassNames.TwoTruthy | src/lib/utils.ts:4 | two truthy arguments are joined by one space |
| ClassNames.KeptConcat | src/lib/utils.ts:4 | the filter keeps order: the names kept from two argument lists joined are those kept from each, joined |
| Strings.IndexOf | src/components/forms/BulkFeedImport.tsx:74 | the position found is an occurrence of the pattern with none before it, and there is none exactly when the pattern does not occur |
| Strings.ContainsAt | src/components/forms/BulkFeedImport.tsx:47 | an occurrence of the pattern at any position makes the includes-test true |
| Strings.ReplaceFirst | src/components/forms/BulkFeedImport.tsx:74 | a string without the pattern is unchanged, and a string starting with the pattern has that occurrence replaced |
| Strings.ReplaceFirstAt | src/components/forms/BulkFeedImport.tsx:74 | only the first occurrence of the pattern is replaced; what comes before and after it is kept |
| Strings.SpanStart | src/components/forms/BulkFeedImport.tsx:37 | the returned position is the first character from the start position on that is not white space, or the end |
| Strings.SpanEnd | src/components/forms/BulkFeedImport.tsx:37 | the returned position cuts off exactly the trailing white space of the stretch |
| Strings.Trim | src/components/forms/BulkFeedImport.tsx:37 | the trimmed line is the stretch of the line between leading and trailing white space; it is empty exactly when the line is all white space, and otherwise starts and ends with a non-space |
| Strings.TrimIdempotent | src/components/forms/BulkFeedImport.tsx:37 | trimming twice is trimming once |
| Strings.TrimOfTrimmed | src/components/forms/BulkFeedImport.tsx:37 | a string that neither starts nor ends with white space is its own trim |
| Strings.Split | src/components/forms/BulkFeedImport.tsx:36 | splitting always yields at least one piece |
| Strings.SplitPiecesAvoidSeparator | src/components/forms/BulkFeedImport.tsx:36 | no piece contains the separator |
| Strings.SplitWithoutSeparator | src/components/forms/BulkFeedImport.tsx:36 | a string without the separator splits into itself alone |
| Strings.JoinSplit | src/components/forms/BulkFeedImport.tsx:36 | joining the pieces with the separator gives back the original text |
| Strings.SplitConcat | src/components/forms/BulkFeedImport.tsx:36 | splitting a text, a separator and another text gives the pieces of each text, in order |
| Strings.SplitConcatStep | src/components/forms/BulkFeedImport.tsx:36 | one more leading character extends the first piece on both sides of that equation |
| Strings.ExtendFirstPiece | src/components/forms/BulkFeedImport.tsx:36 | prefixing the first piece of two joined piece lists prefixes the first list's first piece |
| Strings.SplitCons | src/components/forms/BulkFeedImport.tsx:36 | a leading separator closes an empty first piece; any other leading character begins the first piece |
| Strings.SplitJoin | src/components/forms/BulkFeedImport.tsx:36 | splitting the join of separator-free pieces gives the pieces back |
| Strings.FirstPiece | src/components/forms/BulkFeedImport.tsx:75 | the first piece of a split is the prefix before the first separator, or the whole string when it has none |
| Strings.LeadingPieceUnique | src/components/forms/BulkFeedImport.tsx:75 | a string has only one prefix that ends at its first separator |
| Seqs.Filter | src/components/forms/BulkFeedImport.tsx:38 | the kept elements all pass the test and come from the input, and every passing element is kept |
| Seqs.Map | src/components/forms/BulkFeedImport.tsx:37 | one image per element, position by position |
| Seqs.FlatMapConcat | src/components/forms/BulkFeedImport.tsx:42-66 | processing two joined lists line by line gives the results for each, joined |
| Seqs.FlatMapAtMostOne | src/components/forms/BulkFeedImport.tsx:42-66 | when each element yields at most one result there are at most as many results as elements |
| Seqs.FilterConcat | src/components/forms/IndustryMultiSelect.tsx:44 | filtering two joined lists gives the survivors of each, joined |
| Seqs.FilterAll | src/components/forms/IndustryMultiSelect.tsx:52 | a filter that every element passes changes nothing |
| Seqs.FilterIdempotent | src/components/forms/BulkFeedImport.tsx:38 | filtering twice with the same test is filtering once |
| Seqs.MapConcat | src/components/forms/BulkFeedImport.tsx:37 | mapping two joined lists gives the images of each, joined |
| Seqs.FilterMap | src/components/forms/BulkFeedImport.tsx:37-38 | filtering images is mapping the elements whose images pass |
| Seqs.FilterDropsOne | src/components/feeds/FeedTable.tsx:96 | dropping a single rejected element between two stretches the filter keeps whole leaves the two stretches joined |

## Left out

- Network I/O is not modelled:
  - `fetch`, response bodies and timeouts;
  - the `get`/`post`/`put`/`delete` wrappers and the per-resource calls beyond their query building and response mapping.
  Each call's outcome enters the model as a parameter.
- Server-side rendering branches (`typeof window === 'undefined'`) are not modelled: the model is the browser path.
- The de-duplication of concurrent CSRF-token loads (the in-flight promise in `client.ts`) is not modelled, because it only coalesces concurrent asynchronous calls. The cache it fills is modelled.
- Timers are not modelled:
  - FeedForm's 900 ms placeholder submit and its `console.info`;
  - the layout's 100 ms re-check timer and its cancellation;
  - the bulk import's 2000 ms delay before it redirects to the feeds list, and the `router.refresh()` that follows the redirect (`BulkFeedImport.tsx:135-139`).
  The re-check is modelled by `DashboardLayout.RecheckAgrees` as a second check on unchanged storage.
- Console logging in development builds is not modelled.
- The layout's resize handler is not modelled: its body does nothing.
- Percent-encoding by `URLSearchParams` and `encodeURIComponent`, and the path segments of the article and feed endpoints, are not modelled. Query strings are modelled before encoding.
- Unicode case mapping is not modelled: `toUpperCase` and `toLowerCase` are parameters.
- JSON parsing and printing are not modelled: they are parameters.
- Host-name extraction by `new URL` is not modelled: it is a parameter.
- Dates are not modelled:
  - `formatDate` and its locale formatting;
  - the ISO normalisation and "now" defaults of the articles transform, which are parameters.
- JavaScript numbers are unbounded integers here. NaN, fractions and the exponent notation of very large numbers are not modelled.
- Strings are sequences of UTF-16 code units, as in JavaScript. Code points outside the Basic Multilingual Plane are not modelled separately.
- The verify-email page is not modelled: it is almost entirely network calls, timers and deep links.
- The following are not modelled because they carry no decision logic:
  - presentational widgets;
  - the header, the shell and the login form;
  - file reading for uploads;
  - the password show/hide toggles.
- These handlers are not modelled:
  - the customer details modal (`CustomerTable.tsx:62-68`);
  - the users list fetch (`UserTable.tsx:31-50`);
  - the industries fetch (`IndustryMultiSelect.tsx:24-41`);
  - the edit and articles navigation buttons of the feeds table.
  Each is a plain fetch or router push with one fallback message.
- BulkImport.ExtractFeedName: the host name comes from a parameter, and so does the upper-casing of the first character. The contract covers how the name is cut from any host name, not which host a URL has.
- IndustrySelect.Filtered: lower-casing is a per-character parameter. Mappings that change a string's length (such as the Turkish dotted capital I) are not modelled.
- ArticlesApi.TransformArticle: `publishedAt`, `createdAt` and `updatedAt` are normalised by a parameter. Each clock reading is a parameter of its own, with nothing said about how readings relate in time.
- ResetPassword.Finish: a body that cannot be read as JSON is folded into the same case as an unreachable endpoint. This matches the source, whose single catch handles both.

## Findings

| source | as written | input that shows it | evidently intended | confidence | as-written member | corrected member |
|---|---|---|---|---|---|---|
| src/components/users/UserTable.tsx:61 | the confirm handler calls `usersApi.delete`, but the users wrapper (src/lib/api/users.ts:34-50) defines only `list`, so the call throws a TypeError before any request is sent | an administrator clicks Delete on another user's row and confirms | delete the user, close the modal, reload the rows and signal the parent | high; not executed | UserTable.ConfirmAsWritten | UserTable.Confirm |

=== FILE: api_client.dfy ===
/**
 * The shared HTTP client: request headers, response handling (error normalisation,
 * 401 session teardown, success-envelope unwrapping), the cached CSRF token and the
 * auth token kept in browser storage. The network itself is not modelled: a response
 * is an input and storage is a map.
 */
module ApiClient {
  import opened Wrappers
  import opened Js
  import opened Strings

  /** `localStorage`, as a map from key to stored string. */
  type Storage = map<string, string>

  const AuthTokenKey := "auth_token"
  const UserKey := "user"
  const LoginPath := "/login"
  const DefaultBaseUrl := "http://localhost:4000"
  const DefaultErrorMessage := "An error occurred"
  /** The content type `getHeaders` uses when its caller names none. */
  const JsonContentType := "application/json"

  /** `process.env.NEXT_PUBLIC_API_URL || 'http://localhost:4000'`. */
  function BaseUrl(env: Option<string>): (r: string)
    ensures IsTruthyStr(env) ==> r == env.value
    ensures !IsTruthyStr(env) ==> r == DefaultBaseUrl
  {
    if IsTruthyStr(env) then env.value else DefaultBaseUrl
  }

  /** `localStorage.getItem(key)`, with None for null. */
  function GetItem(storage: Storage, key: string): Option<string> {
    if key in storage then Some(storage[key]) else None
  }

  /** The client's cached anti-forgery token (null until loaded). */
  datatype ClientState = ClientState(csrfToken: Option<string>)

  const Initial := ClientState(None)

  type Headers = map<string, string>

  /** `getHeaders(includeAuth, contentType)`. */
  function GetHeaders(storage: Storage, client: ClientState, includeAuth: bool, contentType: string): (h: Headers)
    ensures "Content-Type" in h && h["Content-Type"] == contentType
    ensures "Authorization" in h <==> includeAuth && IsTruthyStr(GetItem(storage, AuthTokenKey))
    ensures "Authorization" in h ==> h["Authorization"] == "Bearer " + storage[AuthTokenKey]
    ensures "X-CSRF-Token" in h <==> IsTruthyStr(client.csrfToken)
    ensures "X-CSRF-Token" in h ==> h["X-CSRF-Token"] == client.csrfToken.value
    ensures h.Keys <= {"Content-Type", "Authorization", "X-CSRF-Token"}
  {
    var base := map["Content-Type" := contentType];
    var token := GetItem(storage, AuthTokenKey);
    var withAuth := if includeAuth && IsTruthyStr(token) then base["Authorization" := "Bearer " + token.value] else base;
    if IsTruthyStr(client.csrfToken) then withAuth["X-CSRF-Token" := client.csrfToken.value] else withAuth
  }

  /** The headers `uploadFile` builds by hand: the same auth and CSRF rules, no content type. */
  function UploadHeaders(storage: Storage, client: ClientState, includeAuth: bool): (h: Headers)
    ensures "Content-Type" !in h
  {
    var token := GetItem(storage, AuthTokenKey);
    var withAuth: Headers := if includeAuth && IsTruthyStr(token) then map["Authorization" := "Bearer " + token.value] else map[];
    if IsTruthyStr(client.csrfToken) then withAuth["X-CSRF-Token" := client.csrfToken.value] else withAuth
  }

  /** The upload headers are the JSON request headers without their Content-Type entry. */
  lemma UploadHeadersAgree(storage: Storage, client: ClientState, includeAuth: bool, contentType: string)
    ensures UploadHeaders(storage, client, includeAuth) == GetHeaders(storage, client, includeAuth, contentType) - {"Content-Type"}
  {
  }

  /** A fetch response: status line, content type header, and the body parsed as JSON (None when it is not JSON). */
  datatype HttpResponse = HttpResponse(status: int, statusText: string, contentType: Option<string>, body: Option<Value>)

  /** `response.ok`. */
  predicate IsOk(resp: HttpResponse) {
    200 <= resp.status <= 299
  }

  datatype ApiClientError = ApiClientError(message: string, statusCode: Value, error: Value)

  /** What an awaited request produces: a value, or a thrown error. */
  datatype Thrown = ApiError(err: ApiClientError) | OtherError
  datatype Outcome = Returned(value: Value) | Threw(thrown: Thrown)

  /** `errorResponse[key]` when the error body parsed, None when it did not or reading it throws. */
  function ErrorBodyField(resp: HttpResponse, key: string): Option<Value> {
    match resp.body
    case None => None
    case Some(v) => Member(v, key)
  }

  /** The error an unsuccessful response is turned into. */
  function NormalizeError(resp: HttpResponse): (e: ApiClientError)
    ensures var m := ErrorBodyField(resp, "message");
      && (m.Some? && IsTruthy(m.value) ==> e.message == ToText(m.value))
      && (!(m.Some? && IsTruthy(m.value)) && resp.statusText != "" ==> e.message == resp.statusText)
      && (!(m.Some? && IsTruthy(m.value)) && resp.statusText == "" ==> e.message == DefaultErrorMessage)
    ensures var c := ErrorBodyField(resp, "statusCode");
      e.statusCode == if c.Some? && IsTruthy(c.value) then c.value else Num(resp.status)
    ensures ErrorBodyField(resp, "error").None? ==> e.error == Undefined
    ensures ErrorBodyField(resp, "error").Some? ==> e.error == ErrorBodyField(resp, "error").value
  {
    var status := Num(resp.status);
    var parsed := ErrorBodyField(resp, "message");
    var message :=
      if parsed.Some? then Or(Or(parsed.value, Str(resp.statusText)), Str(DefaultErrorMessage))
      else Or(Str(resp.statusText), Str(DefaultErrorMessage));
    var statusCode :=
      if parsed.Some? then Or(ErrorBodyField(resp, "statusCode").value, status) else status;
    var error := if parsed.Some? then ErrorBodyField(resp, "error").value else Undefined;
    ApiClientError(ToText(Or(message, Str(DefaultErrorMessage))), Or(statusCode, status), error)
  }

  /** The content type announces JSON. */
  predicate IsJsonContent(contentType: Option<string>) {
    IsTruthyStr(contentType) && Contains(contentType.value, "application/json")
  }

  /** The backend's success envelope `{ success: true, data }`. */
  predicate IsEnvelope(v: Value) {
    v.Obj? && "data" in v.fields && "success" in v.fields && v.fields["success"] == Bool(true)
  }

  /** Unwraps a success envelope to its data; anything else is returned as it is. */
  function Unwrap(v: Value): (r: Value)
    ensures IsEnvelope(v) ==> r == v.fields["data"]
    ensures !IsEnvelope(v) ==> r == v
  {
    if IsEnvelope(v) then v.fields["data"] else v
  }

  /** The result of `handleResponse`: what the caller gets, the storage after, and any hard navigation. */
  datatype Handled = Handled(outcome: Outcome, storage: Storage, navigate: Option<string>)

  /** `handleResponse`. */
  function HandleResponse(resp: HttpResponse, storage: Storage): (r: Handled)
    ensures !IsOk(resp) ==> r.outcome == Threw(ApiError(NormalizeError(resp)))
    ensures !IsOk(resp) && resp.status == 401 ==> r.storage == ClearAuthToken(storage) && r.navigate == Some(LoginPath)
    ensures IsOk(resp) || resp.status != 401 ==> r.storage == storage && r.navigate == None
    ensures IsOk(resp) && !IsJsonContent(resp.contentType) ==> r.outcome == Returned(Obj(map[]))
    ensures IsOk(resp) && IsJsonContent(resp.contentType) && resp.body.None? ==> r.outcome == Threw(OtherError)
    ensures IsOk(resp) && IsJsonContent(resp.contentType) && resp.body.Some? ==> r.outcome == Returned(Unwrap(resp.body.value))
  {
    if !IsOk(resp) then
      if resp.status == 401 then Handled(Threw(ApiError(NormalizeError(resp))), ClearAuthToken(storage), Some(LoginPath))
      else Handled(Threw(ApiError(NormalizeError(resp))), storage, None)
    else if !IsJsonContent(resp.contentType) then Handled(Returned(Obj(map[])), storage, None)
    else
      match resp.body
      case None => Handled(Threw(OtherError), storage, None)
      case Some(v) => Handled(Returned(Unwrap(v)), storage, None)
  }

  /** Wrapping data in the success envelope and unwrapping it gives the data back. */
  lemma EnvelopeRoundTrip(data: Value, extra: map<string, Value>)
    ensures Unwrap(Obj(extra["success" := Bool(true)]["data" := data])) == data
  {
  }

  /** Only a non-OK response throws an ApiClientError, and every non-OK response does. */
  lemma ApiErrorIffNotOk(resp: HttpResponse, storage: Storage)
    ensures HandleResponse(resp, storage).outcome.Threw? && HandleResponse(resp, storage).outcome.thrown.ApiError? <==> !IsOk(resp)
  {
  }

  /** `setAuthToken`: writes only the auth token. */
  function SetAuthToken(storage: Storage, token: string): (r: Storage)
    ensures GetItem(r, AuthTokenKey) == Some(token)
    ensures forall k :: k != AuthTokenKey ==> GetItem(r, k) == GetItem(storage, k)
  {
    storage[AuthTokenKey := token]
  }

  /** `clearAuthToken`: removes the auth token and the stored user, nothing else. */
  function ClearAuthToken(storage: Storage): (r: Storage)
    ensures GetItem(r, AuthTokenKey) == None && GetItem(r, UserKey) == None
    ensures forall k :: k != AuthTokenKey && k != UserKey ==> GetItem(r, k) == GetItem(storage, k)
  {
    storage - {AuthTokenKey, UserKey}
  }

  /** What the CSRF endpoint answered: an OK response with its `csrfToken` field, a non-OK response, or a failed fetch. */
  datatype CsrfFetch = Fetched(csrfToken: Option<string>) | NotOk | FetchFailed

  /** `loadCsrfToken`: the state afterwards, and whether a request went out. */
  function LoadCsrfToken(client: ClientState, fetch: CsrfFetch): (r: (ClientState, bool))
    ensures r.1 <==> !IsTruthyStr(client.csrfToken)
    ensures !r.1 ==> r.0 == client
    ensures r.1 && fetch.Fetched? ==> r.0.csrfToken == EmptyToAbsent(fetch.csrfToken)
    ensures r.1 && !fetch.Fetched? ==> r.0 == client
  {
    if IsTruthyStr(client.csrfToken) then (client, false)
    else
      match fetch
      case Fetched(token) => (ClientState(if IsTruthyStr(token) then token else None), true)
      case _ => (client, true)
  }

  /** `refreshCsrfToken`: forgets the cached token, then loads a fresh one. */
  function RefreshCsrfToken(client: ClientState, fetch: CsrfFetch): (r: (ClientState, bool))
    ensures r.1
    ensures r.0.csrfToken == (if fetch.Fetched? then EmptyToAbsent(fetch.csrfToken) else None)
  {
    LoadCsrfToken(Initial, fetch)
  }

  /** A loaded token is cached: loading again issues no request and keeps it. */
  lemma LoadIsCached(client: ClientState, fetch: CsrfFetch, again: CsrfFetch)
    requires fetch.Fetched? && IsTruthyStr(fetch.csrfToken)
    ensures var loaded := LoadCsrfToken(client, fetch).0;
      LoadCsrfToken(loaded, again) == (loaded, false)
  {
  }

  /** How a component turns a caught error into its banner text. */
  function ErrorText(t: Thrown, apiFallback: string, unexpected: string): (r: string)
    ensures t.ApiError? && t.err.message != "" ==> r == t.err.message
    ensures t.ApiError? && t.err.message == "" ==> r == apiFallback
    ensures t.OtherError? ==> r == unexpected
  {
    match t
    case ApiError(e) => if e.message != "" then e.message else apiFallback
    case OtherError => unexpected
  }
}

=== FILE: articles_api.dfy ===
/**
 * The articles API wrapper: the list query string of a feed's articles and the article
 * transform. Date normalisation is a parameter: `iso` stands for
 * `new Date(v).toISOString()`; each `new Date().toISOString()` is a clock reading of its own.
 */
module ArticlesApi {
  import opened Wrappers
  import opened Js
  import opened Query
  import Seqs

  /** An article as the backend sends it. Timestamps are read through their truthiness. */
  datatype BackendArticle = BackendArticle(
    id: string,
    feedId: string,
    title: string,
    description: Option<string>,
    link: string,
    publishedAt: Value,
    author: Option<string>,
    categories: Option<seq<string>>,
    imageUrl: Option<string>,
    content: Option<string>,
    guid: Option<string>,
    createdAt: Value,
    updatedAt: Value)

  /** An article as the dashboard holds it. */
  datatype Article = Article(
    id: string,
    feedId: string,
    title: string,
    description: Option<string>,
    link: string,
    publishedAt: Option<string>,
    author: Option<string>,
    categories: Option<seq<string>>,
    imageUrl: Option<string>,
    content: Option<string>,
    guid: Option<string>,
    createdAt: string,
    updatedAt: string)

  /** A truthy timestamp normalised by `iso`, else `fallback`. */
  function Stamp(v: Value, iso: Value -> string, fallback: string): string {
    if IsTruthy(v) then iso(v) else fallback
  }

  /**
   * `transformArticle`. The source reads the clock separately for each missing stamp:
   * `nowCreated` and `nowUpdated` are those two readings.
   */
  function TransformArticle(b: BackendArticle, iso: Value -> string, nowCreated: string, nowUpdated: string): (a: Article)
    ensures a.id == b.id && a.feedId == b.feedId && a.title == b.title && a.description == b.description
    ensures a.link == b.link && a.author == b.author && a.categories == b.categories
    ensures a.imageUrl == b.imageUrl && a.content == b.content && a.guid == b.guid
    ensures a.publishedAt.None? <==> !IsTruthy(b.publishedAt)
    ensures a.publishedAt.Some? ==> a.publishedAt.value == iso(b.publishedAt)
    ensures a.createdAt == (if IsTruthy(b.createdAt) then iso(b.createdAt) else nowCreated)
    ensures a.updatedAt == (if IsTruthy(b.updatedAt) then iso(b.updatedAt) else nowUpdated)
  {
    Article(
      b.id, b.feedId, b.title, b.description, b.link,
      if IsTruthy(b.publishedAt) then Some(iso(b.publishedAt)) else None,
      b.author, b.categories, b.imageUrl, b.content, b.guid,
      Stamp(b.createdAt, iso, nowCreated),
      Stamp(b.updatedAt, iso, nowUpdated))
  }

  /**
   * The clock is consulted only for a missing timestamp: when the backend sent both
   * `createdAt` and `updatedAt`, the transform does not depend on either clock reading.
   */
  lemma ClockOnlyForMissingStamps(b: BackendArticle, iso: Value -> string, c1: string, u1: string, c2: string, u2: string)
    requires IsTruthy(b.createdAt) && IsTruthy(b.updatedAt)
    ensures TransformArticle(b, iso, c1, u1) == TransformArticle(b, iso, c2, u2)
  {
  }

  /** `ArticleListQuery`. */
  datatype ArticleListQuery = ArticleListQuery(
    page: Option<int>,
    limit: Option<int>,
    search: Option<string>,
    sortBy: Option<SortOrder>)

  const ListKeys := ["page", "limit", "search", "sortBy"]

  function ListCandidates(q: ArticleListQuery): seq<Candidate> {
    [ NumParam("page", q.page),
      NumParam("limit", q.limit),
      TextParam("search", q.search),
      SortParam("sortBy", q.sortBy) ]
  }

  /** No key is sent twice. */
  lemma ListKeysDistinct()
    ensures Distinct(ListKeys)
  {
  }

  /** The query string of `articlesApi.listByFeed`, as its ordered parameters. */
  function ListParams(q: ArticleListQuery): (r: seq<Param>)
    ensures IsSubsequence(Keys(r), ListKeys)
    ensures Lookup(r, "page") == (if IsTruthyNum(q.page) then Some(Decimal.IntToString(q.page.value)) else None)
    ensures Lookup(r, "limit") == (if IsTruthyNum(q.limit) then Some(Decimal.IntToString(q.limit.value)) else None)
    ensures Lookup(r, "search") == EmptyToAbsent(q.search)
    ensures Lookup(r, "sortBy") == (if q.sortBy.Some? then Some(SortText(q.sortBy.value)) else None)
    ensures DecodeSort(Lookup(r, "sortBy")) == q.sortBy
  {
    var c := ListCandidates(q);
    ListKeysDistinct();
    EmitFaithful(c, ListKeys);
    assert Lookup(Emit(c), "page") == c[0].1 by { assert ListKeys[0] == "page"; }
    assert Lookup(Emit(c), "limit") == c[1].1 by { assert ListKeys[1] == "limit"; }
    assert Lookup(Emit(c), "search") == c[2].1 by { assert ListKeys[2] == "search"; }
    assert Lookup(Emit(c), "sortBy") == c[3].1 by { assert ListKeys[3] == "sortBy"; }
    SortParamRoundTrip("sortBy", q.sortBy);
    Emit(c)
  }

  function DecodeListQuery(ps: seq<Param>): ArticleListQuery {
    ArticleListQuery(
      DecodeNum(Lookup(ps, "page")),
      DecodeNum(Lookup(ps, "limit")),
      Lookup(ps, "search"),
      DecodeSort(Lookup(ps, "sortBy")))
  }

  function Sent(q: ArticleListQuery): ArticleListQuery {
    ArticleListQuery(NumValue(q.page), NumValue(q.limit), EmptyToAbsent(q.search), q.sortBy)
  }

  /** Building the parameters and reading them back loses exactly the falsy fields. */
  lemma ListParamsRoundTrip(q: ArticleListQuery)
    ensures DecodeListQuery(ListParams(q)) == Sent(q)
  {
    var ps := ListParams(q);
    NumParamRoundTrip("page", q.page);
    NumParamRoundTrip("limit", q.limit);
    assert Lookup(ps, "page") == NumParam("page", q.page).1;
    assert Lookup(ps, "limit") == NumParam("limit", q.limit).1;
  }

  datatype BackendArticleList = BackendArticleList(data: seq<BackendArticle>, total: int, page: int, limit: int)

  datatype ArticleListResponse = ArticleListResponse(data: seq<Article>, total: int, page: int, limit: int)

  /**
   * `{ ...response, data: response.data.map(transformArticle) }`: the list response with
   * every article transformed in order. `clock(i)` holds the two clock readings taken while
   * transforming the article at position `i`.
   */
  function MapListResponse(raw: BackendArticleList, iso: Value -> string, clock: int -> (string, string)): (r: ArticleListResponse)
    ensures |r.data| == |raw.data|
    ensures forall i :: 0 <= i < |r.data| ==> r.data[i] == TransformArticle(raw.data[i], iso, clock(i).0, clock(i).1)
    ensures r.total == raw.total && r.page == raw.page && r.limit == raw.limit
  {
    var data := seq(|raw.data|, i requires 0 <= i < |raw.data| => TransformArticle(raw.data[i], iso, clock(i).0, clock(i).1));
    ArticleListResponse(data, raw.total, raw.page, raw.limit)
  }
}

=== FILE: articles_table.dfy ===
/**
 * The articles table of one feed: its fetch query and page count, the search and sort
 * controls that send it back to page 1, the body it renders (loading row, empty message or
 * rows) and when the pagination control appears.
 */
module ArticlesTable {
  import opened Wrappers
  import opened Query
  import Paging
  import ApiClient
  import ArticlesApi

  /** `const perPage = 20`. */
  const PerPage := 20

  const LoadFallback := "Failed to load articles"
  const LoadUnexpected := "An unexpected error occurred"
  const NoMatchMessage := "No articles match your search."
  const NoArticlesMessage := "No articles found. Refresh the feed to fetch articles."

  datatype Table = Table(
    feedId: string,
    articles: seq<ArticlesApi.Article>,
    total: int,
    search: string,
    sortOrder: SortOrder,
    page: int,
    isLoading: bool,
    error: Option<string>)

  /** The state on mount from the server-rendered first page: newest first, page 1. */
  function Initial(feedId: string, initialArticles: seq<ArticlesApi.Article>, initialTotal: int): (t: Table)
    ensures t.feedId == feedId && t.articles == initialArticles && t.total == initialTotal
    ensures t.sortOrder == Newest && t.page == 1 && t.search == "" && !t.isLoading
  {
    Table(feedId, initialArticles, initialTotal, "", Newest, 1, false, None)
  }

  /** The query of the fetch effect. */
  function ListQuery(t: Table): (q: ArticlesApi.ArticleListQuery)
    ensures q.page == Some(t.page) && q.limit == Some(PerPage) && q.sortBy == Some(t.sortOrder)
    ensures q.search == (if t.search == "" then None else Some(t.search))
  {
    ArticlesApi.ArticleListQuery(Some(t.page), Some(PerPage), if t.search == "" then None else Some(t.search),
                                 Some(t.sortOrder))
  }

  /** The backend reads back the table's page, the page size 20, the search text when there is one, and the order. */
  lemma RequestCarriesState(t: Table)
    ensures var q := ArticlesApi.DecodeListQuery(ArticlesApi.ListParams(ListQuery(t)));
      && q.limit == Some(PerPage)
      && (t.page != 0 ==> q.page == Some(t.page))
      && q.search == (if t.search == "" then None else Some(t.search))
      && q.sortBy == Some(t.sortOrder)
  {
    ArticlesApi.ListParamsRoundTrip(ListQuery(t));
  }

  /** `Math.max(1, Math.ceil(total / perPage))`. */
  function PageCount(t: Table): (n: int)
    ensures n >= 1 && t.total <= n * PerPage
    ensures t.total > 0 ==> (n - 1) * PerPage < t.total
  {
    Paging.PageCount(t.total, PerPage)
  }

  /** Start of the fetch effect. */
  function StartFetch(t: Table): (r: Table)
    ensures r.isLoading && r.error == None && r.articles == t.articles && r.page == t.page
  {
    t.(isLoading := true, error := None)
  }

  /** End of the fetch effect: `setArticles(response.data); setTotal(response.total)`, or an error message. */
  function Loaded(t: Table, outcome: Result<ArticlesApi.ArticleListResponse, ApiClient.Thrown>): (r: Table)
    ensures !r.isLoading && r.page == t.page && r.search == t.search && r.sortOrder == t.sortOrder
    ensures outcome.Success? ==> r.articles == outcome.value.data && r.total == outcome.value.total
    ensures outcome.Success? ==> r.error == t.error
    ensures outcome.Failure? ==> r.articles == t.articles && r.total == t.total
    ensures outcome.Failure? ==> r.error == Some(ApiClient.ErrorText(outcome.error, LoadFallback, LoadUnexpected))
  {
    match outcome
    case Success(resp) => t.(articles := resp.data, total := resp.total, isLoading := false)
    case Failure(e) => t.(error := Some(ApiClient.ErrorText(e, LoadFallback, LoadUnexpected)), isLoading := false)
  }

  /** Search box change: `setSearch(value); setPage(1)`. */
  function SearchChange(t: Table, value: string): (r: Table)
    ensures r.search == value && r.page == 1
    ensures r.sortOrder == t.sortOrder && r.articles == t.articles && r.total == t.total
  {
    t.(search := value, page := 1)
  }

  /** "Newest First" / "Oldest First": `setSortOrder(o); setPage(1)`. */
  function SortChange(t: Table, order: SortOrder): (r: Table)
    ensures r.sortOrder == order && r.page == 1
    ensures r.search == t.search && r.articles == t.articles && r.total == t.total
  {
    t.(sortOrder := order, page := 1)
  }

  /** What the table body shows. */
  datatype Body = LoadingRow | EmptyRow(message: string) | Rows(articles: seq<ArticlesApi.Article>)

  /** Loading first, then the empty message that depends on the search text, else one row per article. */
  function RenderBody(t: Table): (b: Body)
    ensures t.isLoading <==> b == LoadingRow
    ensures b.EmptyRow? <==> !t.isLoading && |t.articles| == 0
    ensures b.EmptyRow? ==> (b.message == NoMatchMessage <==> t.search != "")
    ensures b.EmptyRow? ==> b.message in {NoMatchMessage, NoArticlesMessage}
    ensures b.Rows? ==> b.articles == t.articles && |b.articles| > 0
  {
    if t.isLoading then LoadingRow
    else if |t.articles| == 0 then EmptyRow(if t.search != "" then NoMatchMessage else NoArticlesMessage)
    else Rows(t.articles)
  }

  /** `{!isLoading && articles.length > 0 && <Pagination ... />}`. */
  predicate PaginationVisible(t: Table) {
    !t.isLoading && |t.articles| > 0
  }

  /** The pagination control appears exactly when the body lists articles. */
  lemma PaginationWithRows(t: Table)
    ensures PaginationVisible(t) <==> RenderBody(t).Rows?
  {
  }

  /** The Pagination control's `onPageChange={setPage}` with Previous and Next. */
  function Previous(t: Table): (r: Table)
    ensures r.(page := t.page) == t
    ensures r.page >= 1 && r.page >= t.page - 1
    ensures r.page == 1 || r.page == t.page - 1
  {
    t.(page := Paging.PrevTarget(t.page))
  }

  function Next(t: Table): (r: Table)
    ensures r.(page := t.page) == t
    ensures r.page <= PageCount(t) && r.page <= t.page + 1
    ensures r.page == PageCount(t) || r.page == t.page + 1
  {
    t.(page := Paging.NextTarget(t.page, PageCount(t)))
  }

  /** From a page in range, Previous and Next keep the page in range. */
  lemma PageStaysInRange(t: Table)
    requires 1 <= t.page <= PageCount(t)
    ensures 1 <= Previous(t).page <= PageCount(Previous(t))
    ensures 1 <= Next(t).page <= PageCount(Next(t))
  {
    Paging.TargetsInRange(t.page, PageCount(t));
  }
}

=== FILE: auth.dfy ===
/**
 * The authentication service: login, logout and the session predicates read from
 * browser storage. `JSON.stringify` and `JSON.parse` of the stored user are parameters.
 */
module Auth {
  import opened Wrappers
  import opened Js
  import opened ApiClient

  /** The signed-in user as the login endpoint describes it. */
  datatype AuthUser = AuthUser(id: string, name: string, email: string, role: string)

  datatype AuthResponse = AuthResponse(accessToken: string, expiresIn: string, user: AuthUser)

  /** `isAuthenticated`: a non-empty auth token is stored. */
  function IsAuthenticated(storage: Storage): (r: bool)
    ensures r <==> AuthTokenKey in storage && storage[AuthTokenKey] != ""
  {
    IsTruthyStr(GetItem(storage, AuthTokenKey))
  }

  /** `getCurrentUser`: the stored user, or none when the entry is missing, empty or does not parse. */
  function GetCurrentUser(storage: Storage, parse: string -> Option<AuthUser>): (r: Option<AuthUser>)
    ensures UserKey !in storage ==> r.None?
    ensures UserKey in storage && storage[UserKey] == "" ==> r.None?
    ensures UserKey in storage && storage[UserKey] != "" ==> r == parse(storage[UserKey])
  {
    var stored := GetItem(storage, UserKey);
    if IsTruthyStr(stored) then parse(stored.value) else None
  }

  /** What a login attempt leaves behind. */
  datatype LoginResult = LoginResult(
    client: ClientState,
    storage: Storage,
    sent: Headers,
    outcome: Result<AuthResponse, Thrown>,
    navigate: Option<string>)

  /**
   * `authApi.login`: refreshes the CSRF token (answered by `refresh`), lets the post load
   * it again if that left none (answered by `reload`), posts the credentials without the
   * auth token, and on success stores the access token and the serialised user. `read`
   * is the `as AuthResponse` view of the unwrapped body. A JSON answer whose unwrapped
   * body is null or undefined makes `response.accessToken` throw a TypeError before
   * storage is touched.
   */
  function Login(
    client: ClientState, storage: Storage, refresh: CsrfFetch, reload: CsrfFetch,
    resp: HttpResponse, read: Value -> AuthResponse, stringify: AuthUser -> string): (r: LoginResult)
    ensures "Authorization" !in r.sent
    ensures "Content-Type" in r.sent && r.sent["Content-Type"] == JsonContentType
    ensures refresh.Fetched? && IsTruthyStr(refresh.csrfToken) ==> r.client.csrfToken == refresh.csrfToken
    ensures !(refresh.Fetched? && IsTruthyStr(refresh.csrfToken)) ==>
      r.client.csrfToken == (if reload.Fetched? then EmptyToAbsent(reload.csrfToken) else None)
    ensures "X-CSRF-Token" in r.sent <==> IsTruthyStr(r.client.csrfToken)
    ensures r.outcome.Success? <==>
      IsOk(resp) && (!IsJsonContent(resp.contentType) || (resp.body.Some? && !IsNullish(Unwrap(resp.body.value))))
    ensures r.outcome.Success? ==>
      r.outcome.value == read(if IsJsonContent(resp.contentType) then Unwrap(resp.body.value) else Obj(map[]))
    ensures IsOk(resp) && IsJsonContent(resp.contentType) && resp.body.Some? && IsNullish(Unwrap(resp.body.value)) ==>
      r.outcome == Failure(OtherError) && r.storage == storage && r.navigate.None?
    ensures !IsOk(resp) ==> r.outcome == Failure(ApiError(NormalizeError(resp)))
    ensures r.outcome.Success? ==>
      && GetItem(r.storage, AuthTokenKey) == Some(r.outcome.value.accessToken)
      && GetItem(r.storage, UserKey) == Some(stringify(r.outcome.value.user))
      && forall k :: k != AuthTokenKey && k != UserKey ==> GetItem(r.storage, k) == GetItem(storage, k)
    ensures r.outcome.Failure? && resp.status == 401 ==> r.storage == ClearAuthToken(storage) && r.navigate == Some(LoginPath)
    ensures r.outcome.Failure? && resp.status != 401 ==> r.storage == storage && r.navigate.None?
  {
    var refreshed := RefreshCsrfToken(client, refresh).0;
    var loaded := LoadCsrfToken(refreshed, reload).0;
    var headers := GetHeaders(storage, loaded, false, JsonContentType);
    var handled := HandleResponse(resp, storage);
    match handled.outcome
    case Threw(t) => LoginResult(loaded, handled.storage, headers, Failure(t), handled.navigate)
    case Returned(v) =>
      if IsNullish(v) then LoginResult(loaded, handled.storage, headers, Failure(OtherError), handled.navigate)
      else
        var auth := read(v);
        var stored := SetAuthToken(handled.storage, auth.accessToken)[UserKey := stringify(auth.user)];
        LoginResult(loaded, stored, headers, Success(auth), handled.navigate)
  }

  /** `authApi.logout`. */
  function Logout(storage: Storage): (r: Storage)
    ensures forall k :: k != AuthTokenKey && k != UserKey ==> GetItem(r, k) == GetItem(storage, k)
  {
    ClearAuthToken(storage)
  }

  /**
   * After a successful login the session is live: authenticated when the token is
   * non-empty, and the current user is the one the server sent, provided parsing undoes
   * serialising.
   */
  lemma LoginStartsSession(
    client: ClientState, storage: Storage, refresh: CsrfFetch, reload: CsrfFetch,
    resp: HttpResponse, read: Value -> AuthResponse, stringify: AuthUser -> string,
    parse: string -> Option<AuthUser>)
    requires IsOk(resp) && IsJsonContent(resp.contentType) && resp.body.Some? && !IsNullish(Unwrap(resp.body.value))
    requires forall u :: stringify(u) != "" && parse(stringify(u)) == Some(u)
    ensures var r := Login(client, storage, refresh, reload, resp, read, stringify);
      && (IsAuthenticated(r.storage) <==> r.outcome.value.accessToken != "")
      && GetCurrentUser(r.storage, parse) == Some(r.outcome.value.user)
  {
    var r := Login(client, storage, refresh, reload, resp, read, stringify);
    assert GetItem(r.storage, UserKey) == Some(stringify(r.outcome.value.user));
  }

  /** After logout nobody is signed in. */
  lemma LogoutEndsSession(storage: Storage, parse: string -> Option<AuthUser>)
    ensures !IsAuthenticated(Logout(storage))
    ensures GetCurrentUser(Logout(storage), parse).None?
  {
  }
}

=== FILE: bulk_import.dfy ===
/**
 * The bulk feed import form: the line-based parser that turns a text block into feed
 * records, the auto-generated feed name, the submit guards and the bulk payload, and
 * the handling of the import result. `hostOf` stands for `new URL(url).hostname` (None
 * when the URL does not parse) and `upper` for `toUpperCase`.
 */
module BulkImport {
  import opened Wrappers
  import opened Js
  import opened Strings
  import Seqs
  import IndustrySelect
  import FeedsApi
  import ApiClient

  /** One feed read from the text block. */
  datatype FeedInput = FeedInput(name: string, url: string, logoUrl: Option<string>)

  const FallbackName := "RSS Feed"

  /** `w.charAt(0).toUpperCase() + w.slice(1)`. */
  function Capitalize(w: string, upper: string -> string): string {
    if w == "" then "" else upper(w[..1]) + w[1..]
  }

  /** `hostname.replace('www.', '').split('.')[0]`: the first dot-label once the first "www." is gone. */
  function HostLabel(host: string): (r: string)
    ensures LeadingPiece(r, ReplaceFirst(host, "www.", ""), '.')
  {
    var cut := ReplaceFirst(host, "www.", "");
    FirstPiece(cut, '.');
    Split(cut, '.')[0]
  }

  /** `extractFeedName`: the capitalised host label of a URL that parses, else "RSS Feed". */
  function ExtractFeedName(url: string, hostOf: string -> Option<string>, upper: string -> string): (r: string)
    ensures hostOf(url).None? ==> r == FallbackName
    ensures hostOf(url).Some? ==> r == Capitalize(HostLabel(hostOf(url).value), upper)
  {
    match hostOf(url)
    case None => FallbackName
    case Some(host) => Capitalize(HostLabel(host), upper)
  }

  /**
   * For every host name, the feed is named after the text before the first dot of the host
   * once its first "www." is removed, capitalised.
   */
  lemma FeedNameOfHost(url: string, hostOf: string -> Option<string>, upper: string -> string, word: string)
    requires hostOf(url).Some?
    requires LeadingPiece(word, ReplaceFirst(hostOf(url).value, "www.", ""), '.')
    ensures ExtractFeedName(url, hostOf, upper) == Capitalize(word, upper)
  {
    LeadingPieceUnique(word, HostLabel(hostOf(url).value), ReplaceFirst(hostOf(url).value, "www.", ""), '.');
  }

  /** The first label of a dotted name with no "www." in it. */
  lemma {:induction false} LabelBeforeDot(word: string, rest: string)
    requires '.' !in word
    ensures Split(word + "." + rest, '.')[0] == word
  {
    assert word + "." + rest == word + ['.'] + rest;
    SplitConcat(word, '.', rest);
    SplitWithoutSeparator(word, '.');
  }

  /** A "www." host is named after the label that follows "www.", capitalised. */
  lemma WwwHostName(url: string, hostOf: string -> Option<string>, upper: string -> string, word: string, rest: string)
    requires hostOf(url) == Some("www." + word + "." + rest)
    requires '.' !in word
    ensures ExtractFeedName(url, hostOf, upper) == Capitalize(word, upper)
  {
    var host := "www." + word + "." + rest;
    assert StartsWith(host, "www.");
    assert host[4..] == word + "." + rest;
    assert ReplaceFirst(host, "www.", "") == word + "." + rest;
    LabelBeforeDot(word, rest);
  }

  /** A host without "www." is named after its own word label, capitalised. */
  lemma PlainHostName(url: string, hostOf: string -> Option<string>, upper: string -> string, word: string, rest: string)
    requires hostOf(url) == Some(word + "." + rest)
    requires !Contains(word + "." + rest, "www.")
    requires '.' !in word
    ensures ExtractFeedName(url, hostOf, upper) == Capitalize(word, upper)
  {
    LabelBeforeDot(word, rest);
  }

  /**
   * The "www." that `replace` removes need not lead the host name: the first occurrence
   * anywhere goes, so a label ending in "www" is fused with the next one
   * ("shopwww.example.com" gives "shopexample").
   */
  lemma {:induction false} WwwRemovedAnywhere(pre: string, word: string, rest: string)
    requires '.' !in pre && '.' !in word
    requires forall k :: 0 <= k < |pre| ==> !StartsWith((pre + "www." + (word + "." + rest))[k..], "www.")
    ensures HostLabel(pre + "www." + (word + "." + rest)) == pre + word
  {
    WwwCut(pre, word + "." + rest);
    assert pre + (word + "." + rest) == (pre + word) + "." + rest;
    LabelBeforeDot(pre + word, rest);
  }

  /** Removing the first "www." of a host name that has none before it. */
  lemma WwwCut(pre: string, post: string)
    requires forall k :: 0 <= k < |pre| ==> !StartsWith((pre + "www." + post)[k..], "www.")
    ensures ReplaceFirst(pre + "www." + post, "www.", "") == pre + post
  {
    ReplaceFirstAt(pre, "www.", post, "");
    assert pre + "" + post == pre + post;
  }

  /** Both URL prefixes that make a line a bare URL. */
  predicate IsUrlLine(line: string) {
    StartsWith(line, "http://") || StartsWith(line, "https://")
  }

  lemma UrlLineStartsHttp(line: string)
    requires IsUrlLine(line)
    ensures StartsWith(line, "http")
  {
    if StartsWith(line, "http://") {
      assert line[..4] == line[..7][..4];
    } else {
      assert line[..4] == line[..8][..4];
    }
  }

  /** `line.split(sep).map((p) => p.trim())`. */
  function Fields(line: string, sep: char): (r: seq<string>)
    ensures |r| >= 1
  {
    Seqs.Map(Split(line, sep), Trim)
  }

  /** The trimmed fields of a delimited line, read as a feed: name, URL starting "http", optional logo. */
  function FeedOfFields(parts: seq<string>): (r: Option<FeedInput>)
    ensures r.Some? <==> |parts| >= 2 && StartsWith(parts[1], "http")
    ensures r.Some? ==> r.value.name == parts[0] && r.value.url == parts[1]
    ensures r.Some? ==> (r.value.logoUrl.Some? <==> |parts| >= 3 && StartsWith(parts[2], "http"))
    ensures r.Some? && r.value.logoUrl.Some? ==> r.value.logoUrl.value == parts[2]
  {
    if |parts| >= 2 && StartsWith(parts[1], "http") then
      Some(FeedInput(parts[0], parts[1], if |parts| >= 3 && StartsWith(parts[2], "http") then Some(parts[2]) else None))
    else None
  }

  /** A `Name|URL|Logo` or `Name,URL,Logo` line. */
  function ParseDelimited(line: string, sep: char): Option<FeedInput> {
    FeedOfFields(Fields(line, sep))
  }

  /**
   * One trimmed, non-empty line: a bare URL wins over any separator it contains, then
   * '|' wins over ','; a line with neither is skipped.
   */
  function ParseLine(line: string, hostOf: string -> Option<string>, upper: string -> string): (r: Option<FeedInput>)
    ensures IsUrlLine(line) ==> r == Some(FeedInput(ExtractFeedName(line, hostOf, upper), line, None))
    ensures !IsUrlLine(line) && '|' in line ==> r == ParseDelimited(line, '|')
    ensures !IsUrlLine(line) && '|' !in line && ',' in line ==> r == ParseDelimited(line, ',')
    ensures !IsUrlLine(line) && '|' !in line && ',' !in line ==> r.None?
    ensures r.Some? ==> StartsWith(r.value.url, "http")
  {
    if IsUrlLine(line) then
      UrlLineStartsHttp(line);
      Some(FeedInput(ExtractFeedName(line, hostOf, upper), line, None))
    else if '|' in line then ParseDelimited(line, '|')
    else if ',' in line then ParseDelimited(line, ',')
    else None
  }

  /** The lines that survive `.map(trim).filter(nonempty)`, in order. */
  function Lines(text: string): (r: seq<string>)
    ensures forall i :: 0 <= i < |r| ==> |r[i]| > 0
  {
    Seqs.Filter(Seqs.Map(Split(text, '\n'), Trim), (l: string) => |l| > 0)
  }

  /** At most one feed per line, in line order. */
  function ParseLines(lines: seq<string>, hostOf: string -> Option<string>, upper: string -> string): (r: seq<FeedInput>)
    ensures |r| <= |lines|
  {
    Seqs.FlatMapAtMostOne(lines, LineParser(hostOf, upper));
    Seqs.FlatMap(lines, LineParser(hostOf, upper))
  }

  function LineParser(hostOf: string -> Option<string>, upper: string -> string): string -> seq<FeedInput> {
    (line: string) => LineFeeds(line, hostOf, upper)
  }

  /** The feed one line contributes: none, or the one it parses to. */
  function LineFeeds(line: string, hostOf: string -> Option<string>, upper: string -> string): (r: seq<FeedInput>)
    ensures |r| <= 1
    ensures |r| == 1 ==> StartsWith(r[0].url, "http")
  {
    var first := ParseLine(line, hostOf, upper);
    if first.Some? then [first.value] else []
  }

  /** Every feed the parser finds has a URL starting with "http". */
  lemma {:induction false} ParsedUrlsAreHttp(lines: seq<string>, hostOf: string -> Option<string>, upper: string -> string)
    ensures forall i :: 0 <= i < |ParseLines(lines, hostOf, upper)| ==> StartsWith(ParseLines(lines, hostOf, upper)[i].url, "http")
    decreases |lines|
  {
    if |lines| > 0 {
      ParsedUrlsAreHttp(lines[1..], hostOf, upper);
      var h := LineFeeds(lines[0], hostOf, upper);
      var t := ParseLines(lines[1..], hostOf, upper);
      var r: seq<FeedInput> := h + t;
      forall i | 0 <= i < |r| ensures StartsWith(r[i].url, "http") {
        if i >= |h| {
          assert r[i] == t[i - |h|];
        }
      }
    }
  }

  /** `parseFeeds`. */
  function ParseFeeds(text: string, hostOf: string -> Option<string>, upper: string -> string): (r: seq<FeedInput>)
    ensures |r| <= |Lines(text)|
  {
    ParseLines(Lines(text), hostOf, upper)
  }

  /**
   * The "N feed(s) detected" count under the text box: the lines that are not blank, which
   * are exactly the lines the parser goes on to read.
   */
  function DetectedCount(text: string): (n: nat)
    ensures n <= |Split(text, '\n')|
    ensures n == |Lines(text)|
  {
    Seqs.FilterMap(Split(text, '\n'), Trim, (l: string) => |l| > 0, (l: string) => Trim(l) != "");
    |Seqs.Filter(Split(text, '\n'), (l: string) => Trim(l) != "")|
  }

  /** The parser reads exactly the lines the counter counts, so it never finds more feeds. */
  lemma {:induction false} ParsedAtMostDetected(text: string, hostOf: string -> Option<string>, upper: string -> string)
    ensures |ParseFeeds(text, hostOf, upper)| <= DetectedCount(text)
  {
    Seqs.FilterMap(Split(text, '\n'), Trim, (l: string) => |l| > 0, (l: string) => Trim(l) != "");
  }

  /** Parsing runs line by line: the feeds of a list of lines are those of its parts, in order. */
  lemma {:induction false} ParseLinesConcat(a: seq<string>, b: seq<string>, hostOf: string -> Option<string>, upper: string -> string)
    ensures ParseLines(a + b, hostOf, upper) == ParseLines(a, hostOf, upper) + ParseLines(b, hostOf, upper)
  {
    Seqs.FlatMapConcat(a, b, LineParser(hostOf, upper));
  }

  /** Joining two blocks with a line break concatenates their feeds. */
  lemma {:induction false} ParseFeedsConcat(a: string, b: string, hostOf: string -> Option<string>, upper: string -> string)
    ensures ParseFeeds(a + "\n" + b, hostOf, upper) == ParseFeeds(a, hostOf, upper) + ParseFeeds(b, hostOf, upper)
  {
    var nonEmpty := (l: string) => |l| > 0;
    assert a + "\n" + b == a + ['\n'] + b;
    SplitConcat(a, '\n', b);
    Seqs.MapConcat(Split(a, '\n'), Split(b, '\n'), Trim);
    Seqs.FilterConcat(Seqs.Map(Split(a, '\n'), Trim), Seqs.Map(Split(b, '\n'), Trim), nonEmpty);
    ParseLinesConcat(Lines(a), Lines(b), hostOf, upper);
  }

  /** A single line of text: blank gives nothing, anything else is parsed trimmed. */
  lemma {:induction false} SingleLine(line: string, hostOf: string -> Option<string>, upper: string -> string)
    requires '\n' !in line
    ensures AllSpace(line) ==> ParseFeeds(line, hostOf, upper) == []
    ensures !AllSpace(line) ==> ParseFeeds(line, hostOf, upper) == ParseLines([Trim(line)], hostOf, upper)
  {
    SplitWithoutSeparator(line, '\n');
    assert Seqs.Map([line], Trim) == [Trim(line)];
  }

  /** A blank line between two blocks changes nothing. */
  lemma {:induction false} BlankLineIgnored(a: string, blank: string, b: string, hostOf: string -> Option<string>, upper: string -> string)
    requires '\n' !in blank && AllSpace(blank)
    ensures ParseFeeds(a + "\n" + blank + "\n" + b, hostOf, upper) == ParseFeeds(a + "\n" + b, hostOf, upper)
  {
    var rest := blank + "\n" + b;
    BlankLineFirst(blank, b, hostOf, upper);
    Regroup(a, blank, b);
    ParseFeedsConcat(a, rest, hostOf, upper);
    ParseFeedsConcat(a, b, hostOf, upper);
  }

  lemma BlankLineFirst(blank: string, b: string, hostOf: string -> Option<string>, upper: string -> string)
    requires '\n' !in blank && AllSpace(blank)
    ensures ParseFeeds(blank + "\n" + b, hostOf, upper) == ParseFeeds(b, hostOf, upper)
  {
    ParseFeedsConcat(blank, b, hostOf, upper);
    SingleLine(blank, hostOf, upper);
  }

  lemma Regroup(a: string, blank: string, b: string)
    ensures a + "\n" + blank + "\n" + b == a + "\n" + (blank + "\n" + b)
  {
  }

  /** No surrounding white space. */
  predicate IsTrimmed(s: string) {
    |s| > 0 ==> !IsSpace(s[0]) && !IsSpace(s[|s| - 1])
  }

  /** A field that can be written into a `|`-separated line and read back. */
  predicate IsPlainField(s: string) {
    IsTrimmed(s) && '|' !in s && '\n' !in s
  }

  /** A feed that `Format` writes as a line the parser reads back unchanged. */
  predicate WellFormed(f: FeedInput) {
    && IsPlainField(f.name) && IsPlainField(f.url)
    && StartsWith(f.url, "http")
    && !IsUrlLine(f.name)
    && (f.logoUrl.Some? ==> IsPlainField(f.logoUrl.value) && StartsWith(f.logoUrl.value, "http"))
  }

  function FormatFields(f: FeedInput): seq<string> {
    [f.name, f.url] + (if f.logoUrl.Some? then [f.logoUrl.value] else [])
  }

  /** A feed written as a `Name|URL|Logo` line (the logo part only when present). */
  function Format(f: FeedInput): string {
    Join(FormatFields(f), "|")
  }

  /** A line starting with a plain name and '|' starts with a URL prefix only if the name does. */
  lemma {:induction false} NameGuardsPrefix(name: string, rest: string, p: string)
    requires '|' !in p && !StartsWith(name, p)
    ensures !StartsWith(name + "|" + rest, p)
  {
    var line := name + "|" + rest;
    if |name| >= |p| {
      assert line[..|p|] == name[..|p|];
    } else if |p| <= |line| {
      assert line[|name|] == '|';
      assert p[|name|] != '|';
      assert line[..|p|][|name|] != p[|name|];
    }
  }

  /** The line of a feed is its name, a '|', and the rest of its fields. */
  lemma {:induction false} FormatShape(f: FeedInput)
    ensures f.logoUrl.None? ==> Format(f) == f.name + "|" + f.url
    ensures f.logoUrl.Some? ==> Format(f) == f.name + "|" + (f.url + "|" + f.logoUrl.value)
  {
    var parts := FormatFields(f);
    assert parts[1..][1..] == parts[2..];
    if f.logoUrl.Some? {
      assert Join(parts[1..], "|") == f.url + "|" + Join(parts[2..], "|");
    } else {
      assert parts == [f.name, f.url];
      assert parts[1..] == [f.url];
      assert Join(parts[1..], "|") == f.url;
    }
  }

  /** A well-formed feed's line is neither a bare URL nor padded with white space. */
  lemma {:induction false} FormatIsDelimitedLine(f: FeedInput)
    requires WellFormed(f)
    ensures !IsUrlLine(Format(f)) && '|' in Format(f)
    ensures IsTrimmed(Format(f)) && Format(f) != ""
  {
    FormatShape(f);
    var tail := if f.logoUrl.Some? then f.url + "|" + f.logoUrl.value else f.url;
    assert |f.url| >= 4;
    if f.logoUrl.Some? {
      JoinedTrimmed(f.url, f.logoUrl.value);
    }
    assert Format(f) == f.name + "|" + tail;
    JoinedTrimmed(f.name, tail);
    NameGuardsPrefix(f.name, tail, "http://");
    NameGuardsPrefix(f.name, tail, "https://");
  }

  /** Two unpadded fields joined by '|', the second non-empty, are unpadded too. */
  lemma JoinedTrimmed(a: string, b: string)
    requires IsTrimmed(a) && IsTrimmed(b) && |b| > 0
    ensures IsTrimmed(a + "|" + b) && '|' in a + "|" + b
  {
    var line := a + "|" + b;
    assert line[|a|] == '|';
    assert line[|line| - 1] == b[|b| - 1];
    assert line[0] == if a == "" then '|' else a[0];
  }

  /** Splitting a well-formed feed's line on '|' and trimming gives its fields back. */
  lemma {:induction false} FormatFieldsBack(f: FeedInput)
    requires WellFormed(f)
    ensures Fields(Format(f), '|') == FormatFields(f)
  {
    var parts := FormatFields(f);
    assert forall k :: 0 <= k < |parts| ==> IsPlainField(parts[k]);
    assert Split(Format(f), '|') == parts by {
      SplitJoin(parts, '|');
    }
    TrimAllPlain(parts);
  }

  /** Trimming every field of a list of plain fields changes nothing. */
  lemma TrimAllPlain(parts: seq<string>)
    requires forall k :: 0 <= k < |parts| ==> IsPlainField(parts[k])
    ensures Seqs.Map(parts, Trim) == parts
  {
    forall k | 0 <= k < |parts| ensures Trim(parts[k]) == parts[k] {
      TrimOfTrimmed(parts[k]);
    }
  }

  /** A well-formed feed's line is parsed back into the same feed. */
  lemma {:induction false} FormatParseLine(f: FeedInput, hostOf: string -> Option<string>, upper: string -> string)
    requires WellFormed(f)
    ensures ParseLine(Format(f), hostOf, upper) == Some(f)
    ensures IsTrimmed(Format(f)) && Format(f) != ""
  {
    var line := Format(f);
    FormatIsDelimitedLine(f);
    assert ParseLine(line, hostOf, upper) == ParseDelimited(line, '|');
    assert ParseDelimited(line, '|') == Some(f) by {
      FormatFieldsBack(f);
      DelimitedFields(line, f);
    }
  }

  /** A line whose '|' fields are exactly a well-formed feed's fields is read as that feed. */
  lemma DelimitedFields(line: string, f: FeedInput)
    requires WellFormed(f) && Fields(line, '|') == FormatFields(f)
    ensures ParseDelimited(line, '|') == Some(f)
  {
    var parts := FormatFields(f);
    assert parts[0] == f.name && parts[1] == f.url;
    assert |parts| >= 3 <==> f.logoUrl.Some?;
    if f.logoUrl.Some? {
      assert parts[2] == f.logoUrl.value;
    }
    assert FeedOfFields(parts) == Some(f);
  }

  /** A list of feeds written one per line. */
  function FormatAll(fs: seq<FeedInput>): string {
    Join(Seqs.Map(fs, Format), "\n")
  }

  /** A well-formed feed's line, on its own, parses to exactly that feed. */
  lemma {:induction false} FormatLine(f: FeedInput, hostOf: string -> Option<string>, upper: string -> string)
    requires WellFormed(f)
    ensures '\n' !in Format(f)
    ensures ParseFeeds(Format(f), hostOf, upper) == [f]
  {
    var line := Format(f);
    FormatParseLine(f, hostOf, upper);
    assert '\n' !in line by {
      JoinAvoids(FormatFields(f), '|', '\n');
    }
    assert ParseFeeds(line, hostOf, upper) == ParseLines([line], hostOf, upper) by {
      assert !AllSpace(line) by {
        assert !IsSpace(line[0]);
      }
      TrimOfTrimmed(line);
      SingleLine(line, hostOf, upper);
    }
    OneLine(line, f, hostOf, upper);
  }

  lemma OneLine(line: string, f: FeedInput, hostOf: string -> Option<string>, upper: string -> string)
    requires ParseLine(line, hostOf, upper) == Some(f)
    ensures ParseLines([line], hostOf, upper) == [f]
  {
    assert ParseLines([line], hostOf, upper) == [f] + ParseLines([], hostOf, upper);
  }

  /** Every well-formed list of feeds survives being written out and parsed back. */
  lemma {:induction false} FormatAllRoundTrip(fs: seq<FeedInput>, hostOf: string -> Option<string>, upper: string -> string)
    requires forall i :: 0 <= i < |fs| ==> WellFormed(fs[i])
    ensures ParseFeeds(FormatAll(fs), hostOf, upper) == fs
    decreases |fs|
  {
    if |fs| == 0 {
      assert FormatAll(fs) == "";
      SingleLine("", hostOf, upper);
    } else if |fs| == 1 {
      FormatAllSingle(fs);
      FormatLine(fs[0], hostOf, upper);
    } else {
      FormatAllRoundTrip(fs[1..], hostOf, upper);
      FormatAllStep(fs, hostOf, upper);
    }
  }

  /** The inductive step: a first feed's line in front of the others parses to that feed in front of theirs. */
  lemma FormatAllStep(fs: seq<FeedInput>, hostOf: string -> Option<string>, upper: string -> string)
    requires |fs| >= 2 && WellFormed(fs[0])
    requires ParseFeeds(FormatAll(fs[1..]), hostOf, upper) == fs[1..]
    ensures ParseFeeds(FormatAll(fs), hostOf, upper) == fs
  {
    FormatAllCons(fs);
    ParseFeedsConcat(Format(fs[0]), FormatAll(fs[1..]), hostOf, upper);
    FormatLine(fs[0], hostOf, upper);
    assert fs == [fs[0]] + fs[1..];
  }

  lemma FormatAllSingle(fs: seq<FeedInput>)
    requires |fs| == 1
    ensures FormatAll(fs) == Format(fs[0])
  {
    assert Seqs.Map(fs, Format) == [Format(fs[0])];
  }

  lemma FormatAllCons(fs: seq<FeedInput>)
    requires |fs| >= 2
    ensures FormatAll(fs) == Format(fs[0]) + "\n" + FormatAll(fs[1..])
  {
    var lines := Seqs.Map(fs, Format);
    assert lines[1..] == Seqs.Map(fs[1..], Format);
  }

  /** Joining pieces that avoid a character with a separator other than it avoids it too. */
  lemma {:induction false} JoinAvoids(parts: seq<string>, sep: char, c: char)
    requires sep != c
    requires forall k :: 0 <= k < |parts| ==> c !in parts[k]
    ensures c !in Join(parts, [sep])
    decreases |parts|
  {
    if |parts| > 1 {
      JoinAvoids(parts[1..], sep, c);
    }
  }

  const EmptyInputMessage := "Please enter at least one RSS feed URL"
  const NoIndustryMessage := "Please select at least one industry for all feeds"
  const NoFeedsMessage := "No valid RSS feed URLs found. Please enter URLs starting with http:// or https://"

  /** What pressing Import does: stop with a message, or send the bulk payload. */
  datatype Submission = Rejected(message: string) | Send(items: seq<FeedsApi.BulkFeedRequest>)

  /** One item of the bulk payload: the parsed feed with the shared industries and fixed flags. */
  function BulkItem(f: FeedInput, industryIds: seq<string>): FeedsApi.BulkFeedRequest {
    FeedsApi.BulkFeedRequest(f.name, f.url, f.logoUrl, industryIds, true, false, true)
  }

  function IndustryIds(industries: seq<IndustrySelect.Industry>): seq<string> {
    Seqs.Map(industries, (ind: IndustrySelect.Industry) => ind.id)
  }

  /** `handleSubmit` up to the request: blank text, then no industry, then nothing parsed. */
  function Submit(text: string, industries: seq<IndustrySelect.Industry>, hostOf: string -> Option<string>, upper: string -> string): (r: Submission)
    ensures AllSpace(text) ==> r == Rejected(EmptyInputMessage)
    ensures !AllSpace(text) && industries == [] ==> r == Rejected(NoIndustryMessage)
    ensures !AllSpace(text) && industries != [] && ParseFeeds(text, hostOf, upper) == [] ==> r == Rejected(NoFeedsMessage)
    ensures r.Send? <==> !AllSpace(text) && industries != [] && ParseFeeds(text, hostOf, upper) != []
    ensures r.Send? ==> var feeds := ParseFeeds(text, hostOf, upper);
      && |r.items| == |feeds|
      && forall i :: 0 <= i < |feeds| ==>
        && r.items[i].name == feeds[i].name && r.items[i].url == feeds[i].url && r.items[i].logoUrl == feeds[i].logoUrl
        && |r.items[i].industries| == |industries|
        && (forall k :: 0 <= k < |industries| ==> r.items[i].industries[k] == industries[k].id)
        && r.items[i].autoUpdate && !r.items[i].fullText && r.items[i].enabled
  {
    if Trim(text) == "" then Rejected(EmptyInputMessage)
    else if |industries| == 0 then Rejected(NoIndustryMessage)
    else
      var feeds := ParseFeeds(text, hostOf, upper);
      if |feeds| == 0 then Rejected(NoFeedsMessage)
      else
        var ids := IndustryIds(industries);
        Send(Seqs.Map(feeds, (f: FeedInput) => BulkItem(f, ids)))
  }

  /** A feed the backend rejected, as the summary lists it. */
  datatype FailedItem = FailedItem(name: string, url: string, error: string)

  datatype Summary = Summary(created: int, failed: int, failedItems: seq<FailedItem>)

  const FeedsPath := "/dashboard/feeds"
  const ImportFallback := "Failed to import feeds"
  const ImportUnexpected := "An unexpected error occurred. Please try again."

  /** The form after the request: an error banner or a summary, and where it redirects. */
  datatype Finished = Finished(error: Option<string>, success: Option<Summary>, redirect: Option<string>, isSubmitting: bool)

  function ToFailedItem(f: FeedsApi.FailedFeed): FailedItem {
    FailedItem(if IsTruthyStr(f.name) then f.name.value else f.url, f.url, f.error)
  }

  /** The import result handling: the summary, the redirect when anything was created, the error text otherwise. */
  function AfterImport(outcome: Result<FeedsApi.BulkCreateResult, ApiClient.Thrown>): (r: Finished)
    ensures !r.isSubmitting
    ensures r.error.Some? <==> outcome.Failure?
    ensures outcome.Failure? ==> r.success.None? && r.error == Some(ApiClient.ErrorText(outcome.error, ImportFallback, ImportUnexpected))
    ensures r.redirect.Some? <==> outcome.Success? && outcome.value.created > 0
    ensures r.redirect.Some? ==> r.redirect.value == FeedsPath
    ensures outcome.Success? ==>
      && r.success.Some?
      && r.success.value.created == outcome.value.created && r.success.value.failed == outcome.value.failed
      && |r.success.value.failedItems| == |outcome.value.failedFeeds|
      && forall i :: 0 <= i < |outcome.value.failedFeeds| ==>
        var f := outcome.value.failedFeeds[i];
        r.success.value.failedItems[i] == FailedItem(if IsTruthyStr(f.name) then f.name.value else f.url, f.url, f.error)
  {
    match outcome
    case Failure(t) => Finished(Some(ApiClient.ErrorText(t, ImportFallback, ImportUnexpected)), None, None, false)
    case Success(res) =>
      var summary := Summary(res.created, res.failed, Seqs.Map(res.failedFeeds, ToFailedItem));
      Finished(None, Some(summary), if res.created > 0 then Some(FeedsPath) else None, false)
  }
  /**
   * The summary lists one failed item per feed the backend rejected, in order: each keeps
   * the url and the reason, and is named by the feed's name when that is non-empty, else by
   * its url, so an item is unnamed only when the backend sent neither.
   */
  lemma AfterImportListsEveryRejection(res: FeedsApi.BulkCreateResult)
    ensures var r := AfterImport(Success(res));
      && r.error.None? && r.success.Some?
      && |r.success.value.failedItems| == |res.failedFeeds|
      && forall i :: 0 <= i < |res.failedFeeds| ==>
        var item, f := r.success.value.failedItems[i], res.failedFeeds[i];
        && item.url == f.url && item.error == f.error
        && (item.name == f.url || Some(item.name) == f.name)
        && (f.name.Some? && f.name.value != "" ==> item.name == f.name.value)
        && (item.name == "" <==> f.url == "" && (f.name.None? || f.name.value == ""))
  {
  }

  /**
   * When the backend accounts for every item it was sent, the summary accounts for every
   * feed the text parsed to, and lists as many failed items as it counts failures.
   */
  lemma ImportAccountsForEveryFeed(
    text: string, industries: seq<IndustrySelect.Industry>, hostOf: string -> Option<string>, upper: string -> string,
    res: FeedsApi.BulkCreateResult)
    requires Submit(text, industries, hostOf, upper).Send?
    requires res.created + res.failed == |Submit(text, industries, hostOf, upper).items|
    requires res.failed == |res.failedFeeds|
    ensures var summary := AfterImport(Success(res)).success.value;
      && summary.created + summary.failed == |ParseFeeds(text, hostOf, upper)|
      && |summary.failedItems| == summary.failed
      && (AfterImport(Success(res)).redirect.Some? <==> summary.failed < |ParseFeeds(text, hostOf, upper)|)
  {
  }
}

=== FILE: class_names.dfy ===
/** `cn`: joining CSS class names, skipping the falsy ones. */
module ClassNames {
  import opened Wrappers
  import opened Strings
  import Seqs
  import Js

  /** One argument of `cn`: `string | undefined | null | false`, with all three non-strings as None. */
  type ClassArg = Option<string>

  /** The arguments `filter(Boolean)` keeps, unwrapped. */
  function Kept(inputs: seq<ClassArg>): (r: seq<string>)
    ensures |r| <= |inputs|
    ensures forall i :: 0 <= i < |r| ==> r[i] != ""
    decreases |inputs|
  {
    if |inputs| == 0 then []
    else if Js.IsTruthyStr(inputs[0]) then [inputs[0].value] + Kept(inputs[1..])
    else Kept(inputs[1..])
  }

  /** `inputs.filter(Boolean).join(" ")`: empty exactly when no argument is truthy. */
  function Cn(inputs: seq<ClassArg>): (r: string)
    ensures r == "" <==> Kept(inputs) == []
    ensures Kept(inputs) != [] ==> StartsWith(r, Kept(inputs)[0])
  {
    var kept := Kept(inputs);
    assert kept != [] ==> kept == [kept[0]] + kept[1..];
    Join(kept, " ")
  }

  /**
   * When no class name holds a space, splitting the joined string at spaces gives back
   * exactly the truthy arguments, in order.
   */
  lemma CnSplitsBack(inputs: seq<ClassArg>)
    requires forall i :: 0 <= i < |inputs| && Js.IsTruthyStr(inputs[i]) ==> ' ' !in inputs[i].value
    requires Kept(inputs) != []
    ensures Split(Cn(inputs), ' ') == Kept(inputs)
  {
    KeptNoSpace(inputs);
    SplitJoin(Kept(inputs), ' ');
  }

  lemma {:induction false} KeptNoSpace(inputs: seq<ClassArg>)
    requires forall i :: 0 <= i < |inputs| && Js.IsTruthyStr(inputs[i]) ==> ' ' !in inputs[i].value
    ensures forall k :: 0 <= k < |Kept(inputs)| ==> ' ' !in Kept(inputs)[k]
    decreases |inputs|
  {
    if |inputs| > 0 {
      KeptNoSpace(inputs[1..]);
    }
  }

  /** Kept is the truthy arguments, each unwrapped, in order: Seqs.Filter followed by unwrapping. */
  lemma {:induction false} KeptIsFilter(inputs: seq<ClassArg>)
    ensures Kept(inputs) == Seqs.Map(Seqs.Filter(inputs, Js.IsTruthyStr), Unwrap)
    decreases |inputs|
  {
    if |inputs| > 0 {
      KeptIsFilter(inputs[1..]);
      var rest := Seqs.Filter(inputs[1..], Js.IsTruthyStr);
      if Js.IsTruthyStr(inputs[0]) {
        Seqs.MapConcat([inputs[0]], rest, Unwrap);
      }
    }
  }

  function Unwrap(a: ClassArg): string {
    if a.Some? then a.value else ""
  }

  /** Falsy arguments leave no trace: no arguments, or only falsy ones, give "". */
  lemma {:induction false} OnlyFalsyIsEmpty(inputs: seq<ClassArg>)
    requires forall i :: 0 <= i < |inputs| ==> !Js.IsTruthyStr(inputs[i])
    ensures Cn(inputs) == ""
    decreases |inputs|
  {
    if |inputs| > 0 {
      OnlyFalsyIsEmpty(inputs[1..]);
    }
  }

  /** A single truthy argument comes back unchanged, wherever falsy arguments surround it. */
  lemma SingleTruthy(before: seq<ClassArg>, c: string, after: seq<ClassArg>)
    requires c != ""
    requires forall i :: 0 <= i < |before| ==> !Js.IsTruthyStr(before[i])
    requires forall i :: 0 <= i < |after| ==> !Js.IsTruthyStr(after[i])
    ensures Cn(before + [Some(c)] + after) == c
  {
    KeptConcat(before + [Some(c)], after);
    KeptConcat(before, [Some(c)]);
    OnlyFalsyIsEmpty(before);
    OnlyFalsyIsEmpty(after);
    assert Kept([Some(c)]) == [c] by {
      assert [Some(c)][1..] == [];
    }
    assert Kept(before + [Some(c)] + after) == [c];
  }

  /** Two truthy arguments are joined by one space. */
  lemma TwoTruthy(a: string, b: string)
    requires a != "" && b != ""
    ensures Cn([Some(a), Some(b)]) == a + " " + b
  {
    assert [Some(a), Some(b)][1..] == [Some(b)];
    assert [Some(b)][1..] == [];
    assert Kept([Some(a), Some(b)]) == [a, b];
    assert [a, b][1..] == [b];
    assert Join([a, b], " ") == a + " " + Join([b], " ");
  }

  lemma {:induction false} KeptConcat(a: seq<ClassArg>, b: seq<ClassArg>)
    ensures Kept(a + b) == Kept(a) + Kept(b)
    decreases |a|
  {
    if |a| == 0 {
      assert a + b == b;
    } else {
      assert (a + b)[0] == a[0];
      assert (a + b)[1..] == a[1..] + b;
      KeptConcat(a[1..], b);
    }
  }
}

=== FILE: config.dfy ===
/** The API endpoint configuration read from the `NEXT_PUBLIC_API_URL` environment variable. */
module Config {
  import opened Wrappers
  import opened Strings

  const MissingUrlMessage := "NEXT_PUBLIC_API_URL environment variable is not set. "
    + "Please set it in your .env.local file or deployment environment variables."

  /** `apiUrl.replace(/\/$/, '')`: one trailing slash removed, if there is one. */
  function StripTrailingSlash(s: string): (r: string)
    ensures |s| > 0 && s[|s| - 1] == '/' ==> r + "/" == s
    ensures !(|s| > 0 && s[|s| - 1] == '/') ==> r == s
  {
    if |s| > 0 && s[|s| - 1] == '/' then s[..|s| - 1] else s
  }

  /** `getApiBaseUrl`: an error when the variable is unset or empty, else the value without its trailing slash. */
  function GetApiBaseUrl(env: Option<string>): (r: Result<string, string>)
    ensures r.Failure? <==> env.None? || env.value == ""
    ensures r.Failure? ==> r.error == MissingUrlMessage
    ensures r.Success? ==> r.value == StripTrailingSlash(env.value)
  {
    match env
    case None => Failure(MissingUrlMessage)
    case Some(url) => if url == "" then Failure(MissingUrlMessage) else Success(StripTrailingSlash(url))
  }

  /** Only one slash goes: a base ending in several slashes keeps all but the last. */
  lemma OnlyOneSlashRemoved(base: string, n: nat)
    ensures GetApiBaseUrl(Some(base + seq(n + 1, _ => '/'))) == Success(base + seq(n, _ => '/'))
  {
    var s := base + seq(n + 1, _ => '/');
    assert s[..|s| - 1] == base + seq(n, _ => '/');
  }

  /** A base without a trailing slash is taken as it is, and adding one slash does not change the result. */
  lemma BaseUrlNormalises(base: string)
    requires base != "" && base[|base| - 1] != '/'
    ensures GetApiBaseUrl(Some(base)) == Success(base)
    ensures GetApiBaseUrl(Some(base + "/")) == Success(base)
  {
    assert (base + "/")[..|base|] == base;
  }

  /** `getApiUrl`: the base followed by "/api/v1", or the base's error. */
  function GetApiUrl(env: Option<string>): (r: Result<string, string>)
    ensures r.Success? <==> GetApiBaseUrl(env).Success?
    ensures r.Success? ==> r.value == GetApiBaseUrl(env).value + "/api/v1"
    ensures r.Failure? ==> r.error == MissingUrlMessage
  {
    match GetApiBaseUrl(env)
    case Success(base) => Success(base + "/api/v1")
    case Failure(e) => Failure(e)
  }

  /** `getApiDocsUrl`: the base followed by "/api/docs", or the base's error. */
  function GetApiDocsUrl(env: Option<string>): (r: Result<string, string>)
    ensures r.Success? <==> GetApiBaseUrl(env).Success?
    ensures r.Success? ==> r.value == GetApiBaseUrl(env).value + "/api/docs"
    ensures r.Failure? ==> r.error == MissingUrlMessage
  {
    match GetApiBaseUrl(env)
    case Success(base) => Success(base + "/api/docs")
    case Failure(e) => Failure(e)
  }

  /** With or without a trailing slash on the variable, the API URL has exactly one slash before "api". */
  lemma ApiUrlSingleSlash(base: string)
    requires base != "" && base[|base| - 1] != '/'
    ensures GetApiUrl(Some(base + "/")) == GetApiUrl(Some(base)) == Success(base + "/api/v1")
  {
    BaseUrlNormalises(base);
  }
}

=== FILE: customer_table.dfy ===
/**
 * The customers table: its fetch query, the search and filter handlers that reset the page,
 * the verification/status select boxes, and the pagination footer with its five-button window.
 */
module CustomerTable {
  import opened Wrappers
  import opened Query
  import Js
  import Paging
  import ApiClient
  import CustomersApi

  /** `const [limit] = useState(20)`: never changed. */
  const Limit := 20

  const LoadFallback := "Failed to load customers"
  const LoadUnexpected := "An unexpected error occurred"

  /** The two select boxes next to the search field. */
  datatype Filter = EmailVerified | IsActive

  datatype Table = Table(
    customers: seq<CustomersApi.Customer>,
    isLoading: bool,
    error: Option<string>,
    search: string,
    page: int,
    total: int,
    totalPages: int,
    emailVerified: Option<bool>,
    isActive: Option<bool>)

  /** The state on mount: page 1, nothing loaded, no filter, zero pages. */
  function Initial(): (t: Table)
    ensures t.page == 1 && t.search == "" && t.totalPages == 0
    ensures t.emailVerified == None && t.isActive == None
  {
    Table([], true, None, "", 1, 0, 0, None, None)
  }

  /** The query the effect sends: `search || undefined`, the filters as they are. */
  function ListQuery(t: Table): (q: CustomersApi.CustomerListQuery)
    ensures q.page == Some(t.page) && q.limit == Some(Limit)
    ensures q.search == (if t.search == "" then None else Some(t.search))
    ensures q.emailVerified == t.emailVerified && q.isActive == t.isActive
  {
    CustomersApi.CustomerListQuery(Some(t.page), Some(Limit), if t.search == "" then None else Some(t.search),
                                   t.emailVerified, t.isActive)
  }

  /**
   * What the backend reads from the request: the page (when not 0), the limit 20, the search
   * text when there is one, and each filter that is set — an "Unverified" filter included.
   */
  lemma RequestCarriesState(t: Table)
    ensures var q := CustomersApi.DecodeListQuery(CustomersApi.ListParams(ListQuery(t)));
      && q.limit == Some(Limit)
      && (t.page != 0 ==> q.page == Some(t.page))
      && q.search == (if t.search == "" then None else Some(t.search))
      && q.emailVerified == t.emailVerified
      && q.isActive == t.isActive
  {
    CustomersApi.ListParamsRoundTrip(ListQuery(t));
  }

  /** Start of the fetch effect: loading, error cleared. */
  function StartFetch(t: Table): (r: Table)
    ensures r.isLoading && r.error == None
    ensures r.customers == t.customers && r.page == t.page && r.total == t.total
  {
    t.(isLoading := true, error := None)
  }

  /** End of the fetch effect: the page of customers and its totals, or an error message. */
  function Loaded(t: Table, outcome: Result<CustomersApi.CustomerListResponse, ApiClient.Thrown>): (r: Table)
    ensures !r.isLoading
    ensures outcome.Success? ==> r.customers == outcome.value.data && r.error == t.error
    ensures outcome.Success? ==> r.total == outcome.value.pagination.total
    ensures outcome.Success? ==> r.totalPages == outcome.value.pagination.totalPages
    ensures outcome.Failure? ==> r.customers == t.customers && r.total == t.total && r.totalPages == t.totalPages
    ensures outcome.Failure? ==> r.error == Some(ApiClient.ErrorText(outcome.error, LoadFallback, LoadUnexpected))
    ensures r.page == t.page && r.search == t.search
    ensures r.emailVerified == t.emailVerified && r.isActive == t.isActive
  {
    match outcome
    case Success(resp) =>
      t.(customers := resp.data, total := resp.pagination.total, totalPages := resp.pagination.totalPages,
         isLoading := false)
    case Failure(thrown) =>
      t.(error := Some(ApiClient.ErrorText(thrown, LoadFallback, LoadUnexpected)), isLoading := false)
  }

  /** `handleSearchChange`: new text, back to page 1. */
  function SearchChange(t: Table, value: string): (r: Table)
    ensures r.search == value && r.page == 1
    ensures r.emailVerified == t.emailVerified && r.isActive == t.isActive
    ensures r.customers == t.customers && r.totalPages == t.totalPages
  {
    t.(search := value, page := 1)
  }

  /** `handleFilterChange`: only the named filter changes, back to page 1. */
  function FilterChange(t: Table, which: Filter, value: Option<bool>): (r: Table)
    ensures r.page == 1 && r.search == t.search
    ensures which == EmailVerified ==> r.emailVerified == value && r.isActive == t.isActive
    ensures which == IsActive ==> r.isActive == value && r.emailVerified == t.emailVerified
  {
    match which
    case EmailVerified => t.(emailVerified := value, page := 1)
    case IsActive => t.(isActive := value, page := 1)
  }

  /** The value a filter select shows: `filter === undefined ? 'all' : filter.toString()`. */
  function SelectValue(f: Option<bool>): (s: string)
    ensures s in {"all", "true", "false"}
  {
    match f
    case None => "all"
    case Some(b) => FlagText(b)
  }

  /** The filter a select option sets: `'all'` clears it, `'true'` is true, anything else is false. */
  function ParseSelect(s: string): (f: Option<bool>)
    ensures f == None <==> s == "all"
    ensures f == Some(true) <==> s == "true"
  {
    if s == "all" then None else Some(s == "true")
  }

  /** Showing a filter and picking what is shown leaves it as it was, and the three options read back as themselves. */
  lemma SelectRoundTrip(f: Option<bool>, s: string)
    ensures ParseSelect(SelectValue(f)) == f
    ensures s in {"all", "true", "false"} ==> SelectValue(ParseSelect(s)) == s
  {
  }

  /** `{totalPages > 1 && ...}`. */
  predicate FooterVisible(t: Table) {
    t.totalPages > 1
  }

  /** `setPage((p) => Math.max(1, p - 1))`. */
  function Previous(t: Table): (r: Table)
    ensures r.(page := t.page) == t
    ensures r.page >= 1 && r.page >= t.page - 1
    ensures r.page == 1 || r.page == t.page - 1
  {
    t.(page := Paging.PrevTarget(t.page))
  }

  /** `setPage((p) => Math.min(totalPages, p + 1))`. */
  function Next(t: Table): (r: Table)
    ensures r.(page := t.page) == t
    ensures r.page <= t.totalPages && r.page <= t.page + 1
    ensures r.page == t.totalPages || r.page == t.page + 1
  {
    t.(page := Paging.NextTarget(t.page, t.totalPages))
  }

  /** `disabled={page === 1 || isLoading}`. */
  predicate PreviousDisabled(t: Table) {
    t.page == 1 || t.isLoading
  }

  /** `disabled={page === totalPages || isLoading}`. */
  predicate NextDisabled(t: Table) {
    t.page == t.totalPages || t.isLoading
  }

  /**
   * While nothing is loading and the page is in range, an enabled Previous or Next button
   * moves exactly one page and stays in range, and a disabled one would not have moved.
   */
  lemma FooterButtonsMoveOnePage(t: Table)
    requires !t.isLoading && 1 <= t.page <= t.totalPages
    ensures !PreviousDisabled(t) <==> Previous(t).page == t.page - 1
    ensures !NextDisabled(t) <==> Next(t).page == t.page + 1
    ensures PreviousDisabled(t) <==> Previous(t) == t
    ensures NextDisabled(t) <==> Next(t) == t
    ensures 1 <= Previous(t).page <= t.totalPages && 1 <= Next(t).page <= t.totalPages
  {
    Paging.TargetsInRange(t.page, t.totalPages);
  }

  /** `(page - 1) * limit + 1`. */
  function ShowingFrom(page: int, limit: int): int {
    (page - 1) * limit + 1
  }

  /** `Math.min(page * limit, total)`. */
  function ShowingTo(page: int, limit: int, total: int): int {
    if page * limit < total then page * limit else total
  }

  /** On a page that holds at least one row, "Showing a to b" is a non-empty range of at most `limit` rows within the total. */
  lemma ShowingWithinTotal(page: int, limit: int, total: int)
    requires limit > 0 && page >= 1 && (page - 1) * limit < total
    ensures 1 <= ShowingFrom(page, limit) <= ShowingTo(page, limit, total) <= total
    ensures ShowingTo(page, limit, total) - ShowingFrom(page, limit) < limit
  {
    assert page * limit == (page - 1) * limit + limit;
    Paging.MulMono(0, page - 1, limit);
  }

  /** Consecutive pages show adjacent ranges: the next page starts right after this one ends. */
  lemma ShowingTiles(page: int, limit: int, total: int)
    requires page * limit <= total
    ensures ShowingFrom(page + 1, limit) == ShowingTo(page, limit, total) + 1
  {
  }

  /** Every page up to the page count, `Math.ceil(total / limit)`, holds at least one row. */
  lemma ValidPageHoldsRows(page: int, limit: int, total: int)
    requires limit > 0 && total > 0 && 1 <= page <= Paging.PageCount(total, limit)
    ensures (page - 1) * limit < total
  {
    var n := Paging.PageCount(total, limit);
    Paging.MulMono(page - 1, n - 1, limit);
  }

  /** How many numbered buttons there are: `Math.min(5, totalPages)`, never negative. */
  function WindowSize(totalPages: int): (n: nat)
    ensures n <= 5
    ensures n == 5 || n == totalPages || (totalPages < 0 && n == 0)
  {
    if totalPages >= 5 then 5 else if totalPages > 0 then totalPages else 0
  }

  /** The first numbered button; every later one is the next page. */
  function WindowStart(page: int, totalPages: int): int {
    if totalPages <= 5 then 1
    else if page <= 3 then 1
    else if page >= totalPages - 2 then totalPages - 4
    else page - 2
  }

  /** The page numbers of the numbered buttons, left to right. */
  function PageWindow(page: int, totalPages: int): (r: seq<int>)
    ensures |r| == WindowSize(totalPages)
    ensures forall i :: 0 <= i < |r| ==> r[i] == r[0] + i
  {
    seq(WindowSize(totalPages), i => WindowStart(page, totalPages) + i)
  }

  /**
   * With the current page in range the buttons are consecutive pages between 1 and the page
   * count, and one of them is the current page.
   */
  lemma WindowWellFormed(page: int, totalPages: int)
    requires 1 <= page <= totalPages
    ensures var w := PageWindow(page, totalPages);
      && |w| == (if totalPages < 5 then totalPages else 5)
      && (forall i :: 0 <= i < |w| ==> 1 <= w[i] <= totalPages)
      && page in w
  {
    var w := PageWindow(page, totalPages);
    var k := page - WindowStart(page, totalPages);
    assert 0 <= k < |w| && w[k] == page;
  }

  /** Up to five pages every page has a button, in order. */
  lemma SmallWindowShowsAll(page: int, totalPages: int)
    requires 0 <= totalPages <= 5
    ensures PageWindow(page, totalPages) == seq(totalPages, i => i + 1)
  {
  }

  /** Away from both ends of a long list the current page is the middle button. */
  lemma WindowCentred(page: int, totalPages: int)
    requires totalPages > 5 && 3 < page < totalPages - 2
    ensures PageWindow(page, totalPages)[2] == page
  {
  }

  /** Near either end of a long list the window is pinned to that end. */
  lemma WindowPinned(page: int, totalPages: int)
    requires totalPages > 5
    ensures page <= 3 ==> PageWindow(page, totalPages)[0] == 1
    ensures page >= totalPages - 2 && page > 3 ==> PageWindow(page, totalPages)[4] == totalPages
  {
  }
}

=== FILE: customers_api.dfy ===
/** The customers API wrapper: the customer transform and the list query string. */
module CustomersApi {
  import opened Wrappers
  import opened Query
  import Seqs

  /** A customer as the backend sends it. */
  datatype CustomerDto = CustomerDto(
    id: string,
    name: string,
    email: string,
    phone: Option<string>,
    username: string,
    emailVerified: bool,
    isActive: bool,
    createdAt: string,
    updatedAt: string,
    lastLoginAt: Option<string>)

  /** A customer as the dashboard holds it. */
  datatype Customer = Customer(
    id: string,
    name: string,
    email: string,
    phone: Option<string>,
    username: string,
    emailVerified: bool,
    isActive: bool,
    createdAt: string,
    updatedAt: string,
    lastLoginAt: Option<string>)

  /** `transformCustomer`: a field-by-field copy with no defaults and no renaming. */
  function TransformCustomer(d: CustomerDto): (c: Customer)
    ensures c.id == d.id && c.name == d.name && c.email == d.email && c.phone == d.phone
    ensures c.username == d.username && c.emailVerified == d.emailVerified && c.isActive == d.isActive
    ensures c.createdAt == d.createdAt && c.updatedAt == d.updatedAt && c.lastLoginAt == d.lastLoginAt
  {
    Customer(d.id, d.name, d.email, d.phone, d.username, d.emailVerified, d.isActive,
             d.createdAt, d.updatedAt, d.lastLoginAt)
  }

  /** The backend record a customer was read from. */
  function ToDto(c: Customer): CustomerDto {
    CustomerDto(c.id, c.name, c.email, c.phone, c.username, c.emailVerified, c.isActive,
                c.createdAt, c.updatedAt, c.lastLoginAt)
  }

  /** The transform loses nothing: it is a bijection with `ToDto` as its inverse. */
  lemma TransformRoundTrip(d: CustomerDto, c: Customer)
    ensures ToDto(TransformCustomer(d)) == d
    ensures TransformCustomer(ToDto(c)) == c
  {
  }

  /** `CustomerListQuery`. */
  datatype CustomerListQuery = CustomerListQuery(
    page: Option<int>,
    limit: Option<int>,
    search: Option<string>,
    emailVerified: Option<bool>,
    isActive: Option<bool>)

  const ListKeys := ["page", "limit", "search", "emailVerified", "isActive"]

  function ListCandidates(q: CustomerListQuery): seq<Candidate> {
    [ NumParam("page", q.page),
      NumParam("limit", q.limit),
      TextParam("search", q.search),
      FlagParam("emailVerified", q.emailVerified),
      FlagParam("isActive", q.isActive) ]
  }

  /** No key is sent twice. */
  lemma ListKeysDistinct()
    ensures Distinct(ListKeys)
  {
  }

  /** The query string of `customersApi.list`, as its ordered parameters. */
  function ListParams(q: CustomerListQuery): (r: seq<Param>)
    ensures IsSubsequence(Keys(r), ListKeys)
    ensures Lookup(r, "page") == (if IsTruthyNum(q.page) then Some(Decimal.IntToString(q.page.value)) else None)
    ensures Lookup(r, "limit") == (if IsTruthyNum(q.limit) then Some(Decimal.IntToString(q.limit.value)) else None)
    ensures Lookup(r, "search") == Js.EmptyToAbsent(q.search)
    ensures Lookup(r, "emailVerified") == (if q.emailVerified.Some? then Some(FlagText(q.emailVerified.value)) else None)
    ensures Lookup(r, "isActive") == (if q.isActive.Some? then Some(FlagText(q.isActive.value)) else None)
  {
    var c := ListCandidates(q);
    ListKeysDistinct();
    EmitFaithful(c, ListKeys);
    assert Lookup(Emit(c), "page") == c[0].1 by { assert ListKeys[0] == "page"; }
    assert Lookup(Emit(c), "limit") == c[1].1 by { assert ListKeys[1] == "limit"; }
    assert Lookup(Emit(c), "search") == c[2].1 by { assert ListKeys[2] == "search"; }
    assert Lookup(Emit(c), "emailVerified") == c[3].1 by { assert ListKeys[3] == "emailVerified"; }
    assert Lookup(Emit(c), "isActive") == c[4].1 by { assert ListKeys[4] == "isActive"; }
    Emit(c)
  }

  /** Reads a customer list query back from its parameters. */
  function DecodeListQuery(ps: seq<Param>): CustomerListQuery {
    CustomerListQuery(
      DecodeNum(Lookup(ps, "page")),
      DecodeNum(Lookup(ps, "limit")),
      Lookup(ps, "search"),
      DecodeFlag(Lookup(ps, "emailVerified")),
      DecodeFlag(Lookup(ps, "isActive")))
  }

  /** What the backend can see of a query: falsy numbers and strings dropped, flags kept even when false. */
  function Sent(q: CustomerListQuery): CustomerListQuery {
    CustomerListQuery(NumValue(q.page), NumValue(q.limit), Js.EmptyToAbsent(q.search), q.emailVerified, q.isActive)
  }

  /** Building the parameters and reading them back loses only the falsy page, limit and search. */
  lemma ListParamsRoundTrip(q: CustomerListQuery)
    ensures DecodeListQuery(ListParams(q)) == Sent(q)
  {
    var ps := ListParams(q);
    NumParamRoundTrip("page", q.page);
    NumParamRoundTrip("limit", q.limit);
    FlagParamRoundTrip("emailVerified", q.emailVerified);
    FlagParamRoundTrip("isActive", q.isActive);
    assert Lookup(ps, "page") == NumParam("page", q.page).1;
    assert Lookup(ps, "limit") == NumParam("limit", q.limit).1;
    assert Lookup(ps, "emailVerified") == FlagParam("emailVerified", q.emailVerified).1;
    assert Lookup(ps, "isActive") == FlagParam("isActive", q.isActive).1;
  }

  datatype CustomerListDto = CustomerListDto(data: seq<CustomerDto>, pagination: PaginationMeta)

  datatype CustomerListResponse = CustomerListResponse(data: seq<Customer>, pagination: PaginationMeta)

  /** `customersApi.list` on an answered request: every customer transformed in order, pagination as sent. */
  function MapListResponse(raw: CustomerListDto): (r: CustomerListResponse)
    ensures |r.data| == |raw.data|
    ensures forall i :: 0 <= i < |r.data| ==> ToDto(r.data[i]) == raw.data[i]
    ensures r.pagination == raw.pagination
  {
    CustomerListResponse(Seqs.Map(raw.data, TransformCustomer), raw.pagination)
  }
}

=== FILE: dashboard_layout.dfy ===
/**
 * The dashboard layout: the sidebar's open state hydrated from and saved to browser storage,
 * its toggle, and the authentication gate that decides what the layout renders.
 */
module DashboardLayout {
  import opened Wrappers
  import ApiClient
  import Auth

  type Storage = ApiClient.Storage

  const SidebarKey := "sidebarOpen"

  /** Widths from this one up count as desktop, where the sidebar starts open. */
  const DesktopWidth := 1024

  /**
   * The layout's state. `mounted` is the ref set by the layout effect; before it is set, the
   * persistence and authentication effects do nothing.
   */
  datatype Layout = Layout(mounted: bool, isChecking: bool, isAuthenticated: bool, sidebarOpen: bool)

  /** The state of the first (server-consistent) render. */
  const Initial := Layout(false, true, false, false)

  /** `savedState !== null ? savedState === 'true' : window.innerWidth >= 1024`. */
  function SavedSidebar(storage: Storage, width: int): (open: bool)
    ensures SidebarKey in storage ==> (open <==> storage[SidebarKey] == "true")
    ensures SidebarKey !in storage ==> (open <==> width >= DesktopWidth)
  {
    match ApiClient.GetItem(storage, SidebarKey)
    case Some(saved) => saved == "true"
    case None => width >= DesktopWidth
  }

  /** The layout effect: mark mounted, then `setSidebarOpen(prev => prev !== s ? s : prev)`. */
  function Hydrate(l: Layout, storage: Storage, width: int): (r: Layout)
    ensures r.mounted && r.sidebarOpen == SavedSidebar(storage, width)
    ensures r.isChecking == l.isChecking && r.isAuthenticated == l.isAuthenticated
  {
    var s := SavedSidebar(storage, width);
    l.(mounted := true, sidebarOpen := if l.sidebarOpen != s then s else l.sidebarOpen)
  }

  /** The save effect: after mount, `localStorage.setItem('sidebarOpen', String(sidebarOpen))`. */
  function Persist(l: Layout, storage: Storage): (r: Storage)
    ensures !l.mounted ==> r == storage
    ensures l.mounted ==> SidebarKey in r && (r[SidebarKey] == "true" <==> l.sidebarOpen)
    ensures forall k :: k != SidebarKey ==> (k in r <==> k in storage)
    ensures forall k :: k != SidebarKey && k in r ==> r[k] == storage[k]
  {
    if !l.mounted then storage
    else storage[SidebarKey := if l.sidebarOpen then "true" else "false"]
  }

  /** A saved state is restored on the next visit, at any window width. */
  lemma PersistRoundTrip(l: Layout, storage: Storage, next: Layout, width: int)
    requires l.mounted
    ensures Hydrate(next, Persist(l, storage), width).sidebarOpen == l.sidebarOpen
  {
  }

  /** `toggleSidebar`: `setSidebarOpen(prev => !prev)`. */
  function ToggleSidebar(l: Layout): (r: Layout)
    ensures r.sidebarOpen == !l.sidebarOpen
    ensures r.mounted == l.mounted && r.isChecking == l.isChecking && r.isAuthenticated == l.isAuthenticated
  {
    l.(sidebarOpen := !l.sidebarOpen)
  }

  /** Toggling, saving and coming back opens the sidebar the other way round from before. */
  lemma ToggleIsRemembered(l: Layout, storage: Storage, next: Layout, width: int)
    requires l.mounted
    ensures Hydrate(next, Persist(ToggleSidebar(l), storage), width).sidebarOpen == !l.sidebarOpen
    ensures ToggleSidebar(ToggleSidebar(l)) == l
  {
  }

  /** What `checkAuth` leaves: the new state and where the router is sent. */
  datatype Checked = Checked(layout: Layout, navigate: Option<string>)

  /** `checkAuth`: nothing before mount; afterwards record the answer, stop checking, and go to /login when signed out. */
  function CheckAuth(l: Layout, storage: Storage): (r: Checked)
    ensures !l.mounted ==> r == Checked(l, None)
    ensures l.mounted ==> !r.layout.isChecking && (r.layout.isAuthenticated <==> Auth.IsAuthenticated(storage))
    ensures l.mounted ==> (r.navigate == Some(ApiClient.LoginPath) <==> !Auth.IsAuthenticated(storage))
    ensures l.mounted ==> (r.navigate.None? <==> Auth.IsAuthenticated(storage))
    ensures r.layout.sidebarOpen == l.sidebarOpen && r.layout.mounted == l.mounted
  {
    if !l.mounted then Checked(l, None)
    else
      var authenticated := Auth.IsAuthenticated(storage);
      Checked(l.(isAuthenticated := authenticated, isChecking := false),
              if authenticated then None else Some(ApiClient.LoginPath))
  }

  /** What the layout renders. */
  datatype View = CheckingScreen | Nothing | Shell(sidebarOpen: bool)

  function Render(l: Layout): (v: View)
    ensures v.Shell? <==> !l.isChecking && l.isAuthenticated
    ensures v == CheckingScreen <==> l.isChecking
    ensures v.Shell? ==> v.sidebarOpen == l.sidebarOpen
  {
    if l.isChecking then CheckingScreen
    else if !l.isAuthenticated then Nothing
    else Shell(l.sidebarOpen)
  }

  /**
   * The gate, from the first render: until the check runs only the checking screen shows; after
   * hydration and the check, the dashboard shows exactly when a session token is stored, and
   * otherwise nothing is rendered and the router goes to /login.
   */
  lemma AuthGate(storage: Storage, width: int)
    ensures Render(Initial) == CheckingScreen
    ensures var c := CheckAuth(Hydrate(Initial, storage, width), storage);
      && (Render(c.layout).Shell? <==> Auth.IsAuthenticated(storage))
      && (!Auth.IsAuthenticated(storage) ==> Render(c.layout) == Nothing && c.navigate == Some(ApiClient.LoginPath))
      && (Auth.IsAuthenticated(storage) ==> c.navigate == None)
  {
  }

  /** The second, delayed check on unchanged storage agrees with the first. */
  lemma RecheckAgrees(l: Layout, storage: Storage)
    ensures CheckAuth(CheckAuth(l, storage).layout, storage) == CheckAuth(l, storage)
  {
  }
}

=== FILE: decimal.dfy ===
/**
 * Decimal rendering of integers (`n.toString()` and template-literal interpolation of a number)
 * and its inverse, used to read back the numeric query parameters.
 */
module Decimal {
  import opened Wrappers

  predicate IsDigit(c: char) {
    '0' <= c <= '9'
  }

  predicate AllDigits(s: string) {
    forall i :: 0 <= i < |s| ==> IsDigit(s[i])
  }

  function DigitChar(d: nat): (c: char)
    requires d < 10
    ensures IsDigit(c)
  {
    ['0', '1', '2', '3', '4', '5', '6', '7', '8', '9'][d]
  }

  function DigitValue(c: char): (d: nat)
    requires IsDigit(c)
    ensures d < 10
  {
    (c as int - '0' as int) as nat
  }

  /** The shortest decimal numeral of `n`. */
  function NatToString(n: nat): (s: string)
    ensures |s| > 0 && AllDigits(s)
    ensures |s| > 1 ==> s[0] != '0'
    decreases n
  {
    if n < 10 then [DigitChar(n)] else NatToString(n / 10) + [DigitChar(n % 10)]
  }

  /** `String(n)` for an integer: a minus sign in front of the magnitude when negative. */
  function IntToString(n: int): (s: string)
    ensures |s| > 0
    ensures n < 0 <==> s[0] == '-'
  {
    if n < 0 then "-" + NatToString(-n) else NatToString(n)
  }

  /** The value of a non-empty run of decimal digits. */
  function ParseNat(s: string): nat
    requires |s| > 0 && AllDigits(s)
    decreases |s|
  {
    if |s| == 1 then DigitValue(s[0])
    else ParseNat(s[..|s| - 1]) * 10 + DigitValue(s[|s| - 1])
  }

  /** Reads an optionally signed decimal numeral; anything else is None. */
  function ParseInt(s: string): Option<int> {
    if |s| > 1 && s[0] == '-' && AllDigits(s[1..]) then Some(0 - ParseNat(s[1..]) as int)
    else if |s| > 0 && AllDigits(s) then Some(ParseNat(s))
    else None
  }

  lemma DigitRoundTrip(d: nat)
    requires d < 10
    ensures DigitValue(DigitChar(d)) == d
  {
  }

  /** Reading back the numeral of `n` gives `n`. */
  lemma {:induction false} NatRoundTrip(n: nat)
    ensures ParseNat(NatToString(n)) == n
    decreases n
  {
    var s := NatToString(n);
    if n < 10 {
      DigitRoundTrip(n);
    } else {
      var p := NatToString(n / 10);
      assert s == p + [DigitChar(n % 10)];
      assert s[..|s| - 1] == p;
      NatRoundTrip(n / 10);
      DigitRoundTrip(n % 10);
    }
  }

  /** Reading back the rendering of any integer gives that integer. */
  lemma {:induction false} IntRoundTrip(n: int)
    ensures ParseInt(IntToString(n)) == Some(n)
  {
    if n < 0 {
      var m := NatToString(-n);
      var s := "-" + m;
      assert s[1..] == m;
      assert ParseNat(m) == -n by {
        NatRoundTrip(-n);
      }
      assert ParseInt(s) == Some(0 - ParseNat(m) as int);
    } else {
      var s := NatToString(n);
      assert IsDigit(s[0]);
      assert ParseNat(s) == n by {
        NatRoundTrip(n);
      }
    }
  }

  /** Distinct integers render to distinct strings. */
  lemma IntToStringInjective(a: int, b: int)
    requires IntToString(a) == IntToString(b)
    ensures a == b
  {
    IntRoundTrip(a);
    IntRoundTrip(b);
  }
}

=== FILE: feed_form.dfy ===
/**
 * The create/edit feed form: its state seeded from optional initial values (a partial feed),
 * and the payload it assembles on submit.
 */
module FeedForm {
  import opened Wrappers
  import Js
  import FeedsApi
  import IndustrySelect

  type Industry = IndustrySelect.Industry

  /** `Partial<Feed>`, restricted to the fields the form reads. */
  datatype InitialValues = InitialValues(
    name: Option<string>,
    url: Option<string>,
    logo: Option<string>,
    industries: Option<seq<Industry>>,
    autoUpdate: Option<bool>,
    fullText: Option<bool>,
    status: Option<FeedsApi.FeedStatus>)

  datatype Form = Form(
    name: string,
    url: string,
    logoUrl: string,
    logoFile: Option<string>,
    industries: seq<Industry>,
    autoUpdate: bool,
    fullText: bool,
    enabled: bool,
    isSubmitting: bool)

  /** The submitted payload. */
  datatype Payload = Payload(
    name: string,
    url: string,
    logo: string,
    industries: seq<Industry>,
    autoUpdate: bool,
    fullText: bool,
    enabled: bool)

  function StrOr(s: Option<string>, d: string): string {
    if s.Some? then s.value else d
  }

  /**
   * The initial state: every field `initialValues?.field ?? default`, except `enabled`, which is
   * `initialValues?.status !== "disabled"`; no uploaded logo, not submitting.
   */
  function Initial(init: Option<InitialValues>): (f: Form)
    ensures init.None? ==> f == Form("", "", "", None, [], true, false, true, false)
    ensures init.Some? ==> f.name == StrOr(init.value.name, "") && f.url == StrOr(init.value.url, "")
    ensures init.Some? ==> f.logoUrl == StrOr(init.value.logo, "")
    ensures init.Some? ==> f.industries == (if init.value.industries.Some? then init.value.industries.value else [])
    ensures init.Some? ==> f.autoUpdate == Js.BoolOr(init.value.autoUpdate, true)
    ensures init.Some? ==> f.fullText == Js.BoolOr(init.value.fullText, false)
    ensures !f.enabled <==> init.Some? && init.value.status == Some(FeedsApi.Disabled)
    ensures f.logoFile == None && !f.isSubmitting
  {
    match init
    case None => Form("", "", "", None, [], true, false, true, false)
    case Some(v) =>
      Form(StrOr(v.name, ""), StrOr(v.url, ""), StrOr(v.logo, ""), None,
           if v.industries.Some? then v.industries.value else [],
           Js.BoolOr(v.autoUpdate, true), Js.BoolOr(v.fullText, false),
           v.status != Some(FeedsApi.Disabled), false)
  }

  /** The partial feed an edit page passes in for an existing feed: every field present. */
  function ValuesOf(feed: FeedsApi.Feed): (v: InitialValues)
    ensures v.name == Some(feed.name) && v.url == Some(feed.url) && v.logo == feed.logo
    ensures v.status == Some(feed.status)
  {
    InitialValues(Some(feed.name), Some(feed.url), feed.logo, Some(feed.industries), Some(feed.autoUpdate),
                  Some(feed.fullText), Some(feed.status))
  }

  /** `{ name, url, logo: logoFile ?? logoUrl, industries, autoUpdate, fullText, enabled }`. */
  function SubmitPayload(f: Form): (p: Payload)
    ensures f.logoFile.Some? ==> p.logo == f.logoFile.value
    ensures f.logoFile.None? ==> p.logo == f.logoUrl
    ensures p.name == f.name && p.url == f.url && p.industries == f.industries
    ensures p.autoUpdate == f.autoUpdate && p.fullText == f.fullText && p.enabled == f.enabled
  {
    Payload(f.name, f.url, StrOr(f.logoFile, f.logoUrl), f.industries, f.autoUpdate, f.fullText, f.enabled)
  }

  /**
   * Editing a feed read from the backend starts with `enabled` equal to the truthiness of the
   * backend's `enabled` flag, and the other flags as the transform defaulted them.
   */
  lemma EditStartsFromBackend(b: FeedsApi.BackendFeed)
    ensures var f := Initial(Some(ValuesOf(FeedsApi.TransformFeed(b))));
      && (f.enabled <==> Js.IsTruthy(b.enabled))
      && f.autoUpdate == Js.BoolOr(b.autoUpdate, true)
      && f.fullText == Js.BoolOr(b.fullText, false)
      && f.name == b.name && f.url == b.url
  {
  }

  /**
   * Submitting an edit form untouched sends the feed back as it was: same name, url, industries
   * and flags, `enabled` exactly when the status is enabled, and the logo or "" when it had none.
   */
  lemma UntouchedEditSubmitsFeed(feed: FeedsApi.Feed)
    ensures var p := SubmitPayload(Initial(Some(ValuesOf(feed))));
      && p.name == feed.name && p.url == feed.url && p.industries == feed.industries
      && p.autoUpdate == feed.autoUpdate && p.fullText == feed.fullText
      && (p.enabled <==> feed.status == FeedsApi.Enabled)
      && p.logo == StrOr(feed.logo, "")
  {
  }

  /** An uploaded logo wins over a typed logo URL, whatever was typed. */
  lemma UploadWins(f: Form, file: string, typed: string)
    ensures SubmitPayload(f.(logoFile := Some(file), logoUrl := typed)).logo == file
  {
  }
}

=== FILE: feed_table.dfy ===
/**
 * The feeds table: its fetch query and page count, the enable/disable toggle, the delete
 * confirmation, the manual refresh with its failure message, the per-row busy sets, and the
 * search and sort controls that send the table back to page 1.
 */
module FeedTable {
  import opened Wrappers
  import opened Query
  import Js
  import Seqs
  import Decimal
  import Paging
  import ApiClient
  import FeedsApi

  /** `const perPage = 10`. */
  const PerPage := 10

  const Unexpected := "An unexpected error occurred"
  const LoadFallback := "Failed to load feeds"
  const ToggleFallback := "Failed to toggle feed"
  const DeleteFallback := "Failed to delete feed"
  const RefreshFallback := "Failed to refresh feed"

  datatype Table = Table(
    feeds: seq<FeedsApi.Feed>,
    total: int,
    search: string,
    sortOrder: SortOrder,
    page: int,
    target: Option<FeedsApi.Feed>,
    isLoading: bool,
    error: Option<string>,
    toggling: set<string>,
    refreshing: set<string>)

  /** The state on mount from the server-rendered first page: newest first, page 1, nothing busy. */
  function Initial(initialFeeds: seq<FeedsApi.Feed>, initialTotal: int): (t: Table)
    ensures t.feeds == initialFeeds && t.total == initialTotal
    ensures t.sortOrder == Newest && t.page == 1 && t.search == "" && t.target == None
    ensures t.toggling == {} && t.refreshing == {}
  {
    Table(initialFeeds, initialTotal, "", Newest, 1, None, false, None, {}, {})
  }

  /** The query of both the fetch effect and the re-fetch after a refresh. */
  function ListQuery(t: Table): (q: FeedsApi.FeedListQuery)
    ensures q.page == Some(t.page) && q.limit == Some(PerPage) && q.enabled == None
    ensures q.search == (if t.search == "" then None else Some(t.search))
    ensures q.sortBy == Some(t.sortOrder)
  {
    FeedsApi.FeedListQuery(Some(t.page), Some(PerPage), if t.search == "" then None else Some(t.search), None,
                           Some(t.sortOrder))
  }

  /** The backend reads back the table's page, the page size 10, the search text when there is one, and the order. */
  lemma RequestCarriesState(t: Table)
    ensures var q := FeedsApi.DecodeListQuery(FeedsApi.ListParams(ListQuery(t)));
      && q.limit == Some(PerPage)
      && (t.page != 0 ==> q.page == Some(t.page))
      && q.search == (if t.search == "" then None else Some(t.search))
      && q.enabled == None
      && q.sortBy == Some(t.sortOrder)
  {
    FeedsApi.ListParamsRoundTrip(ListQuery(t));
  }

  /** `Math.max(1, Math.ceil(total / perPage))`. */
  function PageCount(t: Table): (n: int)
    ensures n >= 1 && t.total <= n * PerPage
    ensures t.total > 0 ==> (n - 1) * PerPage < t.total
  {
    Paging.PageCount(t.total, PerPage)
  }

  /** `{!isLoading && feeds.length > 0 && <Pagination ... />}`. */
  predicate PaginationVisible(t: Table) {
    !t.isLoading && |t.feeds| > 0
  }

  /** The Pagination control's `onPageChange={setPage}` with Previous and Next. */
  function Previous(t: Table): (r: Table)
    ensures r.(page := t.page) == t
    ensures r.page >= 1 && r.page >= t.page - 1
    ensures r.page == 1 || r.page == t.page - 1
  {
    t.(page := Paging.PrevTarget(t.page))
  }

  function Next(t: Table): (r: Table)
    ensures r.(page := t.page) == t
    ensures r.page <= PageCount(t) && r.page <= t.page + 1
    ensures r.page == PageCount(t) || r.page == t.page + 1
  {
    t.(page := Paging.NextTarget(t.page, PageCount(t)))
  }

  /** From a page in range, Previous and Next keep the page in range. */
  lemma PageStaysInRange(t: Table)
    requires 1 <= t.page <= PageCount(t)
    ensures 1 <= Previous(t).page <= PageCount(Previous(t))
    ensures 1 <= Next(t).page <= PageCount(Next(t))
  {
    Paging.TargetsInRange(t.page, PageCount(t));
  }

  /** Start of the fetch effect. */
  function StartFetch(t: Table): (r: Table)
    ensures r.isLoading && r.error == None && r.feeds == t.feeds && r.page == t.page
  {
    t.(isLoading := true, error := None)
  }

  /** End of the fetch effect: the new page and total, or an error message. */
  function Loaded(t: Table, outcome: Result<FeedsApi.FeedListResponse, ApiClient.Thrown>): (r: Table)
    ensures !r.isLoading && r.page == t.page && r.search == t.search && r.sortOrder == t.sortOrder
    ensures outcome.Success? ==> r.feeds == outcome.value.data && r.total == outcome.value.pagination.total
    ensures outcome.Success? ==> r.error == t.error
    ensures outcome.Failure? ==> r.feeds == t.feeds && r.total == t.total
    ensures outcome.Failure? ==> r.error == Some(ApiClient.ErrorText(outcome.error, LoadFallback, Unexpected))
  {
    match outcome
    case Success(resp) => t.(feeds := resp.data, total := resp.pagination.total, isLoading := false)
    case Failure(e) => t.(error := Some(ApiClient.ErrorText(e, LoadFallback, Unexpected)), isLoading := false)
  }

  /** Search box change: `setSearch(value); setPage(1)`. */
  function SearchChange(t: Table, value: string): (r: Table)
    ensures r.search == value && r.page == 1
    ensures r.sortOrder == t.sortOrder && r.feeds == t.feeds && r.total == t.total
  {
    t.(search := value, page := 1)
  }

  /** "Newest First" / "Oldest First": `setSortOrder(o); setPage(1)`. */
  function SortChange(t: Table, order: SortOrder): (r: Table)
    ensures r.sortOrder == order && r.page == 1
    ensures r.search == t.search && r.feeds == t.feeds && r.total == t.total
  {
    t.(sortOrder := order, page := 1)
  }

  predicate DistinctIds(feeds: seq<FeedsApi.Feed>) {
    forall i, j :: 0 <= i < j < |feeds| ==> feeds[i].id != feeds[j].id
  }

  /** `prev.map((f) => (f.id === id ? updated : f))`. */
  function ReplaceById(feeds: seq<FeedsApi.Feed>, id: string, updated: FeedsApi.Feed): (r: seq<FeedsApi.Feed>)
    ensures |r| == |feeds|
    ensures forall i :: 0 <= i < |feeds| && feeds[i].id != id ==> r[i] == feeds[i]
    ensures forall i :: 0 <= i < |feeds| && feeds[i].id == id ==> r[i] == updated
  {
    Seqs.Map(feeds, (f: FeedsApi.Feed) => if f.id == id then updated else f)
  }

  /** `prev.filter((f) => f.id !== id)`. */
  function RemoveById(feeds: seq<FeedsApi.Feed>, id: string): (r: seq<FeedsApi.Feed>)
    ensures |r| <= |feeds|
    ensures forall i :: 0 <= i < |r| ==> r[i] in feeds && r[i].id != id
    ensures forall i :: 0 <= i < |feeds| && feeds[i].id != id ==> feeds[i] in r
  {
    Seqs.Filter(feeds, OtherId(id))
  }

  /** The filter predicate of a delete, named so that the proofs below refer to the same function value. */
  function OtherId(id: string): FeedsApi.Feed -> bool {
    (f: FeedsApi.Feed) => f.id != id
  }

  /** Removing a row whose id occurs nowhere else drops exactly that row and keeps the others in order. */
  lemma RemoveDistinctRow(feeds: seq<FeedsApi.Feed>, k: nat)
    requires DistinctIds(feeds) && k < |feeds|
    ensures RemoveById(feeds, feeds[k].id) == feeds[..k] + feeds[k + 1..]
    ensures |RemoveById(feeds, feeds[k].id)| == |feeds| - 1
  {
    var id := feeds[k].id;
    var a, b := feeds[0..k], feeds[k + 1..|feeds|];
    assert feeds == a + [feeds[k]] + b;
    assert feeds[..k] == a && feeds[k + 1..] == b;
    OtherIdsKept(feeds, 0, k, id);
    OtherIdsKept(feeds, k + 1, |feeds|, id);
    Seqs.FilterDropsOne(a, feeds[k], b, OtherId(id));
  }

  /** A stretch of rows none of which carries the id is kept whole. */
  lemma OtherIdsKept(feeds: seq<FeedsApi.Feed>, lo: nat, hi: nat, id: string)
    requires lo <= hi <= |feeds|
    requires forall i :: lo <= i < hi ==> feeds[i].id != id
    ensures RemoveById(feeds[lo..hi], id) == feeds[lo..hi]
  {
    var part := feeds[lo..hi];
    assert forall i :: 0 <= i < |part| ==> part[i].id != id by {
      forall i | 0 <= i < |part| ensures part[i].id != id {
        assert part[i] == feeds[lo + i];
      }
    }
    Seqs.FilterAll(part, OtherId(id));
  }

  /** Replacing a row by one with the same id and then deleting that id is deleting it straight away. */
  lemma {:induction false} RemoveAfterReplace(feeds: seq<FeedsApi.Feed>, id: string, updated: FeedsApi.Feed)
    requires updated.id == id
    ensures RemoveById(ReplaceById(feeds, id, updated), id) == RemoveById(feeds, id)
    decreases |feeds|
  {
    if |feeds| > 0 {
      var r := ReplaceById(feeds, id, updated);
      assert r == [r[0]] + ReplaceById(feeds[1..], id, updated);
      assert r[1..] == ReplaceById(feeds[1..], id, updated);
      RemoveAfterReplace(feeds[1..], id, updated);
    }
  }

  /** Replacing twice by the same row is replacing once. */
  lemma ReplaceIdempotent(feeds: seq<FeedsApi.Feed>, id: string, updated: FeedsApi.Feed)
    requires updated.id == id
    ensures ReplaceById(ReplaceById(feeds, id, updated), id, updated) == ReplaceById(feeds, id, updated)
  {
  }

  /** `const newEnabled = feed.status === "disabled"`: the toggle asks for the opposite of the current status. */
  function RequestedEnabled(feed: FeedsApi.Feed): (b: bool)
    ensures b <==> feed.status == FeedsApi.Disabled
  {
    feed.status == FeedsApi.Disabled
  }

  /** For a feed read from the backend, the toggle requests the negation of the backend's `enabled` truthiness. */
  lemma ToggleFlipsBackendFlag(b: FeedsApi.BackendFeed)
    ensures RequestedEnabled(FeedsApi.TransformFeed(b)) <==> !Js.IsTruthy(b.enabled)
  {
  }

  /** Before the toggle request: the feed's id joins the toggling set. */
  function StartToggle(t: Table, feed: FeedsApi.Feed): (r: Table)
    ensures r.toggling == t.toggling + {feed.id}
    ensures r.feeds == t.feeds && r.refreshing == t.refreshing && r.error == t.error
  {
    t.(toggling := t.toggling + {feed.id})
  }

  /** After the toggle request: the updated feed replaces the rows with its id, or an error is shown; the id leaves the set. */
  function FinishToggle(t: Table, feed: FeedsApi.Feed, outcome: Result<FeedsApi.Feed, ApiClient.Thrown>): (r: Table)
    ensures r.toggling == t.toggling - {feed.id} && r.refreshing == t.refreshing
    ensures r.total == t.total && r.page == t.page && r.target == t.target
    ensures outcome.Success? ==> r.feeds == ReplaceById(t.feeds, feed.id, outcome.value) && r.error == t.error
    ensures outcome.Failure? ==> r.feeds == t.feeds
    ensures outcome.Failure? ==> r.error == Some(ApiClient.ErrorText(outcome.error, ToggleFallback, Unexpected))
  {
    var t' := t.(toggling := t.toggling - {feed.id});
    match outcome
    case Success(updated) => t'.(feeds := ReplaceById(t.feeds, feed.id, updated))
    case Failure(e) => t'.(error := Some(ApiClient.ErrorText(e, ToggleFallback, Unexpected)))
  }

  /**
   * Whatever the toggle's outcome, afterwards no row is marked busy for that feed, every other
   * id keeps its mark, and the table keeps its length.
   */
  lemma ToggleReleasesRow(t: Table, feed: FeedsApi.Feed, outcome: Result<FeedsApi.Feed, ApiClient.Thrown>)
    ensures var r := FinishToggle(StartToggle(t, feed), feed, outcome);
      && feed.id !in r.toggling
      && (forall id :: id != feed.id ==> (id in r.toggling <==> id in t.toggling))
      && |r.feeds| == |t.feeds|
  {
  }

  /** The delete modal's Delete button on a feed row. */
  function AskDelete(t: Table, feed: FeedsApi.Feed): (r: Table)
    ensures r.target == Some(feed) && r.feeds == t.feeds
  {
    t.(target := Some(feed))
  }

  /** The delete modal's close. */
  function CloseDelete(t: Table): (r: Table)
    ensures r.target == None && r.feeds == t.feeds && r.total == t.total
  {
    t.(target := None)
  }

  /**
   * `handleDelete`: nothing without a target; otherwise the target's rows are dropped and the
   * total decremented on success, or an error is shown, and either way the target is cleared.
   */
  function ConfirmDelete(t: Table, outcome: Result<(), ApiClient.Thrown>): (r: Table)
    ensures t.target.None? ==> r == t
    ensures t.target.Some? ==> r.target == None && r.page == t.page
    ensures t.target.Some? && outcome.Success? ==>
      r.feeds == RemoveById(t.feeds, t.target.value.id) && r.total == t.total - 1 && r.error == t.error
    ensures t.target.Some? && outcome.Failure? ==> r.feeds == t.feeds && r.total == t.total
    ensures t.target.Some? && outcome.Failure? ==>
      r.error == Some(ApiClient.ErrorText(outcome.error, DeleteFallback, Unexpected))
  {
    match t.target
    case None => t
    case Some(feed) =>
      match outcome
      case Success(_) => t.(feeds := RemoveById(t.feeds, feed.id), total := t.total - 1, target := None)
      case Failure(e) => t.(error := Some(ApiClient.ErrorText(e, DeleteFallback, Unexpected)), target := None)
  }

  /** Deleting a row of a table with distinct ids leaves one row and one count fewer, the rest in order. */
  lemma DeleteDropsOneRow(t: Table, k: nat)
    requires DistinctIds(t.feeds) && k < |t.feeds| && t.target == Some(t.feeds[k])
    ensures var r := ConfirmDelete(t, Success(()));
      && r.feeds == t.feeds[..k] + t.feeds[k + 1..]
      && r.total == t.total - 1
      && r.target == None
  {
    RemoveDistinctRow(t.feeds, k);
  }

  /** `result.error || \`Failed to refresh feed: ${created} articles created, ${skipped} skipped\``. */
  function RefreshMessage(res: FeedsApi.RefreshFeedResponse): (m: string)
    ensures Js.IsTruthyStr(res.error) ==> m == res.error.value
    ensures !Js.IsTruthyStr(res.error) ==>
      m == "Failed to refresh feed: " + Decimal.IntToString(res.articlesCreated) + " articles created, "
        + Decimal.IntToString(res.articlesSkipped) + " skipped"
  {
    var counts := Decimal.IntToString(res.articlesCreated) + " articles created, "
      + Decimal.IntToString(res.articlesSkipped) + " skipped";
    if Js.IsTruthyStr(res.error) then res.error.value else "Failed to refresh feed: " + counts
  }

  /** A refresh the backend reports as failed always produces a non-empty message, so the error banner shows. */
  lemma RefreshFailureIsShown(res: FeedsApi.RefreshFeedResponse)
    ensures RefreshMessage(res) != ""
  {
    if !Js.IsTruthyStr(res.error) {
      assert RefreshMessage(res)[0] == 'F';
    }
  }

  /** Before the refresh request: the id joins the refreshing set and the error is cleared. */
  function StartRefresh(t: Table, feed: FeedsApi.Feed): (r: Table)
    ensures r.refreshing == t.refreshing + {feed.id} && r.error == None
    ensures r.feeds == t.feeds && r.toggling == t.toggling
  {
    t.(refreshing := t.refreshing + {feed.id}, error := None)
  }

  /** Where a refresh ends: the table, and the list request it sent after a reported success. */
  datatype RefreshEnd = RefreshEnd(table: Table, relisted: Option<FeedsApi.FeedListQuery>)

  /**
   * After `feedsApi.refresh`. `clicked` is the table as it stood when the button was pressed
   * (the handler's captured page, search and order) and `t` the table when the answers arrive.
   * A reported success sends the list request of `clicked` and installs its answer `relist`
   * whatever page `t` is on; a reported failure shows its message, and a thrown error shows
   * its text; the id leaves the refreshing set in every case.
   */
  function FinishRefresh(clicked: Table, t: Table, feed: FeedsApi.Feed,
                         refresh: Result<FeedsApi.RefreshFeedResponse, ApiClient.Thrown>,
                         relist: Result<FeedsApi.FeedListResponse, ApiClient.Thrown>): (r: RefreshEnd)
    ensures r.relisted.Some? <==> refresh.Success? && refresh.value.success
    ensures r.relisted.Some? ==> r.relisted.value == ListQuery(clicked)
    ensures r.table.refreshing == t.refreshing - {feed.id} && r.table.toggling == t.toggling
    ensures r.table.page == t.page && r.table.search == t.search && r.table.sortOrder == t.sortOrder
    ensures r.table.target == t.target
    ensures refresh.Failure? ==>
      r.table.feeds == t.feeds && r.table.error == Some(ApiClient.ErrorText(refresh.error, RefreshFallback, Unexpected))
    ensures refresh.Success? && !refresh.value.success ==>
      r.table.feeds == t.feeds && r.table.error == Some(RefreshMessage(refresh.value))
    ensures refresh.Success? && refresh.value.success && relist.Success? ==>
      r.table.error == None && r.table.feeds == relist.value.data && r.table.total == relist.value.pagination.total
    ensures refresh.Success? && refresh.value.success && relist.Failure? ==>
      r.table.feeds == t.feeds && r.table.error == Some(ApiClient.ErrorText(relist.error, RefreshFallback, Unexpected))
  {
    var t' := t.(refreshing := t.refreshing - {feed.id});
    match refresh
    case Failure(e) => RefreshEnd(t'.(error := Some(ApiClient.ErrorText(e, RefreshFallback, Unexpected))), None)
    case Success(res) =>
      if !res.success then RefreshEnd(t'.(error := Some(RefreshMessage(res))), None)
      else
        var installed := match relist
          case Success(list) => t'.(error := None, feeds := list.data, total := list.pagination.total)
          case Failure(e) => t'.(error := Some(ApiClient.ErrorText(e, RefreshFallback, Unexpected)));
        RefreshEnd(installed, Some(ListQuery(clicked)))
  }

  /**
   * The re-list after a successful refresh asks the backend for the page, search text and
   * order of the moment the button was pressed, not those current when the answer arrives.
   */
  lemma RelistUsesClickedState(clicked: Table, t: Table, feed: FeedsApi.Feed,
                               refresh: Result<FeedsApi.RefreshFeedResponse, ApiClient.Thrown>,
                               relist: Result<FeedsApi.FeedListResponse, ApiClient.Thrown>)
    requires refresh.Success? && refresh.value.success
    ensures var r := FinishRefresh(clicked, t, feed, refresh, relist);
      && r.relisted.Some?
      && var q := FeedsApi.DecodeListQuery(FeedsApi.ListParams(r.relisted.value));
      && q.limit == Some(PerPage)
      && (clicked.page != 0 ==> q.page == Some(clicked.page))
      && q.search == (if clicked.search == "" then None else Some(clicked.search))
      && q.sortBy == Some(clicked.sortOrder)
  {
    RequestCarriesState(clicked);
  }

  /** Whatever the refresh's outcome, afterwards the row is no longer busy and every other id keeps its mark. */
  lemma RefreshReleasesRow(t: Table, feed: FeedsApi.Feed,
                           refresh: Result<FeedsApi.RefreshFeedResponse, ApiClient.Thrown>,
                           relist: Result<FeedsApi.FeedListResponse, ApiClient.Thrown>)
    ensures var r := FinishRefresh(t, StartRefresh(t, feed), feed, refresh, relist).table;
      && feed.id !in r.refreshing
      && (forall id :: id != feed.id ==> (id in r.refreshing <==> id in t.refreshing))
      && r.toggling == t.toggling
  {
  }
}

=== FILE: feeds_api.dfy ===
/**
 * The feeds API wrapper: the backend-to-frontend feed transform, the list query string
 * and the list response mapping, plus the request and response records of the other
 * feed endpoints the components use.
 */
module FeedsApi {
  import opened Wrappers
  import opened Js
  import opened Query
  import Seqs
  import IndustrySelect

  type Industry = IndustrySelect.Industry

  /**
   * One entry of a backend feed's `industries`: a FeedIndustry entity that may carry the
   * industry nested, or only flat fields.
   */
  datatype BackendFeedIndustry = BackendFeedIndustry(
    industry: Option<Industry>,
    industryId: Option<string>,
    id: string,
    name: Option<string>)

  /** A feed as the backend sends it. `enabled` is read only through its truthiness. */
  datatype BackendFeed = BackendFeed(
    id: string,
    name: string,
    url: string,
    logoUrl: Option<string>,
    industries: Option<seq<BackendFeedIndustry>>,
    autoUpdate: Option<bool>,
    fullText: Option<bool>,
    enabled: Value,
    lastUpdatedAt: Option<string>,
    updatedAt: Option<string>,
    createdAt: Option<string>,
    publisherWebsite: Option<string>,
    contactEmail: Option<string>,
    contactPhone: Option<string>,
    contactPageUrl: Option<string>)

  datatype FeedStatus = Enabled | Disabled

  /** A feed as the dashboard holds it. */
  datatype Feed = Feed(
    id: string,
    name: string,
    url: string,
    logo: Option<string>,
    industries: seq<Industry>,
    autoUpdate: bool,
    fullText: bool,
    status: FeedStatus,
    lastUpdated: Option<string>,
    publisherWebsite: Option<string>,
    contactEmail: Option<string>,
    contactPhone: Option<string>,
    contactPageUrl: Option<string>)

  /** The nested industry when there is one, else `{ id: industryId || id, name: name || '' }`. */
  function TransformIndustry(fi: BackendFeedIndustry): (r: Industry)
    ensures fi.industry.Some? ==> r == fi.industry.value
    ensures fi.industry.None? ==> r.id == (if IsTruthyStr(fi.industryId) then fi.industryId.value else fi.id)
    ensures fi.industry.None? ==> r.name == fi.name.GetOr("")
  {
    match fi.industry
    case Some(nested) => IndustrySelect.Industry(nested.id, nested.name)
    case None =>
      IndustrySelect.Industry(
        if IsTruthyStr(fi.industryId) then fi.industryId.value else fi.id,
        if IsTruthyStr(fi.name) then fi.name.value else "")
  }

  /** `transformFeed`. */
  function TransformFeed(b: BackendFeed): (f: Feed)
    ensures f.id == b.id && f.name == b.name && f.url == b.url && f.logo == b.logoUrl
    ensures b.industries.None? ==> f.industries == []
    ensures b.industries.Some? ==> |f.industries| == |b.industries.value|
    ensures b.industries.Some? ==>
      forall i :: 0 <= i < |f.industries| ==> f.industries[i] == TransformIndustry(b.industries.value[i])
    ensures f.status == Enabled <==> IsTruthy(b.enabled)
    ensures f.autoUpdate == (b.autoUpdate.None? || b.autoUpdate.value)
    ensures f.fullText == (b.fullText.Some? && b.fullText.value)
    ensures f.lastUpdated == OrStr(b.lastUpdatedAt, OrStr(b.updatedAt, b.createdAt))
    ensures f.publisherWebsite == EmptyToAbsent(b.publisherWebsite)
    ensures f.contactEmail == EmptyToAbsent(b.contactEmail)
    ensures f.contactPhone == EmptyToAbsent(b.contactPhone)
    ensures f.contactPageUrl == EmptyToAbsent(b.contactPageUrl)
  {
    Feed(
      b.id,
      b.name,
      b.url,
      b.logoUrl,
      match b.industries
      case None => []
      case Some(list) => Seqs.Map(list, TransformIndustry),
      BoolOr(b.autoUpdate, true),
      BoolOr(b.fullText, false),
      if IsTruthy(b.enabled) then Enabled else Disabled,
      OrStr(OrStr(b.lastUpdatedAt, b.updatedAt), b.createdAt),
      EmptyToAbsent(b.publisherWebsite),
      EmptyToAbsent(b.contactEmail),
      EmptyToAbsent(b.contactPhone),
      EmptyToAbsent(b.contactPageUrl))
  }

  /**
   * `lastUpdated` is one of the three timestamps: the first truthy one, and when none is
   * truthy, `createdAt` as it stands (possibly empty or absent).
   */
  lemma LastUpdatedFallback(b: BackendFeed)
    ensures var t := TransformFeed(b).lastUpdated;
      && (IsTruthyStr(t) <==> IsTruthyStr(b.lastUpdatedAt) || IsTruthyStr(b.updatedAt) || IsTruthyStr(b.createdAt))
      && (IsTruthyStr(b.lastUpdatedAt) ==> t == b.lastUpdatedAt)
      && (!IsTruthyStr(b.lastUpdatedAt) && IsTruthyStr(b.updatedAt) ==> t == b.updatedAt)
      && (!IsTruthyStr(b.lastUpdatedAt) && !IsTruthyStr(b.updatedAt) ==> t == b.createdAt)
  {
  }

  /** Only a missing flag takes the default: an explicit false survives the transform. */
  lemma ExplicitFalsePreserved(b: BackendFeed)
    requires b.autoUpdate == Some(false) && b.fullText == Some(false)
    ensures !TransformFeed(b).autoUpdate && !TransformFeed(b).fullText
  {
  }

  /** `FeedListQuery`. */
  datatype FeedListQuery = FeedListQuery(
    page: Option<int>,
    limit: Option<int>,
    search: Option<string>,
    enabled: Option<string>,
    sortBy: Option<SortOrder>)

  const ListKeys := ["page", "limit", "search", "enabled", "sortBy"]

  function ListCandidates(q: FeedListQuery): seq<Candidate> {
    [ NumParam("page", q.page),
      NumParam("limit", q.limit),
      TextParam("search", q.search),
      TextParam("enabled", q.enabled),
      SortParam("sortBy", q.sortBy) ]
  }

  /** No key is sent twice. */
  lemma ListKeysDistinct()
    ensures Distinct(ListKeys)
  {
  }

  /** The query string of `feedsApi.list`, as its ordered parameters. */
  function ListParams(q: FeedListQuery): (r: seq<Param>)
    ensures IsSubsequence(Keys(r), ListKeys)
    ensures Lookup(r, "page") == (if IsTruthyNum(q.page) then Some(Decimal.IntToString(q.page.value)) else None)
    ensures Lookup(r, "limit") == (if IsTruthyNum(q.limit) then Some(Decimal.IntToString(q.limit.value)) else None)
    ensures Lookup(r, "search") == EmptyToAbsent(q.search)
    ensures Lookup(r, "enabled") == EmptyToAbsent(q.enabled)
    ensures Lookup(r, "sortBy") == (if q.sortBy.Some? then Some(SortText(q.sortBy.value)) else None)
    ensures DecodeSort(Lookup(r, "sortBy")) == q.sortBy
  {
    var c := ListCandidates(q);
    ListKeysDistinct();
    EmitFaithful(c, ListKeys);
    assert Lookup(Emit(c), "page") == c[0].1 by { assert ListKeys[0] == "page"; }
    assert Lookup(Emit(c), "limit") == c[1].1 by { assert ListKeys[1] == "limit"; }
    assert Lookup(Emit(c), "search") == c[2].1 by { assert ListKeys[2] == "search"; }
    assert Lookup(Emit(c), "enabled") == c[3].1 by { assert ListKeys[3] == "enabled"; }
    assert Lookup(Emit(c), "sortBy") == c[4].1 by { assert ListKeys[4] == "sortBy"; }
    SortParamRoundTrip("sortBy", q.sortBy);
    Emit(c)
  }

  /** Reads a feed list query back from its parameters. */
  function DecodeListQuery(ps: seq<Param>): FeedListQuery {
    FeedListQuery(
      DecodeNum(Lookup(ps, "page")),
      DecodeNum(Lookup(ps, "limit")),
      Lookup(ps, "search"),
      Lookup(ps, "enabled"),
      DecodeSort(Lookup(ps, "sortBy")))
  }

  /** The query with every falsy field dropped: what the backend can see of it. */
  function Sent(q: FeedListQuery): FeedListQuery {
    FeedListQuery(NumValue(q.page), NumValue(q.limit), EmptyToAbsent(q.search), EmptyToAbsent(q.enabled), q.sortBy)
  }

  /** Building the parameters and reading them back loses exactly the falsy fields. */
  lemma ListParamsRoundTrip(q: FeedListQuery)
    ensures DecodeListQuery(ListParams(q)) == Sent(q)
  {
    var ps := ListParams(q);
    NumParamRoundTrip("page", q.page);
    NumParamRoundTrip("limit", q.limit);
    assert Lookup(ps, "page") == NumParam("page", q.page).1;
    assert Lookup(ps, "limit") == NumParam("limit", q.limit).1;
  }

  /** The response of the list endpoint before the transform. */
  datatype BackendFeedList = BackendFeedList(data: seq<BackendFeed>, pagination: PaginationMeta)

  datatype FeedListResponse = FeedListResponse(data: seq<Feed>, pagination: PaginationMeta)

  /** `feedsApi.list` on an answered request: every feed transformed in order, pagination as sent. */
  function MapListResponse(raw: BackendFeedList): (r: FeedListResponse)
    ensures |r.data| == |raw.data|
    ensures forall i :: 0 <= i < |r.data| ==> r.data[i] == TransformFeed(raw.data[i])
    ensures r.pagination == raw.pagination
  {
    FeedListResponse(Seqs.Map(raw.data, TransformFeed), raw.pagination)
  }

  /** `RefreshFeedResponse`. */
  datatype RefreshFeedResponse = RefreshFeedResponse(
    success: bool,
    articlesProcessed: int,
    articlesCreated: int,
    articlesSkipped: int,
    error: Option<string>)

  /** One item of a `bulkCreate` request. */
  datatype BulkFeedRequest = BulkFeedRequest(
    name: string,
    url: string,
    logoUrl: Option<string>,
    industries: seq<string>,
    autoUpdate: bool,
    fullText: bool,
    enabled: bool)

  /** A feed the bulk endpoint rejected, echoed back with the reason. */
  datatype FailedFeed = FailedFeed(name: Option<string>, url: string, error: string)

  /** The answer of `bulkCreate`. */
  datatype BulkCreateResult = BulkCreateResult(created: int, failed: int, failedFeeds: seq<FailedFeed>)
}

=== FILE: industry_select.dfy ===
/**
 * The industry multi-select: toggling an industry in or out of the selection, and the
 * case-insensitive name filter over the loaded industries.
 */
module IndustrySelect {
  import opened Strings
  import Seqs

  datatype Industry = Industry(id: string, name: string)

  /** `selected.some((ind) => ind.id === id)`. */
  predicate IsSelected(selected: seq<Industry>, id: string) {
    exists i :: 0 <= i < |selected| && selected[i].id == id
  }

  predicate DistinctIds(selected: seq<Industry>) {
    forall i, j :: 0 <= i < j < |selected| ==> selected[i].id != selected[j].id
  }

  /** `selected.filter((item) => item.id !== id)`. */
  function WithoutId(selected: seq<Industry>, id: string): (r: seq<Industry>)
    ensures |r| <= |selected|
    ensures !IsSelected(r, id)
    ensures forall i :: 0 <= i < |r| ==> r[i] in selected
    ensures forall i :: 0 <= i < |selected| && selected[i].id != id ==> selected[i] in r
  {
    Seqs.Filter(selected, (x: Industry) => x.id != id)
  }

  /**
   * `toggleIndustry`: an industry already selected (by id) is removed together with every
   * other entry of that id; an unselected one is appended at the end.
   */
  function Toggle(selected: seq<Industry>, industry: Industry): (r: seq<Industry>)
    ensures IsSelected(r, industry.id) <==> !IsSelected(selected, industry.id)
    ensures !IsSelected(selected, industry.id) ==> |r| == |selected| + 1 && r[..|selected|] == selected && r[|selected|] == industry
    ensures IsSelected(selected, industry.id) ==>
      && |r| < |selected|
      && (forall i :: 0 <= i < |r| ==> r[i] in selected && r[i].id != industry.id)
      && (forall i :: 0 <= i < |selected| && selected[i].id != industry.id ==> selected[i] in r)
  {
    if IsSelected(selected, industry.id) then
      var r := WithoutId(selected, industry.id);
      RemovalShrinks(selected, industry.id);
      r
    else
      var r := selected + [industry];
      assert r[|selected|] == industry;
      r
  }

  lemma {:induction false} RemovalShrinks(selected: seq<Industry>, id: string)
    requires IsSelected(selected, id)
    ensures |WithoutId(selected, id)| < |selected|
    decreases |selected|
  {
    var p := (x: Industry) => x.id != id;
    if selected[0].id != id {
      assert IsSelected(selected[1..], id) by {
        var i :| 0 <= i < |selected| && selected[i].id == id;
        assert selected[1..][i - 1] == selected[i];
      }
      RemovalShrinks(selected[1..], id);
      assert Seqs.Filter(selected[1..], p) == WithoutId(selected[1..], id);
    } else {
      assert Seqs.Filter(selected[1..], p) == WithoutId(selected[1..], id);
    }
  }

  /** The removal works stretch by stretch, so the entries it keeps stay in their order. */
  lemma WithoutIdConcat(a: seq<Industry>, b: seq<Industry>, id: string)
    ensures WithoutId(a + b, id) == WithoutId(a, id) + WithoutId(b, id)
  {
    Seqs.FilterConcat(a, b, (x: Industry) => x.id != id);
  }

  /**
   * With distinct ids, toggling a selected industry removes exactly its entry and keeps
   * every other entry in its place in the order.
   */
  lemma {:induction false} ToggleRemovesInOrder(selected: seq<Industry>, industry: Industry, k: int)
    requires DistinctIds(selected)
    requires 0 <= k < |selected| && selected[k].id == industry.id
    ensures Toggle(selected, industry) == selected[..k] + selected[k + 1..]
  {
    var p := (x: Industry) => x.id != industry.id;
    var a, b := selected[..k], selected[k + 1..];
    assert selected == a + [selected[k]] + b;
    assert IsSelected(selected, industry.id);
    assert forall i :: 0 <= i < |a| ==> p(a[i]) by {
      forall i | 0 <= i < |a| ensures p(a[i]) {
        assert a[i] == selected[i];
      }
    }
    assert forall i :: 0 <= i < |b| ==> p(b[i]) by {
      forall i | 0 <= i < |b| ensures p(b[i]) {
        assert b[i] == selected[k + 1 + i];
      }
    }
    Seqs.FilterAll(a, p);
    Seqs.FilterAll(b, p);
    Seqs.FilterDropsOne(a, selected[k], b, p);
  }

  /** Selecting an unselected industry and toggling it again restores the selection. */
  lemma ToggleTwiceRestores(selected: seq<Industry>, industry: Industry)
    requires !IsSelected(selected, industry.id)
    ensures Toggle(Toggle(selected, industry), industry) == selected
  {
    var p := (x: Industry) => x.id != industry.id;
    var once := Toggle(selected, industry);
    assert once == selected + [industry];
    assert IsSelected(once, industry.id) by {
      assert once[|selected|].id == industry.id;
    }
    Seqs.FilterConcat(selected, [industry], p);
    Seqs.FilterAll(selected, p);
    assert Seqs.Filter([industry], p) == [];
  }

  /** Toggling never introduces a duplicate id. */
  lemma ToggleKeepsDistinct(selected: seq<Industry>, industry: Industry)
    requires DistinctIds(selected)
    ensures DistinctIds(Toggle(selected, industry))
  {
    if IsSelected(selected, industry.id) {
      FilterKeepsDistinct(selected, (x: Industry) => x.id != industry.id);
    } else {
      var r := selected + [industry];
      forall i, j | 0 <= i < j < |r| ensures r[i].id != r[j].id {
        if j == |selected| {
          assert r[i] == selected[i];
        }
      }
    }
  }

  lemma {:induction false} FilterKeepsDistinct(s: seq<Industry>, p: Industry -> bool)
    requires DistinctIds(s)
    ensures DistinctIds(Seqs.Filter(s, p))
    decreases |s|
  {
    if |s| > 0 {
      FilterKeepsDistinct(s[1..], p);
      var rest := Seqs.Filter(s[1..], p);
      if p(s[0]) {
        var r := [s[0]] + rest;
        forall i, j | 0 <= i < j < |r| ensures r[i].id != r[j].id {
          if i == 0 {
            assert r[j] in s[1..];
            var k :| 0 <= k < |s[1..]| && s[1..][k] == r[j];
            assert s[k + 1] == r[j];
          } else {
            assert r[i] == rest[i - 1] && r[j] == rest[j - 1];
          }
        }
      }
    }
  }

  /** `s.toLowerCase()`, with the case mapping taken as a given per-character function. */
  function Lower(s: string, lower: char -> char): string {
    Seqs.Map(s, lower)
  }

  /** `industry.name.toLowerCase().includes(query.toLowerCase())`. */
  predicate NameMatches(industry: Industry, query: string, lower: char -> char) {
    Contains(Lower(industry.name, lower), Lower(query, lower))
  }

  /** The `filtered` memo: the loaded industries whose name matches the query, in list order. */
  function Filtered(industries: seq<Industry>, query: string, lower: char -> char): (r: seq<Industry>)
    ensures |r| <= |industries|
    ensures forall i :: 0 <= i < |r| ==> r[i] in industries && NameMatches(r[i], query, lower)
    ensures forall i :: 0 <= i < |industries| && NameMatches(industries[i], query, lower) ==> industries[i] in r
  {
    Seqs.Filter(industries, (x: Industry) => NameMatches(x, query, lower))
  }

  /** An empty query keeps every industry, in order. */
  lemma EmptyQueryKeepsAll(industries: seq<Industry>, lower: char -> char)
    ensures Filtered(industries, "", lower) == industries
  {
    forall i | 0 <= i < |industries| ensures NameMatches(industries[i], "", lower) {
      assert StartsWith(Lower(industries[i].name, lower), "");
    }
    Seqs.FilterAll(industries, (x: Industry) => NameMatches(x, "", lower));
  }

  /** The filter keeps list order: filtering a concatenation filters each part in place. */
  lemma FilteredConcat(a: seq<Industry>, b: seq<Industry>, query: string, lower: char -> char)
    ensures Filtered(a + b, query, lower) == Filtered(a, query, lower) + Filtered(b, query, lower)
  {
    Seqs.FilterConcat(a, b, (x: Industry) => NameMatches(x, query, lower));
  }
}

=== FILE: js.dfy ===
/**
 * JavaScript values and the operators whose behaviour hinges on truthiness.
 * Numbers are modelled as unbounded integers; NaN and fractions are not modelled.
 */
module Js {
  import opened Wrappers
  import Decimal
  import Strings

  /** A JavaScript value as it can arrive from a parsed JSON body or an untyped field. */
  datatype Value =
    | Undefined
    | Null
    | Bool(b: bool)
    | Num(n: int)
    | Str(s: string)
    | Arr(items: seq<Value>)
    | Obj(fields: map<string, Value>)

  /** `Boolean(v)`: false exactly for undefined, null, false, 0 and "". */
  predicate IsTruthy(v: Value) {
    match v
    case Undefined => false
    case Null => false
    case Bool(b) => b
    case Num(n) => n != 0
    case Str(s) => s != ""
    case Arr(_) => true
    case Obj(_) => true
  }

  /** `v === null || v === undefined`, the test behind `??`. */
  predicate IsNullish(v: Value) {
    v.Undefined? || v.Null?
  }

  /** `a || b`: the left operand when truthy, otherwise the right one (whatever it is). */
  function Or(a: Value, b: Value): Value {
    if IsTruthy(a) then a else b
  }

  /** `a ?? b`: the left operand unless it is null or undefined. */
  function Coalesce(a: Value, b: Value): Value {
    if IsNullish(a) then b else a
  }

  /** Truthiness of a nullable string (`string | null | undefined`): present and non-empty. */
  predicate IsTruthyStr(s: Option<string>) {
    s.Some? && s.value != ""
  }

  /** `a || b` over nullable strings. */
  function OrStr(a: Option<string>, b: Option<string>): Option<string> {
    if IsTruthyStr(a) then a else b
  }

  /** `s || undefined`: an empty string becomes absent. */
  function EmptyToAbsent(s: Option<string>): (r: Option<string>)
    ensures r.None? <==> !IsTruthyStr(s)
    ensures r.Some? ==> r == s
  {
    if IsTruthyStr(s) then s else None
  }

  /** The nullish-coalescing fallback `b ?? d` for an optional boolean field. */
  function BoolOr(b: Option<bool>, d: bool): bool {
    b.GetOr(d)
  }

  /** Property access `v[key]` on a parsed JSON value: reading from null or undefined throws (None). */
  function Member(v: Value, key: string): (r: Option<Value>)
    ensures r.None? <==> IsNullish(v)
    ensures v.Obj? && key in v.fields ==> r == Some(v.fields[key])
  {
    match v
    case Undefined => None
    case Null => None
    case Obj(m) => Some(if key in m then m[key] else Undefined)
    case _ => Some(Undefined)
  }

  /** `a || b` is truthy exactly when one of its operands is. */
  lemma OrTruthy(a: Value, b: Value)
    ensures IsTruthy(Or(a, b)) <==> IsTruthy(a) || IsTruthy(b)
  {
  }

  /**
   * `String(v)` as the `Error` constructor applies it to its message: arrays join their
   * elements with commas (null and undefined elements as ""), plain objects print as
   * "[object Object]".
   */
  function ToText(v: Value): (r: string)
    ensures v.Str? ==> r == v.s
    decreases v
  {
    match v
    case Undefined => "undefined"
    case Null => "null"
    case Bool(b) => if b then "true" else "false"
    case Num(n) => Decimal.IntToString(n)
    case Str(s) => s
    case Arr(items) =>
      Strings.Join(seq(|items|, i requires 0 <= i < |items| => if IsNullish(items[i]) then "" else ToText(items[i])), ",")
    case Obj(_) => "[object Object]"
  }

  /** `||` is associative, so `a || b || c` is the first truthy operand, else the last one. */
  lemma OrAssociative(a: Value, b: Value, c: Value)
    ensures Or(Or(a, b), c) == Or(a, Or(b, c))
  {
  }
}

=== FILE: paging.dfy ===
/**
 * Page arithmetic shared by the tables: the Previous/Next targets and disabled rules of
 * the Pagination control, and the page count `Math.max(1, Math.ceil(total / perPage))`.
 */
module Paging {

  /** `Math.max(1, page - 1)`: the larger of 1 and the page before, from any page. */
  function PrevTarget(page: int): (r: int)
    ensures r >= 1 && r >= page - 1
    ensures r == 1 || r == page - 1
  {
    if page - 1 > 1 then page - 1 else 1
  }

  /** `Math.min(pageCount, page + 1)`: the smaller of the count and the page after, from any page. */
  function NextTarget(page: int, pageCount: int): (r: int)
    ensures r <= pageCount && r <= page + 1
    ensures r == pageCount || r == page + 1
  {
    if page + 1 < pageCount then page + 1 else pageCount
  }

  /** `disabled={page === 1}`: disabled exactly when pressing Previous would leave the page where it is. */
  function PrevDisabled(page: int): (r: bool)
    ensures r <==> PrevTarget(page) == page
  {
    page == 1
  }

  /** `disabled={page === pageCount}`: disabled exactly when pressing Next would leave the page where it is. */
  function NextDisabled(page: int, pageCount: int): (r: bool)
    ensures r <==> NextTarget(page, pageCount) == page
  {
    page == pageCount
  }

  /** Past the last page, Next goes back to the last page rather than forward. */
  lemma NextPastEnd(page: int, pageCount: int)
    requires page >= pageCount
    ensures NextTarget(page, pageCount) == pageCount
  {
  }

  /** Below the first page, Previous goes to page 1. */
  lemma PrevBelowStart(page: int)
    requires page <= 1
    ensures PrevTarget(page) == 1
  {
  }

  /**
   * On a page in range, both targets stay in range, each moves by exactly one page unless
   * it is at the end, and a button is disabled exactly when pressing it would not move.
   */
  lemma TargetsInRange(page: int, pageCount: int)
    requires 1 <= page <= pageCount
    ensures 1 <= PrevTarget(page) <= pageCount && 1 <= NextTarget(page, pageCount) <= pageCount
    ensures PrevDisabled(page) <==> PrevTarget(page) == page
    ensures NextDisabled(page, pageCount) <==> NextTarget(page, pageCount) == page
    ensures !PrevDisabled(page) ==> PrevTarget(page) == page - 1
    ensures !NextDisabled(page, pageCount) ==> NextTarget(page, pageCount) == page + 1
  {
  }

  /** Next then Previous comes back, away from the last page. */
  lemma NextThenPrev(page: int, pageCount: int)
    requires 1 <= page < pageCount
    ensures PrevTarget(NextTarget(page, pageCount)) == page
  {
  }

  /** `Math.ceil(a / b)` for a positive divisor (Dafny's `/` floors for a positive divisor). */
  function CeilDiv(a: int, b: int): (q: int)
    requires b > 0
    ensures (q - 1) * b < a <= q * b
  {
    -((-a) / b)
  }

  /** `Math.max(1, Math.ceil(total / perPage))`. */
  function PageCount(total: int, perPage: int): (n: int)
    requires perPage > 0
    ensures n >= 1
    ensures total <= n * perPage
    ensures total > 0 ==> (n - 1) * perPage < total
    ensures total <= 0 ==> n == 1
  {
    var q := CeilDiv(total, perPage);
    if q > 1 then q else 1
  }

  /** The page count is the fewest pages, at least one, that hold every item. */
  lemma PageCountIsLeast(total: int, perPage: int, m: int)
    requires perPage > 0
    requires m >= 1 && total <= m * perPage
    ensures PageCount(total, perPage) <= m
  {
    var n := PageCount(total, perPage);
    if n > m {
      assert (n - 1) * perPage >= m * perPage by {
        assert n - 1 >= m;
        MulMono(m, n - 1, perPage);
      }
    }
  }

  lemma MulMono(a: int, b: int, c: int)
    requires a <= b && c >= 0
    ensures a * c <= b * c
  {
  }
}

=== FILE: query.dfy ===
/**
 * Query strings as ordered key/value lists, before percent-encoding. A list builder
 * appends a parameter only when its guard holds, in a fixed key order.
 */
module Query {
  import opened Wrappers
  import Js
  import Decimal

  datatype Param = Param(key: string, value: string)

  /** A candidate parameter: its key and the value to append, None when it is skipped. */
  type Candidate = (string, Option<string>)

  /** The `params.append(key, value)` calls that actually happen, in order. */
  function Emit(cands: seq<Candidate>): (r: seq<Param>)
    ensures |r| <= |cands|
    decreases |cands|
  {
    if |cands| == 0 then []
    else
      var rest := Emit(cands[1..]);
      match cands[0].1
      case Some(v) => [Param(cands[0].0, v)] + rest
      case None => rest
  }

  /** `params.get(key)`: the value of the first parameter with that key. */
  function Lookup(ps: seq<Param>, key: string): Option<string>
    decreases |ps|
  {
    if |ps| == 0 then None
    else if ps[0].key == key then Some(ps[0].value)
    else Lookup(ps[1..], key)
  }

  function Keys(ps: seq<Param>): (r: seq<string>)
    ensures |r| == |ps|
    ensures forall i :: 0 <= i < |ps| ==> r[i] == ps[i].key
  {
    seq(|ps|, i requires 0 <= i < |ps| => ps[i].key)
  }

  function CandidateKeys(cands: seq<Candidate>): (r: seq<string>)
    ensures |r| == |cands|
    ensures forall i :: 0 <= i < |cands| ==> r[i] == cands[i].0
  {
    seq(|cands|, i requires 0 <= i < |cands| => cands[i].0)
  }

  /** `xs` is `ys` with some elements left out, the rest in the same order. */
  predicate IsSubsequence(xs: seq<string>, ys: seq<string>)
    decreases |ys|
  {
    if |xs| == 0 then true
    else if |ys| == 0 then false
    else if xs[0] == ys[0] then IsSubsequence(xs[1..], ys[1..])
    else IsSubsequence(xs, ys[1..])
  }

  predicate DistinctKeys(cands: seq<Candidate>) {
    forall i, j :: 0 <= i < j < |cands| ==> cands[i].0 != cands[j].0
  }

  /** The emitted keys keep the candidates' order: only skipped candidates are missing. */
  lemma {:induction false} EmitKeepsOrder(cands: seq<Candidate>)
    ensures IsSubsequence(Keys(Emit(cands)), CandidateKeys(cands))
    decreases |cands|
  {
    if |cands| > 0 {
      EmitKeepsOrder(cands[1..]);
      var rest := Emit(cands[1..]);
      assert CandidateKeys(cands)[1..] == CandidateKeys(cands[1..]);
      if cands[0].1.Some? {
        assert Keys(Emit(cands))[1..] == Keys(rest);
      } else {
        SubsequenceOfTail(Keys(rest), CandidateKeys(cands));
      }
    }
  }

  lemma {:induction false} SubsequenceOfTail(xs: seq<string>, ys: seq<string>)
    requires |ys| > 0 && IsSubsequence(xs, ys[1..])
    ensures IsSubsequence(xs, ys)
    decreases |ys|, |xs|
  {
    if |xs| > 0 && xs[0] == ys[0] {
      SubsequenceDropHead(xs, ys[1..]);
    }
  }

  lemma {:induction false} SubsequenceDropHead(xs: seq<string>, ys: seq<string>)
    requires |xs| > 0 && IsSubsequence(xs, ys)
    ensures IsSubsequence(xs[1..], ys)
    decreases |ys|, |xs|
  {
    if xs[0] == ys[0] {
      if |xs[1..]| > 0 {
        SubsequenceOfTail(xs[1..], ys);
      }
    } else {
      SubsequenceDropHead(xs, ys[1..]);
      if |xs[1..]| > 0 {
        SubsequenceOfTail(xs[1..], ys);
      }
    }
  }

  /** With distinct keys, every candidate reads back exactly as it was offered. */
  lemma {:induction false} EmitLookup(cands: seq<Candidate>)
    requires DistinctKeys(cands)
    ensures forall i :: 0 <= i < |cands| ==> Lookup(Emit(cands), cands[i].0) == cands[i].1
    decreases |cands|
  {
    if |cands| > 0 {
      EmitLookup(cands[1..]);
      forall i | 0 <= i < |cands| ensures Lookup(Emit(cands), cands[i].0) == cands[i].1 {
        if i == 0 {
          EmitLookupAbsent(cands[1..], cands[0].0);
        } else {
          assert cands[1..][i - 1] == cands[i];
        }
      }
    }
  }

  predicate Distinct(keys: seq<string>) {
    forall i, j :: 0 <= i < j < |keys| ==> keys[i] != keys[j]
  }

  /**
   * A builder over a fixed list of distinct keys: the emitted keys keep that order, and
   * reading any key back gives exactly the candidate offered for it.
   */
  lemma EmitFaithful(cands: seq<Candidate>, keys: seq<string>)
    requires CandidateKeys(cands) == keys && Distinct(keys)
    ensures IsSubsequence(Keys(Emit(cands)), keys)
    ensures forall i :: 0 <= i < |keys| ==> Lookup(Emit(cands), keys[i]) == cands[i].1
  {
    EmitKeepsOrder(cands);
    assert DistinctKeys(cands) by {
      forall i, j | 0 <= i < j < |cands| ensures cands[i].0 != cands[j].0 {
        assert keys[i] != keys[j];
      }
    }
    EmitLookup(cands);
  }

  /** A key no candidate carries is never emitted. */
  lemma {:induction false} EmitLookupAbsent(cands: seq<Candidate>, key: string)
    requires forall i :: 0 <= i < |cands| ==> cands[i].0 != key
    ensures Lookup(Emit(cands), key) == None
    decreases |cands|
  {
    if |cands| > 0 {
      EmitLookupAbsent(cands[1..], key);
    }
  }

  /** `if (n) params.append(key, n.toString())`: a number is sent unless absent or 0. */
  function NumParam(key: string, n: Option<int>): Candidate {
    (key, if n.Some? && n.value != 0 then Some(Decimal.IntToString(n.value)) else None)
  }

  /** `if (s) params.append(key, s)`: a string is sent unless absent or empty. */
  function TextParam(key: string, s: Option<string>): Candidate {
    (key, Js.EmptyToAbsent(s))
  }

  /** `if (b !== undefined) params.append(key, b.toString())`: a flag is sent whenever defined, false included. */
  function FlagParam(key: string, b: Option<bool>): Candidate {
    (key, if b.Some? then Some(FlagText(b.value)) else None)
  }

  function FlagText(b: bool): string {
    if b then "true" else "false"
  }

  /** `if (n)` on an optional number. */
  predicate IsTruthyNum(n: Option<int>) {
    n.Some? && n.value != 0
  }

  /** The query value that a truthy number is read back from. */
  function NumValue(n: Option<int>): Option<int> {
    if IsTruthyNum(n) then n else None
  }

  /** Reads a numeric parameter back. */
  function DecodeNum(v: Option<string>): Option<int> {
    match v
    case None => None
    case Some(s) => Decimal.ParseInt(s)
  }

  /** Reads a "true"/"false" parameter back. */
  function DecodeFlag(v: Option<string>): Option<bool> {
    match v
    case Some("true") => Some(true)
    case Some("false") => Some(false)
    case _ => None
  }

  /** A numeric parameter reads back as the number it was built from, when it was sent. */
  lemma NumParamRoundTrip(key: string, n: Option<int>)
    ensures DecodeNum(NumParam(key, n).1) == NumValue(n)
  {
    if IsTruthyNum(n) {
      Decimal.IntRoundTrip(n.value);
    }
  }

  /** A flag parameter reads back as the flag it was built from. */
  lemma FlagParamRoundTrip(key: string, b: Option<bool>)
    ensures DecodeFlag(FlagParam(key, b).1) == b
  {
  }

  /** The two list orders the backend accepts for `sortBy`. */
  datatype SortOrder = Newest | Oldest

  function SortText(o: SortOrder): string {
    match o
    case Newest => "newest"
    case Oldest => "oldest"
  }

  /** `if (sortBy) params.append(key, sortBy)`: both orders are non-empty words, so a defined order is always sent. */
  function SortParam(key: string, o: Option<SortOrder>): Candidate {
    (key, if o.Some? then Some(SortText(o.value)) else None)
  }

  /** Reads a "newest"/"oldest" parameter back. */
  function DecodeSort(v: Option<string>): (r: Option<SortOrder>)
    ensures r.Some? ==> v == Some(SortText(r.value))
  {
    match v
    case Some("newest") => Some(Newest)
    case Some("oldest") => Some(Oldest)
    case _ => None
  }

  /** A sort parameter reads back as the order it was built from. */
  lemma SortParamRoundTrip(key: string, o: Option<SortOrder>)
    ensures DecodeSort(SortParam(key, o).1) == o
  {
  }

  /** The pagination block of a list response, passed through untouched by the list wrappers. */
  datatype PaginationMeta = PaginationMeta(total: int, page: int, limit: int, totalPages: int, hasNext: bool, hasPrev: bool)
}

=== FILE: reset_password.dfy ===
/**
 * The reset-password page: the password policy, the live and submit-time validation,
 * the submit gate, the result modal, and the double-slash clean-up of the page URL.
 * The request itself is out of scope; its answer is a parameter.
 */
module ResetPassword {
  import opened Wrappers
  import opened Js
  import Seqs

  const MinLength := 8

  const TooShortMessage := "Password must be at least 8 characters long"
  const NoLowerMessage := "Password must contain at least one lowercase letter"
  const NoUpperMessage := "Password must contain at least one uppercase letter"
  const NoDigitMessage := "Password must contain at least one number"
  const MismatchMessage := "Passwords do not match"

  /** `/[a-z]/.test(pwd)`. */
  predicate HasLower(pwd: string) {
    exists i :: 0 <= i < |pwd| && 'a' <= pwd[i] <= 'z'
  }

  /** `/[A-Z]/.test(pwd)`. */
  predicate HasUpper(pwd: string) {
    exists i :: 0 <= i < |pwd| && 'A' <= pwd[i] <= 'Z'
  }

  /** `/\d/.test(pwd)`: an ASCII digit. */
  predicate HasDigit(pwd: string) {
    exists i :: 0 <= i < |pwd| && '0' <= pwd[i] <= '9'
  }

  /** The policy: at least eight characters with a lowercase letter, an uppercase letter and a digit. */
  predicate IsStrong(pwd: string) {
    |pwd| >= MinLength && HasLower(pwd) && HasUpper(pwd) && HasDigit(pwd)
  }

  /** `validatePassword`: one message per failed rule. */
  function ValidatePassword(pwd: string): (r: seq<string>)
    ensures r == [] <==> IsStrong(pwd)
    ensures |r| <= 4
  {
    var e1: seq<string> := if |pwd| < MinLength then [TooShortMessage] else [];
    var e2 := e1 + if !HasLower(pwd) then [NoLowerMessage] else [];
    var e3 := e2 + if !HasUpper(pwd) then [NoUpperMessage] else [];
    e3 + if !HasDigit(pwd) then [NoDigitMessage] else []
  }

  /** The four rules in the order they are checked, each with its message. */
  datatype Rule = Length | Lowercase | Uppercase | Digit

  const Rules := [Length, Lowercase, Uppercase, Digit]

  predicate Holds(rule: Rule, pwd: string) {
    match rule
    case Length => |pwd| >= MinLength
    case Lowercase => HasLower(pwd)
    case Uppercase => HasUpper(pwd)
    case Digit => HasDigit(pwd)
  }

  function Message(rule: Rule): string {
    match rule
    case Length => TooShortMessage
    case Lowercase => NoLowerMessage
    case Uppercase => NoUpperMessage
    case Digit => NoDigitMessage
  }

  /** The rules of `rules` that `pwd` fails, in the order given. */
  function FailedRules(pwd: string, rules: seq<Rule>): (r: seq<Rule>)
    ensures |r| <= |rules|
    ensures forall i :: 0 <= i < |r| ==> !Holds(r[i], pwd)
    decreases |rules|
  {
    if rules == [] then []
    else (if Holds(rules[0], pwd) then [] else [rules[0]]) + FailedRules(pwd, rules[1..])
  }

  /**
   * The messages are exactly those of the failed rules, in rule order: validation is the
   * list of failed rules mapped to their messages.
   */
  lemma {:induction false} ValidateInRuleOrder(pwd: string)
    ensures ValidatePassword(pwd) == Seqs.Map(FailedRules(pwd, Rules), Message)
  {
    var b1, b2, b3, b4 := |pwd| < MinLength, !HasLower(pwd), !HasUpper(pwd), !HasDigit(pwd);
    FailedRulesInOrder(pwd);
    var k1, k2, k3, k4 := Opt(b1, Length), Opt(b2, Lowercase), Opt(b3, Uppercase), Opt(b4, Digit);
    Seqs.MapConcat(k1, k2 + (k3 + k4), Message);
    Seqs.MapConcat(k2, k3 + k4, Message);
    Seqs.MapConcat(k3, k4, Message);
    MapOpt(b1, Length, Message);
    MapOpt(b2, Lowercase, Message);
    MapOpt(b3, Uppercase, Message);
    MapOpt(b4, Digit, Message);
    Regroup(Opt(b1, TooShortMessage), Opt(b2, NoLowerMessage), Opt(b3, NoUpperMessage), Opt(b4, NoDigitMessage));
  }

  /** `[x]` when `keep`, else nothing. */
  function Opt<T>(keep: bool, x: T): seq<T> {
    if keep then [x] else []
  }

  lemma MapOpt<T, U>(keep: bool, x: T, f: T -> U)
    ensures Seqs.Map(Opt(keep, x), f) == Opt(keep, f(x))
  {
  }

  lemma Regroup<T>(a: seq<T>, b: seq<T>, c: seq<T>, d: seq<T>)
    ensures a + (b + (c + d)) == a + b + c + d
  {
  }

  /** The failed rules, unrolled over the four rules. */
  lemma {:induction false} FailedRulesInOrder(pwd: string)
    ensures FailedRules(pwd, Rules) ==
      Opt(|pwd| < MinLength, Length) + (Opt(!HasLower(pwd), Lowercase) + (Opt(!HasUpper(pwd), Uppercase) + Opt(!HasDigit(pwd), Digit)))
  {
    var r4 := FailedRules(pwd, [Digit]);
    assert [Digit][1..] == [];
    assert r4 == Opt(!HasDigit(pwd), Digit);
    var r3 := FailedRules(pwd, [Uppercase, Digit]);
    assert [Uppercase, Digit][1..] == [Digit];
    assert r3 == Opt(!HasUpper(pwd), Uppercase) + r4;
    var r2 := FailedRules(pwd, [Lowercase, Uppercase, Digit]);
    assert [Lowercase, Uppercase, Digit][1..] == [Uppercase, Digit];
    assert r2 == Opt(!HasLower(pwd), Lowercase) + r3;
    assert Rules[1..] == [Lowercase, Uppercase, Digit];
    assert FailedRules(pwd, Rules) == Opt(|pwd| < MinLength, Length) + r2;
  }

  /** What the page shows. */
  datatype Status = Form | Loading | Succeeded | Failed

  datatype Page = Page(
    token: Option<string>,
    password: string,
    confirm: string,
    status: Status,
    message: string,
    showModal: bool,
    errors: seq<string>)

  /** The errors shown while typing: none until both fields are filled, then strength and mismatch. */
  function LiveErrors(password: string, confirm: string): (r: seq<string>)
    ensures password == "" || confirm == "" ==> r == []
    ensures password != "" && confirm != "" ==>
      && |r| >= |ValidatePassword(password)|
      && r[..|ValidatePassword(password)|] == ValidatePassword(password)
      && (|r| > |ValidatePassword(password)| <==> password != confirm)
      && (password != confirm ==> r[|r| - 1] == MismatchMessage)
  {
    if password != "" && confirm != "" then
      ValidatePassword(password) + (if password != confirm then [MismatchMessage] else [])
    else []
  }

  /** `handlePasswordChange`: the new password is validated against the current confirmation. */
  function OnPasswordChange(p: Page, value: string): (r: Page)
    ensures r.password == value && r.confirm == p.confirm
    ensures r.errors == LiveErrors(r.password, r.confirm)
    ensures r.(password := p.password, errors := p.errors) == p
  {
    p.(password := value, errors := LiveErrors(value, p.confirm))
  }

  /** `handleConfirmPasswordChange`: the current password is validated against the new confirmation. */
  function OnConfirmChange(p: Page, value: string): (r: Page)
    ensures r.confirm == value && r.password == p.password
    ensures r.errors == LiveErrors(r.password, r.confirm)
    ensures r.(confirm := p.confirm, errors := p.errors) == p
  {
    p.(confirm := value, errors := LiveErrors(p.password, value))
  }

  /**
   * The Reset Password button's `disabled` rule. While the shown errors are the live ones,
   * the button is enabled exactly when both fields are filled, match, and pass every rule.
   */
  function SubmitDisabled(p: Page): (r: bool)
    ensures p.errors == LiveErrors(p.password, p.confirm) ==>
      (!r <==> p.password != "" && p.password == p.confirm && IsStrong(p.password))
  {
    p.password == "" || p.confirm == "" || |p.errors| > 0
  }

  const SubmitMissingToken := "Reset token is missing. Please request a new password reset."

  /**
   * `handleSubmit` up to the request: a mismatch alone, then the strength errors, then a
   * missing token; only when all pass does the page go to loading and send the request.
   */
  function Submit(p: Page): (r: (Page, bool))
    ensures p.password != p.confirm ==> r == (p.(errors := [MismatchMessage]), false)
    ensures p.password == p.confirm && !IsStrong(p.password) ==> r == (p.(errors := ValidatePassword(p.password)), false)
    ensures r.1 <==> p.password == p.confirm && IsStrong(p.password) && IsTruthyStr(p.token)
    ensures r.1 ==> r.0 == p.(status := Loading, errors := [])
    ensures p.password == p.confirm && IsStrong(p.password) && !IsTruthyStr(p.token) ==>
      r.0 == p.(status := Failed, message := SubmitMissingToken, showModal := true)
  {
    if p.password != p.confirm then (p.(errors := [MismatchMessage]), false)
    else
      var errors := ValidatePassword(p.password);
      if |errors| > 0 then (p.(errors := errors), false)
      else if !IsTruthyStr(p.token) then (p.(status := Failed, message := SubmitMissingToken, showModal := true), false)
      else (p.(status := Loading, errors := []), true)
  }

  /**
   * While the errors come from live validation, an enabled button means the submit checks
   * on the passwords pass: the request then goes out exactly when a token is present.
   */
  lemma EnabledButtonPassesChecks(p: Page)
    requires p.errors == LiveErrors(p.password, p.confirm)
    requires !SubmitDisabled(p)
    ensures p.password == p.confirm && IsStrong(p.password)
    ensures Submit(p).1 <==> IsTruthyStr(p.token)
  {
    assert ValidatePassword(p.password) == [] by {
      assert |LiveErrors(p.password, p.confirm)| >= |ValidatePassword(p.password)|;
    }
  }

  /** The reset endpoint's answer, or a failure to reach it or to read its body. */
  datatype Reply =
    | Answered(ok: bool, message: Option<string>, errorMessage: Option<string>)
    | Unreachable

  const SuccessFallback := "Password has been reset successfully. You can now login with your new password."
  const FailureFallback := "Password reset failed. Please try again."
  const UnreachableMessage := "An error occurred during password reset. Please try again later."

  /** The page after the request: success or failure with its message, modal shown. */
  function Finish(p: Page, reply: Reply): (r: Page)
    ensures r.showModal
    ensures r.status == Succeeded <==> reply.Answered? && reply.ok
    ensures r.status != Succeeded ==> r.status == Failed
    ensures reply.Answered? && reply.ok ==> r.message == (if IsTruthyStr(reply.message) then reply.message.value else SuccessFallback)
    ensures reply.Answered? && !reply.ok ==> r.message == OrStr(reply.message, OrStr(reply.errorMessage, Some(FailureFallback))).value
    ensures reply.Unreachable? ==> r.message == UnreachableMessage
  {
    match reply
    case Answered(ok, message, errorMessage) =>
      if ok then p.(status := Succeeded, message := OrStr(message, Some(SuccessFallback)).value, showModal := true)
      else p.(status := Failed, message := OrStr(message, OrStr(errorMessage, Some(FailureFallback))).value, showModal := true)
    case Unreachable => p.(status := Failed, message := UnreachableMessage, showModal := true)
  }

  const LoginPath := "/login"

  /** `handleCloseModal`: hides the modal, and goes to the login page only after a success. */
  function CloseModal(p: Page): (r: (Page, Option<string>))
    ensures !r.0.showModal && r.0.(showModal := p.showModal) == p
    ensures r.1.Some? <==> p.status == Succeeded
    ensures r.1.Some? ==> r.1.value == LoginPath
  {
    (p.(showModal := false), if p.status == Succeeded then Some(LoginPath) else None)
  }

  /**
   * Whatever the reply, the modal shows a non-empty message, and closing it leads to the
   * login page exactly when the endpoint answered with success.
   */
  lemma FinishThenClose(p: Page, reply: Reply)
    ensures Finish(p, reply).message != ""
    ensures Finish(p, reply).showModal
    ensures CloseModal(Finish(p, reply)).1 == Some(LoginPath) <==> reply.Answered? && reply.ok
    ensures CloseModal(Finish(p, reply)).1.None? <==> !(reply.Answered? && reply.ok)
  {
  }

  const MountMissingToken := "Reset token is missing. Please check your email and try again."

  /** The empty form. */
  const Blank := Page(None, "", "", Form, "", false, [])

  /** The mount effect's token check: an absent or empty `token` query parameter fails the page at once. */
  function Mount(tokenParam: Option<string>): (r: Page)
    ensures IsTruthyStr(tokenParam) ==> r == Blank.(token := tokenParam)
    ensures !IsTruthyStr(tokenParam) ==> r.status == Failed && r.showModal && r.message == MountMissingToken && r.token.None?
  {
    if IsTruthyStr(tokenParam) then Blank.(token := tokenParam)
    else Blank.(status := Failed, message := MountMissingToken, showModal := true)
  }

  /** A character other than ':' followed by two slashes: where `([^:]\/)\/+` matches. */
  predicate MatchAt(s: string, i: int)
    requires 0 <= i
  {
    i + 2 < |s| && s[i] != ':' && s[i + 1] == '/' && s[i + 2] == '/'
  }

  /** The end of the run of slashes starting at `from`. */
  function SlashRunEnd(s: string, from: nat): (k: nat)
    requires from <= |s|
    ensures from <= k <= |s|
    ensures forall j :: from <= j < k ==> s[j] == '/'
    ensures k < |s| ==> s[k] != '/'
    decreases |s| - from
  {
    if from < |s| && s[from] == '/' then SlashRunEnd(s, from + 1) else from
  }

  /**
   * `url.replace(/([^:]\/)\/+/g, '$1')`: scanning left to right, each match keeps its
   * first two characters and drops the rest of the slash run; scanning resumes after it.
   */
  function CleanUrl(s: string): (r: string)
    ensures |r| <= |s|
    ensures |s| < 2 ==> r == s
    ensures |s| >= 2 ==> |r| >= 2 && r[0] == s[0] && r[1] == s[1]
    decreases |s|
  {
    if |s| == 0 then ""
    else if MatchAt(s, 0) then
      var k := SlashRunEnd(s, 1);
      [s[0], '/'] + CleanUrl(s[k..])
    else [s[0]] + CleanUrl(s[1..])
  }

  /** No double slash left except right after a ':'. */
  predicate IsClean(s: string) {
    forall i :: 0 <= i < |s| ==> !MatchAt(s, i)
  }

  /** A clean URL is left as it is. */
  lemma {:induction false} CleanIsFixed(s: string)
    requires IsClean(s)
    ensures CleanUrl(s) == s
    decreases |s|
  {
    if |s| > 0 {
      assert !MatchAt(s, 0);
      assert forall i :: 0 <= i < |s[1..]| ==> (MatchAt(s[1..], i) <==> MatchAt(s, i + 1));
      CleanIsFixed(s[1..]);
    }
  }

  /** The clean-up leaves no match behind. */
  lemma {:induction false} CleanUrlIsClean(s: string)
    ensures IsClean(CleanUrl(s))
    decreases |s|
  {
    var r := CleanUrl(s);
    if |s| == 0 {
    } else if MatchAt(s, 0) {
      var k := SlashRunEnd(s, 1);
      var rest := CleanUrl(s[k..]);
      CleanUrlIsClean(s[k..]);
      assert r == [s[0], '/'] + rest;
      assert |rest| > 0 ==> rest[0] == s[k] && s[k] != '/' by {
        if |s[k..]| == 1 { assert rest == s[k..]; }
      }
      forall i | 0 <= i < |r| ensures !MatchAt(r, i) {
        if i >= 2 {
          assert MatchAt(r, i) ==> MatchAt(rest, i - 2);
        }
      }
    } else {
      var rest := CleanUrl(s[1..]);
      CleanUrlIsClean(s[1..]);
      assert r == [s[0]] + rest;
      forall i | 0 <= i < |r| ensures !MatchAt(r, i) {
        if i >= 1 {
          assert MatchAt(r, i) ==> MatchAt(rest, i - 1);
        } else if |s| >= 3 {
          assert rest[0] == s[1] && rest[1] == s[2];
        }
      }
    }
  }

  /** Cleaning is idempotent, and a URL needs no cleaning exactly when it is clean. */
  lemma CleanUrlIdempotent(s: string)
    ensures CleanUrl(CleanUrl(s)) == CleanUrl(s)
    ensures CleanUrl(s) == s <==> IsClean(s)
  {
    CleanUrlIsClean(s);
    CleanIsFixed(CleanUrl(s));
    if IsClean(s) {
      CleanIsFixed(s);
    }
  }

  /** The mount effect's URL step: the cleaned URL, and whether `history.replaceState` runs. */
  function FixUrl(href: string): (r: Option<string>)
    ensures r.Some? <==> !IsClean(href)
    ensures r.Some? ==> r.value == CleanUrl(href) && IsClean(r.value)
  {
    CleanUrlIdempotent(href);
    CleanUrlIsClean(href);
    var clean := CleanUrl(href);
    if clean != href then Some(clean) else None
  }
}

=== FILE: roles.dfy ===
/** Role checks on the signed-in user read from storage. */
module Roles {
  import opened Wrappers
  import opened Auth
  import ApiClient

  const Administrator := "administrator"

  /** `hasRole(role)`: a current user exists and has exactly that role. */
  function HasRole(storage: ApiClient.Storage, parse: string -> Option<AuthUser>, role: string): (r: bool)
    ensures r <==>
      && ApiClient.UserKey in storage && storage[ApiClient.UserKey] != ""
      && parse(storage[ApiClient.UserKey]).Some? && parse(storage[ApiClient.UserKey]).value.role == role
  {
    var user := GetCurrentUser(storage, parse);
    user.Some? && user.value.role == role
  }

  /** `isAdministrator`: the administrator case of `HasRole`. */
  function IsAdministrator(storage: ApiClient.Storage, parse: string -> Option<AuthUser>): (r: bool)
    ensures r <==> HasRole(storage, parse, Administrator)
    ensures r ==> GetCurrentUser(storage, parse).Some?
  {
    var user := GetCurrentUser(storage, parse);
    match user
    case None => false
    case Some(u) => u.role == Administrator
  }

  /** `hasAnyRole(...roles)`: a current user exists and its role is one of `roles`. */
  function HasAnyRole(storage: ApiClient.Storage, parse: string -> Option<AuthUser>, roles: seq<string>): (r: bool)
    ensures r <==> exists i :: 0 <= i < |roles| && HasRole(storage, parse, roles[i])
    ensures roles == [] ==> !r
    ensures GetCurrentUser(storage, parse).None? ==> !r
  {
    var user := GetCurrentUser(storage, parse);
    if user.None? then false
    else
      var found := user.value.role in roles;
      assert found ==> exists i :: 0 <= i < |roles| && roles[i] == user.value.role;
      found
  }

  /** Asking for several roles is asking for each one in turn. */
  lemma {:induction false} HasAnyRoleConcat(storage: ApiClient.Storage, parse: string -> Option<AuthUser>, a: seq<string>, b: seq<string>)
    ensures HasAnyRole(storage, parse, a + b) == (HasAnyRole(storage, parse, a) || HasAnyRole(storage, parse, b))
  {
    var user := GetCurrentUser(storage, parse);
    if user.Some? {
      assert user.value.role in a + b <==> user.value.role in a || user.value.role in b;
    }
  }
}

=== FILE: seqs.dfy ===
/** `Array.prototype.filter` and `Array.prototype.map` over immutable sequences. */
module Seqs {

  /** `s.filter(p)`: the elements satisfying `p`, in their original order. */
  function Filter<T>(s: seq<T>, p: T -> bool): (r: seq<T>)
    ensures |r| <= |s|
    ensures forall i :: 0 <= i < |r| ==> r[i] in s && p(r[i])
    ensures forall i :: 0 <= i < |s| && p(s[i]) ==> s[i] in r
    decreases |s|
  {
    if |s| == 0 then []
    else if p(s[0]) then [s[0]] + Filter(s[1..], p)
    else Filter(s[1..], p)
  }

  /** `s.map(f)`: one image per element, position by position. */
  function Map<T, U>(s: seq<T>, f: T -> U): (r: seq<U>)
    ensures |r| == |s|
    ensures forall i :: 0 <= i < |s| ==> r[i] == f(s[i])
  {
    seq(|s|, i requires 0 <= i < |s| => f(s[i]))
  }

  /** `s.flatMap(f)`: the images of the elements, concatenated in order. */
  function FlatMap<T, U>(s: seq<T>, f: T -> seq<U>): seq<U>
    decreases |s|
  {
    if |s| == 0 then [] else f(s[0]) + FlatMap(s[1..], f)
  }

  /** Flat-mapping distributes over concatenation. */
  lemma {:induction false} FlatMapConcat<T, U>(a: seq<T>, b: seq<T>, f: T -> seq<U>)
    ensures FlatMap(a + b, f) == FlatMap(a, f) + FlatMap(b, f)
    decreases |a|
  {
    if |a| == 0 {
      assert a + b == b;
    } else {
      assert (a + b)[1..] == a[1..] + b;
      FlatMapConcat(a[1..], b, f);
    }
  }

  /** When every element has at most one image, there are at most as many images as elements. */
  lemma {:induction false} FlatMapAtMostOne<T, U>(s: seq<T>, f: T -> seq<U>)
    requires forall i :: 0 <= i < |s| ==> |f(s[i])| <= 1
    ensures |FlatMap(s, f)| <= |s|
    decreases |s|
  {
    if |s| > 0 {
      assert forall i :: 0 <= i < |s[1..]| ==> s[1..][i] == s[i + 1];
      FlatMapAtMostOne(s[1..], f);
    }
  }

  /** Filtering distributes over concatenation: each part keeps its survivors, in place. */
  lemma {:induction false} FilterConcat<T>(a: seq<T>, b: seq<T>, p: T -> bool)
    ensures Filter(a + b, p) == Filter(a, p) + Filter(b, p)
    decreases |a|
  {
    if |a| == 0 {
      assert a + b == b;
    } else {
      assert (a + b)[0] == a[0];
      assert (a + b)[1..] == a[1..] + b;
      FilterConcat(a[1..], b, p);
    }
  }

  /** A filter that keeps everything is the identity. */
  lemma {:induction false} FilterAll<T>(s: seq<T>, p: T -> bool)
    requires forall i :: 0 <= i < |s| ==> p(s[i])
    ensures Filter(s, p) == s
    decreases |s|
  {
    if |s| > 0 {
      FilterAll(s[1..], p);
    }
  }

  /** Filtering twice with the same predicate is filtering once. */
  lemma {:induction false} FilterIdempotent<T>(s: seq<T>, p: T -> bool)
    ensures Filter(Filter(s, p), p) == Filter(s, p)
  {
    var r := Filter(s, p);
    assert forall i :: 0 <= i < |r| ==> r[i] in r;
    FilterAll(r, p);
  }

  /** Mapping distributes over concatenation. */
  lemma MapConcat<T, U>(a: seq<T>, b: seq<T>, f: T -> U)
    ensures Map(a + b, f) == Map(a, f) + Map(b, f)
  {
  }

  /**
   * Mapping then filtering keeps the images of the elements whose image passes:
   * `q` is the filter read back through `f`.
   */
  lemma {:induction false} FilterMap<T, U>(s: seq<T>, f: T -> U, p: U -> bool, q: T -> bool)
    requires forall x :: q(x) == p(f(x))
    ensures Filter(Map(s, f), p) == Map(Filter(s, q), f)
    decreases |s|
  {
    if |s| > 0 {
      var m := Map(s, f);
      assert m[0] == f(s[0]);
      assert m[1..] == Map(s[1..], f);
      FilterMap(s[1..], f, p, q);
      if q(s[0]) {
        assert Filter(m, p) == [m[0]] + Filter(m[1..], p);
        assert Filter(s, q) == [s[0]] + Filter(s[1..], q);
        MapConcat([s[0]], Filter(s[1..], q), f);
      } else {
        assert Filter(m, p) == Filter(m[1..], p);
        assert Filter(s, q) == Filter(s[1..], q);
      }
    }
  }

  /** Filtering out one rejected element between two stretches the filter keeps whole leaves the two stretches. */
  lemma FilterDropsOne<T>(a: seq<T>, x: T, b: seq<T>, p: T -> bool)
    requires Filter(a, p) == a && Filter(b, p) == b && !p(x)
    ensures Filter(a + [x] + b, p) == a + b
  {
    var l := a + [x];
    assert Filter([x], p) == [] by {
      assert [x][1..] == [];
    }
    assert Filter(l, p) == a by {
      FilterConcat(a, [x], p);
    }
    FilterConcat(l, b, p);
  }
}

=== FILE: sidebar.dfy ===
/** The sidebar's navigation links and the rule that marks one of them active. */
module Sidebar {
  import opened Strings

  /** A `NAV_LINKS` entry; `text` is its `label`. */
  datatype NavLink = NavLink(href: string, text: string, exact: bool)

  const FeedsLink := NavLink("/dashboard/feeds", "Feeds", false)
  const UsersLink := NavLink("/dashboard/users", "Users", true)

  /** `NAV_LINKS`. */
  const NavLinks := [FeedsLink, UsersLink]

  /** `link.exact ? pathname === link.href : pathname.startsWith(link.href)`. */
  function IsActive(link: NavLink, pathname: string): (r: bool)
    ensures pathname == link.href ==> r
    ensures r ==> |link.href| <= |pathname| && pathname == link.href + pathname[|link.href|..]
    ensures link.exact && r ==> pathname == link.href
  {
    if link.exact then pathname == link.href else StartsWith(pathname, link.href)
  }

  /** One rendered entry: the link and whether it is highlighted. */
  datatype Entry = Entry(link: NavLink, active: bool)

  /** `NAV_LINKS.map(...)`: one entry per link, in order. */
  function Entries(links: seq<NavLink>, pathname: string): (r: seq<Entry>)
    ensures |r| == |links|
    ensures forall i :: 0 <= i < |r| ==> r[i].link == links[i] && (r[i].active <==> IsActive(links[i], pathname))
  {
    seq(|links|, i requires 0 <= i < |links| => Entry(links[i], IsActive(links[i], pathname)))
  }

  /** An exact link is active only on its own path; a prefix link is active on its path and everything under it. */
  lemma ActiveRule(link: NavLink, pathname: string, rest: string)
    ensures link.exact ==> (IsActive(link, pathname) <==> pathname == link.href)
    ensures !link.exact ==> IsActive(link, link.href + rest)
    ensures !link.exact && IsActive(link, pathname) ==> pathname == link.href + pathname[|link.href|..]
  {
    assert (link.href + rest)[..|link.href|] == link.href;
  }

  /** Feeds is highlighted on every page under "/dashboard/feeds", a feed's articles page included. */
  lemma FeedsActiveOnSubpages(rest: string)
    ensures Entries(NavLinks, FeedsLink.href + rest)[0].active
  {
    ActiveRule(FeedsLink, FeedsLink.href + rest, rest);
  }

  /** Users is highlighted on "/dashboard/users" and on no other path. */
  lemma UsersActiveOnlyOnItsPage(pathname: string)
    ensures Entries(NavLinks, pathname)[1].active <==> pathname == "/dashboard/users"
  {
  }

  /** On a users page the Feeds link is not highlighted, so at most one link is active there. */
  lemma UsersPageHighlightsOnlyUsers()
    ensures var e := Entries(NavLinks, UsersLink.href);
      !e[0].active && e[1].active
  {
    assert UsersLink.href[..|FeedsLink.href|] != FeedsLink.href by {
      assert UsersLink.href[11] == 'u' && FeedsLink.href[11] == 'f';
    }
  }
}

=== FILE: strings.dfy ===
/**
 * The JavaScript string operations the dashboard relies on: `trim`, `split` on a
 * one-character separator, `join`, `startsWith`, `includes`, `indexOf` and the
 * first-occurrence `replace` with a string pattern. Strings are sequences of UTF-16
 * code units, modelled as `char`.
 */
module Strings {
  import opened Wrappers

  /** WhiteSpace and LineTerminator code points as `String.prototype.trim` strips them. */
  predicate IsSpace(c: char) {
    || c == ' ' || c == '\t' || c == '\n' || c == '\r'
    || c == '\U{000B}' || c == '\U{000C}' || c == '\U{00A0}' || c == '\U{FEFF}'
    || c == '\U{1680}' || ('\U{2000}' <= c <= '\U{200A}')
    || c == '\U{2028}' || c == '\U{2029}' || c == '\U{202F}' || c == '\U{205F}' || c == '\U{3000}'
  }

  predicate AllSpace(s: string) {
    forall i :: 0 <= i < |s| ==> IsSpace(s[i])
  }

  /** `s.startsWith(p)`. */
  predicate StartsWith(s: string, p: string) {
    |p| <= |s| && s[..|p|] == p
  }

  /** `s.endsWith(p)`. */
  predicate EndsWith(s: string, p: string) {
    |p| <= |s| && s[|s| - |p|..] == p
  }

  /** `s.includes(sub)`: `sub` occurs somewhere in `s` (the empty string occurs everywhere). */
  predicate Contains(s: string, sub: string)
    decreases |s|
  {
    StartsWith(s, sub) || (|s| > 0 && Contains(s[1..], sub))
  }

  /** `s.indexOf(sub)`, with None for -1. */
  function IndexOf(s: string, sub: string): (r: Option<nat>)
    ensures r.Some? ==> r.value + |sub| <= |s| && s[r.value..r.value + |sub|] == sub
    ensures r.Some? ==> forall k :: 0 <= k < r.value ==> !StartsWith(s[k..], sub)
    ensures r.None? <==> !Contains(s, sub)
    decreases |s|
  {
    if StartsWith(s, sub) then Some(0)
    else if |s| == 0 then None
    else
      match IndexOf(s[1..], sub)
      case None => None
      case Some(i) =>
        IndexOfShift(s, sub, i);
        Some(i + 1)
  }

  /** An occurrence found in the tail, one position further along the whole string. */
  lemma IndexOfShift(s: string, sub: string, i: nat)
    requires |s| > 0 && !StartsWith(s, sub)
    requires i + |sub| <= |s[1..]| && s[1..][i..i + |sub|] == sub
    requires forall k :: 0 <= k < i ==> !StartsWith(s[1..][k..], sub)
    ensures i + 1 + |sub| <= |s| && s[i + 1..i + 1 + |sub|] == sub
    ensures forall k :: 0 <= k < i + 1 ==> !StartsWith(s[k..], sub)
  {
    assert s[1..][i..i + |sub|] == s[i + 1..i + 1 + |sub|];
    forall k | 1 <= k < i + 1 ensures !StartsWith(s[k..], sub) {
      assert s[k..] == s[1..][k - 1..];
    }
  }

  /** An occurrence anywhere means `includes` holds. */
  lemma {:induction false} ContainsAt(s: string, sub: string, k: nat)
    requires k <= |s| && StartsWith(s[k..], sub)
    ensures Contains(s, sub)
    decreases k
  {
    if k > 0 {
      assert s[1..][k - 1..] == s[k..];
      ContainsAt(s[1..], sub, k - 1);
    }
  }

  /** `s.replace(pat, rep)` with a string pattern: only the first occurrence is replaced. */
  function ReplaceFirst(s: string, pat: string, rep: string): (r: string)
    ensures !Contains(s, pat) ==> r == s
    ensures StartsWith(s, pat) ==> r == rep + s[|pat|..]
  {
    match IndexOf(s, pat)
    case None => s
    case Some(i) => s[..i] + rep + s[i + |pat|..]
  }

  /** The first position from `i` on that is not white space, or `|s|`. */
  function SpanStart(s: string, i: nat): (n: nat)
    requires i <= |s|
    ensures i <= n <= |s|
    ensures forall k :: i <= k < n ==> IsSpace(s[k])
    ensures n < |s| ==> !IsSpace(s[n])
    decreases |s| - i
  {
    if i < |s| && IsSpace(s[i]) then SpanStart(s, i + 1) else i
  }

  /** The end of `s[lo..hi]` once its trailing white space is cut off. */
  function SpanEnd(s: string, lo: nat, hi: nat): (n: nat)
    requires lo <= hi <= |s|
    ensures lo <= n <= hi
    ensures forall k :: n <= k < hi ==> IsSpace(s[k])
    ensures lo < n ==> !IsSpace(s[n - 1])
    decreases hi
  {
    if lo < hi && IsSpace(s[hi - 1]) then SpanEnd(s, lo, hi - 1) else hi
  }

  /** `s.trim()`: the stretch of `s` between its leading and its trailing white space. */
  function Trim(s: string): (r: string)
    ensures r == "" <==> AllSpace(s)
    ensures |r| > 0 ==> !IsSpace(r[0]) && !IsSpace(r[|r| - 1])
    ensures var lead := SpanStart(s, 0);
      && lead + |r| <= |s|
      && r == s[lead..lead + |r|]
      && (forall k :: 0 <= k < lead ==> IsSpace(s[k]))
      && (forall k :: lead + |r| <= k < |s| ==> IsSpace(s[k]))
  {
    var lead := SpanStart(s, 0);
    var end := SpanEnd(s, lead, |s|);
    assert AllSpace(s) ==> lead == |s|;
    s[lead..end]
  }

  /** `s.split(c)` for a one-character separator: the pieces between separators, at least one. */
  function Split(s: string, c: char): (r: seq<string>)
    ensures |r| >= 1
    decreases |s|
  {
    if |s| == 0 then [""]
    else if s[0] == c then [""] + Split(s[1..], c)
    else
      var rest := Split(s[1..], c);
      [[s[0]] + rest[0]] + rest[1..]
  }

  /** `parts.join(sep)`; the empty list joins to "". */
  function Join(parts: seq<string>, sep: string): string
    decreases |parts|
  {
    if |parts| == 0 then ""
    else if |parts| == 1 then parts[0]
    else parts[0] + sep + Join(parts[1..], sep)
  }

  /** `replace` rewrites the first occurrence of the pattern, wherever it is. */
  lemma {:induction false} ReplaceFirstAt(pre: string, pat: string, post: string, rep: string)
    requires forall k :: 0 <= k < |pre| ==> !StartsWith((pre + pat + post)[k..], pat)
    ensures ReplaceFirst(pre + pat + post, pat, rep) == pre + rep + post
  {
    var s := pre + pat + post;
    assert s[|pre|..][..|pat|] == pat;
    ContainsAt(s, pat, |pre|);
    var i := IndexOf(s, pat).value;
    assert StartsWith(s[|pre|..], pat);
    assert s[i..][..|pat|] == s[i..i + |pat|];
    assert StartsWith(s[i..], pat);
    assert i == |pre|;
    assert s[..i] == pre;
    assert s[i + |pat|..] == post;
  }

  /** Trimming twice is trimming once. */
  lemma TrimIdempotent(s: string)
    ensures Trim(Trim(s)) == Trim(s)
  {
    TrimOfTrimmed(Trim(s));
  }

  /** A string with no white space at either end is its own trim. */
  lemma TrimOfTrimmed(s: string)
    requires |s| > 0 ==> !IsSpace(s[0]) && !IsSpace(s[|s| - 1])
    ensures Trim(s) == s
  {
    if |s| > 0 {
      assert SpanStart(s, 0) == 0;
      assert SpanEnd(s, 0, |s|) == |s|;
    }
  }

  /** No piece produced by `split` contains the separator. */
  lemma {:induction false} SplitPiecesAvoidSeparator(s: string, c: char)
    ensures forall k :: 0 <= k < |Split(s, c)| ==> c !in Split(s, c)[k]
    decreases |s|
  {
    if |s| > 0 {
      SplitPiecesAvoidSeparator(s[1..], c);
    }
  }

  /** A string without the separator splits into itself alone. */
  lemma {:induction false} SplitWithoutSeparator(s: string, c: char)
    requires c !in s
    ensures Split(s, c) == [s]
    decreases |s|
  {
    if |s| > 0 {
      assert c !in s[1..] by {
        forall k | 0 <= k < |s[1..]| ensures s[1..][k] != c {
          assert s[1..][k] == s[k + 1];
        }
      }
      SplitWithoutSeparator(s[1..], c);
      assert [s[0]] + s[1..] == s;
    }
  }

  /** Joining the pieces of a split with the separator gives the original string back. */
  lemma {:induction false} JoinSplit(s: string, c: char)
    ensures Join(Split(s, c), [c]) == s
    decreases |s|
  {
    if |s| > 0 {
      var rest := Split(s[1..], c);
      JoinSplit(s[1..], c);
      if s[0] == c {
        assert Split(s, c) == [""] + rest;
        assert ([""] + rest)[1..] == rest;
        assert [c] + s[1..] == s;
      } else {
        var r := Split(s, c);
        assert r == [[s[0]] + rest[0]] + rest[1..];
        if |rest| == 1 {
          assert [s[0]] + s[1..] == s;
        } else {
          assert r[1..] == rest[1..];
          assert Join(rest, [c]) == rest[0] + [c] + Join(rest[1..], [c]);
          assert [s[0]] + s[1..] == s;
        }
      }
    }
  }

  /** Splitting `a`, the separator, then `b` splits `a` and `b` separately. */
  lemma {:induction false} SplitConcat(a: string, c: char, b: string)
    ensures Split(a + [c] + b, c) == Split(a, c) + Split(b, c)
    decreases |a|
  {
    if |a| == 0 {
      assert a + [c] + b == [c] + b;
      SplitCons(c, b, c);
    } else {
      SplitConcat(a[1..], c, b);
      SplitConcatStep(a[0], a[1..], c, b);
      assert [a[0]] + a[1..] == a;
    }
  }

  /** The inductive step of `SplitConcat`: one more leading character. */
  lemma SplitConcatStep(x: char, a: string, c: char, b: string)
    requires Split(a + [c] + b, c) == Split(a, c) + Split(b, c)
    ensures Split([x] + a + [c] + b, c) == Split([x] + a, c) + Split(b, c)
  {
    var t := a + [c] + b;
    assert [x] + a + [c] + b == [x] + t;
    SplitCons(x, t, c);
    SplitCons(x, a, c);
    if x != c {
      ExtendFirstPiece([x], Split(a, c), Split(b, c));
    }
  }

  /** Prefixing the first piece of a concatenation of piece lists prefixes the first list's first piece. */
  lemma ExtendFirstPiece(h: string, ra: seq<string>, rb: seq<string>)
    requires |ra| >= 1
    ensures [h + (ra + rb)[0]] + (ra + rb)[1..] == ([h + ra[0]] + ra[1..]) + rb
  {
    assert (ra + rb)[0] == ra[0];
    assert (ra + rb)[1..] == ra[1..] + rb;
  }

  /** One step of `split`: a separator closes an empty piece, any other character joins the first piece. */
  lemma SplitCons(x: char, t: string, c: char)
    ensures x == c ==> Split([x] + t, c) == [""] + Split(t, c)
    ensures x != c ==> Split([x] + t, c) == [[x] + Split(t, c)[0]] + Split(t, c)[1..]
  {
    assert ([x] + t)[1..] == t;
  }

  /** Splitting the join of separator-free pieces gives the pieces back. */
  lemma {:induction false} SplitJoin(parts: seq<string>, c: char)
    requires |parts| >= 1
    requires forall k :: 0 <= k < |parts| ==> c !in parts[k]
    ensures Split(Join(parts, [c]), c) == parts
    decreases |parts|
  {
    if |parts| == 1 {
      SplitWithoutSeparator(parts[0], c);
    } else {
      SplitJoin(parts[1..], c);
      SplitConcat(parts[0], c, Join(parts[1..], [c]));
      SplitWithoutSeparator(parts[0], c);
      assert [parts[0]] + parts[1..] == parts;
    }
  }

  /** `p` is what comes before the first `c` in `s`: a prefix of `s` free of `c` that ends at a `c` or at the end. */
  predicate LeadingPiece(p: string, s: string, c: char) {
    |p| <= |s| && p == s[..|p|] && c !in p && (|p| == |s| || s[|p|] == c)
  }

  /** The first piece of a split is the text before the first separator. */
  lemma {:induction false} FirstPiece(s: string, c: char)
    ensures LeadingPiece(Split(s, c)[0], s, c)
    decreases |s|
  {
    if |s| > 0 && s[0] != c {
      FirstPiece(s[1..], c);
      var q := Split(s[1..], c)[0];
      assert Split(s, c)[0] == [s[0]] + q;
      assert s[..|q| + 1] == [s[0]] + s[1..][..|q|];
    }
  }

  /** There is only one text before the first separator. */
  lemma LeadingPieceUnique(a: string, b: string, s: string, c: char)
    requires LeadingPiece(a, s, c) && LeadingPiece(b, s, c)
    ensures a == b
  {
    assert forall i :: 0 <= i < |a| ==> a[i] == s[i];
    assert forall i :: 0 <= i < |b| ==> b[i] == s[i];
  }
}

=== FILE: user_table.dfy ===
/**
 * The users table: who may delete whom, the admin-only actions column, and the
 * delete-confirmation modal as old-state to new-state functions.
 */
module UserTable {
  import opened Wrappers
  import opened ApiClient
  import Auth
  import Roles
  import UsersApi

  type User = UsersApi.User

  /** What the table knows about the person looking at it. */
  datatype Viewer = Viewer(isAdmin: bool, currentUser: Option<Auth.AuthUser>)

  /** Read once per render from storage. */
  function ViewerOf(storage: Storage, parse: string -> Option<Auth.AuthUser>): Viewer {
    Viewer(Roles.IsAdministrator(storage, parse), Auth.GetCurrentUser(storage, parse))
  }

  /** `canDeleteUser`: administrators may delete anyone but themselves. */
  function CanDeleteUser(v: Viewer, user: User): (r: bool)
    ensures !v.isAdmin ==> !r
    ensures v.currentUser.Some? && v.currentUser.value.id == user.id ==> !r
    ensures r <==> v.isAdmin && (v.currentUser.None? || v.currentUser.value.id != user.id)
  {
    if !v.isAdmin then false
    else if v.currentUser.Some? && v.currentUser.value.id == user.id then false
    else true
  }

  /** Seen from storage: a row can be deleted only by a signed-in administrator who is somebody else. */
  lemma CanDeleteNeedsAdministrator(storage: Storage, parse: string -> Option<Auth.AuthUser>, user: User)
    requires CanDeleteUser(ViewerOf(storage, parse), user)
    ensures Roles.HasRole(storage, parse, Roles.Administrator)
    ensures Auth.GetCurrentUser(storage, parse).Some? && Auth.GetCurrentUser(storage, parse).value.id != user.id
  {
  }

  const BaseColumns := ["Name", "Email", "Role", "Status", "Last Login"]

  /** The header row: the five data columns, plus Actions for administrators. */
  function Columns(isAdmin: bool): (r: seq<string>)
    ensures |r| >= 5 && r[..5] == BaseColumns
    ensures |r| == 6 <==> isAdmin
    ensures "Actions" in r <==> isAdmin
  {
    if isAdmin then BaseColumns + ["Actions"] else BaseColumns
  }

  /** The colSpan of the loading and empty placeholder rows. */
  function ColSpan(isAdmin: bool): int {
    if isAdmin then 6 else 5
  }

  /** A placeholder row spans the whole header. */
  lemma ColSpanCoversHeader(isAdmin: bool)
    ensures ColSpan(isAdmin) == |Columns(isAdmin)|
  {
  }

  /** What a row's action cell shows. */
  datatype ActionCell = DeleteButton | Dash

  /** A user row: its five data cells, then the action cell for administrators only. */
  function RowActions(v: Viewer, user: User): (r: seq<ActionCell>)
    ensures |r| == |Columns(v.isAdmin)| - 5
    ensures DeleteButton in r <==> CanDeleteUser(v, user)
  {
    if !v.isAdmin then []
    else if CanDeleteUser(v, user) then [DeleteButton]
    else [Dash]
  }

  /** The delete modal and the state the table keeps around it. */
  datatype State = State(
    open: bool,
    target: Option<User>,
    isDeleting: bool,
    users: seq<User>,
    error: Option<string>)

  /** `handleDeleteClick`. */
  function Click(s: State, user: User): (r: State)
    ensures r.open && r.target == Some(user)
    ensures r.users == s.users && r.error == s.error && r.isDeleting == s.isDeleting
  {
    s.(open := true, target := Some(user))
  }

  /** `handleDeleteCancel`. */
  function Cancel(s: State): (r: State)
    ensures !r.open && r.target.None?
    ensures r.users == s.users && r.error == s.error && r.isDeleting == s.isDeleting
  {
    s.(open := false, target := None)
  }

  /** How the delete request and the list reload that follows it ended. */
  datatype ConfirmOutcome =
    | Deleted(reloaded: seq<User>)
    | DeleteFailed(thrown: Thrown)
    | ReloadFailed(thrown: Thrown)

  const DeleteFallback := "Failed to delete user"
  const DeleteUnexpected := "An unexpected error occurred while deleting user"

  /**
   * `handleDeleteConfirm`: the state afterwards and whether the parent's refresh callback
   * ran; `hasOnRefresh` says whether the parent passed one. With no target it does nothing
   * and sends nothing. This is the handler as intended: the `Deleted` and `ReloadFailed`
   * outcomes need a delete endpoint that the users wrapper does not define (see
   * `ConfirmAsWritten`).
   */
  function Confirm(s: State, outcome: ConfirmOutcome, hasOnRefresh: bool): (r: (State, bool))
    ensures s.target.None? ==> r == (s, false)
    ensures s.target.Some? ==> !r.0.isDeleting
    ensures r.1 <==> s.target.Some? && outcome.Deleted? && hasOnRefresh
    ensures s.target.Some? && outcome.Deleted? ==>
      !r.0.open && r.0.target.None? && r.0.users == outcome.reloaded && r.0.error == s.error
    ensures s.target.Some? && outcome.DeleteFailed? ==>
      r.0.open == s.open && r.0.target == s.target && r.0.users == s.users
      && r.0.error == Some(ErrorText(outcome.thrown, DeleteFallback, DeleteUnexpected))
    ensures s.target.Some? && outcome.ReloadFailed? ==>
      !r.0.open && r.0.target.None? && r.0.users == s.users
      && r.0.error == Some(ErrorText(outcome.thrown, DeleteFallback, DeleteUnexpected))
  {
    if s.target.None? then (s, false)
    else
      var busy := s.(isDeleting := true);
      var after :=
        match outcome
        case Deleted(list) => (busy.(open := false, target := None, users := list), hasOnRefresh)
        case DeleteFailed(t) => (busy.(error := Some(ErrorText(t, DeleteFallback, DeleteUnexpected))), false)
        case ReloadFailed(t) => (busy.(open := false, target := None, error := Some(ErrorText(t, DeleteFallback, DeleteUnexpected))), false);
      (after.0.(isDeleting := false), after.1)
  }

  /**
   * After any failed delete the modal still targets the clicked user, the rows are as they
   * were and the parent is not signalled; cancelling then gives the cancelled table with
   * only the banner and the cleared busy flag differing.
   */
  lemma ConfirmFailureKeepsTarget(s: State, user: User, t: Thrown, hasOnRefresh: bool)
    ensures var r := Confirm(Click(s, user), DeleteFailed(t), hasOnRefresh);
      && r.0.open && r.0.target == Some(user) && r.0.users == s.users && !r.1
      && r.0.error.Some? && r.0.error.value != ""
      && Cancel(r.0) == Cancel(s).(error := r.0.error, isDeleting := false)
  {
  }

  /**
   * A delete followed by a reload ends where cancelling would, except that the reloaded
   * rows are shown; the parent is signalled exactly when it passed a callback.
   */
  lemma ConfirmSuccessIsCancel(s: State, user: User, reloaded: seq<User>, hasOnRefresh: bool)
    ensures var r := Confirm(Click(s, user), Deleted(reloaded), hasOnRefresh);
      r.0 == Cancel(s).(users := reloaded, isDeleting := false) && r.1 == hasOnRefresh
  {
  }

  /**
   * `handleDeleteConfirm` as the component is written: the users wrapper defines only `list`,
   * so `usersApi.delete` is undefined and calling it throws a TypeError before any request.
   * With a target that is always the unexpected-error branch of the intended handler.
   */
  function ConfirmAsWritten(s: State, hasOnRefresh: bool): (r: (State, bool))
    ensures r == Confirm(s, DeleteFailed(OtherError), hasOnRefresh)
  {
    if s.target.None? then (s, false)
    else (s.(error := Some(DeleteUnexpected), isDeleting := false), false)
  }

  /**
   * As written, confirming never deletes: the modal stays on the clicked user with the
   * unexpected-error text, the rows stay, nothing is signalled, and so the outcome differs
   * from every successful delete of the intended handler.
   */
  lemma ConfirmAsWrittenNeverDeletes(s: State, user: User, reloaded: seq<User>, hasOnRefresh: bool)
    ensures var r := ConfirmAsWritten(Click(s, user), hasOnRefresh);
      && r.0.open && r.0.target == Some(user) && r.0.users == s.users && !r.1
      && r.0.error == Some(DeleteUnexpected)
      && r != Confirm(Click(s, user), Deleted(reloaded), hasOnRefresh)
  {
  }

  /** Click then cancel leaves the table as it was apart from the modal. */
  lemma ClickCancelCloses(s: State, user: User)
    ensures Cancel(Click(s, user)) == Cancel(s)
  {
  }
}

=== FILE: users_api.dfy ===
/** The users API wrapper: the user transform and the list query string. */
module UsersApi {
  import opened Wrappers
  import opened Query
  import Seqs

  /** A user as the backend sends it; `isActive` may be missing or null. */
  datatype BackendUser = BackendUser(
    id: string,
    name: string,
    email: string,
    role: string,
    isActive: Option<bool>,
    lastLoginAt: Option<string>,
    createdAt: Option<string>)

  /** A user as the dashboard holds it. */
  datatype User = User(
    id: string,
    name: string,
    email: string,
    role: string,
    isActive: bool,
    lastLoginAt: Option<string>,
    createdAt: Option<string>)

  /** `transformUser`. */
  function TransformUser(b: BackendUser): (u: User)
    ensures u.id == b.id && u.name == b.name && u.email == b.email && u.role == b.role
    ensures u.lastLoginAt == b.lastLoginAt && u.createdAt == b.createdAt
    ensures b.isActive.Some? ==> u.isActive == b.isActive.value
  {
    User(b.id, b.name, b.email, b.role, Js.BoolOr(b.isActive, true), b.lastLoginAt, b.createdAt)
  }

  /** `isActive ?? true`: a user is shown inactive only when the backend says false explicitly. */
  lemma InactiveOnlyWhenSaid(b: BackendUser)
    ensures !TransformUser(b).isActive <==> b.isActive == Some(false)
  {
  }

  /** `UserListQuery`. */
  datatype UserListQuery = UserListQuery(page: Option<int>, limit: Option<int>, search: Option<string>)

  const ListKeys := ["page", "limit", "search"]

  function ListCandidates(q: UserListQuery): seq<Candidate> {
    [NumParam("page", q.page), NumParam("limit", q.limit), TextParam("search", q.search)]
  }

  /** No key is sent twice. */
  lemma ListKeysDistinct()
    ensures Distinct(ListKeys)
  {
  }

  /** The query string of `usersApi.list`, as its ordered parameters. */
  function ListParams(q: UserListQuery): (r: seq<Param>)
    ensures IsSubsequence(Keys(r), ListKeys)
    ensures Lookup(r, "page") == (if IsTruthyNum(q.page) then Some(Decimal.IntToString(q.page.value)) else None)
    ensures Lookup(r, "limit") == (if IsTruthyNum(q.limit) then Some(Decimal.IntToString(q.limit.value)) else None)
    ensures Lookup(r, "search") == Js.EmptyToAbsent(q.search)
  {
    var c := ListCandidates(q);
    ListKeysDistinct();
    EmitFaithful(c, ListKeys);
    assert Lookup(Emit(c), "page") == c[0].1 by { assert ListKeys[0] == "page"; }
    assert Lookup(Emit(c), "limit") == c[1].1 by { assert ListKeys[1] == "limit"; }
    assert Lookup(Emit(c), "search") == c[2].1 by { assert ListKeys[2] == "search"; }
    Emit(c)
  }

  function DecodeListQuery(ps: seq<Param>): UserListQuery {
    UserListQuery(DecodeNum(Lookup(ps, "page")), DecodeNum(Lookup(ps, "limit")), Lookup(ps, "search"))
  }

  function Sent(q: UserListQuery): UserListQuery {
    UserListQuery(NumValue(q.page), NumValue(q.limit), Js.EmptyToAbsent(q.search))
  }

  /** Building the parameters and reading them back loses exactly the falsy fields. */
  lemma ListParamsRoundTrip(q: UserListQuery)
    ensures DecodeListQuery(ListParams(q)) == Sent(q)
  {
    var ps := ListParams(q);
    NumParamRoundTrip("page", q.page);
    NumParamRoundTrip("limit", q.limit);
    assert Lookup(ps, "page") == NumParam("page", q.page).1;
    assert Lookup(ps, "limit") == NumParam("limit", q.limit).1;
  }

  /** The list endpoint's answer: users plus flat paging fields. */
  datatype BackendUserList = BackendUserList(data: seq<BackendUser>, total: int, page: int, limit: int)

  datatype UserListResponse = UserListResponse(data: seq<User>, total: int, page: int, limit: int)

  /** `{ ...response, data: response.data.map(transformUser) }`. */
  function MapListResponse(raw: BackendUserList): (r: UserListResponse)
    ensures |r.data| == |raw.data|
    ensures forall i :: 0 <= i < |r.data| ==> r.data[i] == TransformUser(raw.data[i])
    ensures r.total == raw.total && r.page == raw.page && r.limit == raw.limit
  {
    UserListResponse(Seqs.Map(raw.data, TransformUser), raw.total, raw.page, raw.limit)
  }
}

=== FILE: wrappers.dfy ===
/** Option and Result, the two shapes every "maybe" and every "may fail" in this model takes. */
module Wrappers {

  /** A value that may be absent: `null`/`undefined` on the JavaScript side. */
  datatype Option<+T> = None | Some(value: T) {

    /** The value, or `default` when absent. */
    function GetOr(default: T): T {
      match this
      case Some(v) => v
      case None => default
    }
  }

  /** The outcome of an operation that may throw. */
  datatype Result<+T, +E> = Success(value: T) | Failure(error: E)
}
